=== FILE: README.md ===
# GPT-Telegram-Worker core in Dafny

This project models the core of a Telegram chat bot that runs as a Cloudflare Worker and
answers through an OpenAI-compatible Gemini chat-completions endpoint. The model covers:

- how an update is dispatched. A private chat is gated by the whitelist. A group message must
  mention the bot and passes a per-chat cooldown; whitelisted users skip the cooldown.
- how the prompt is assembled from the system message, the cleaned stored context and the
  question;
- the retry loop of the group path: at most three calls, with doubling sleeps after an
  "overloaded" error;
- how a reply is formatted, rendered to Telegram HTML, split into messages of at most 4096
  characters, and stored back as context;
- the commands, the inline keyboards and their callback data;
- the rate limiter;
- the configuration read from the environment;
- the translation lookup;
- the Gemini client.

The model has these modules:

- `Text`: the JavaScript string operations the code relies on (`indexOf`, `trim`, `split`, `replace`).
- `Decimal`: `Number#toString`, `parseInt(…, 10)` and `parseInt(…)` without a radix.
- `Markup`: the regular expressions of the code, as hand-written matchers with a global replace `ReplaceAll`.
- `Helpers`: `escapeHtml`, `formatCodeBlock` and `formatHtml`.
- `Stripping`: `stripFormatting`.
- `MessageSplit`: `splitMessage`.
- `RateLimiting`: the class `RateLimiter`.
- `Env`: `getConfig`.
- `I18n`: `translate`.
- `Gemini`: the class `GeminiAPI`.
- `Commands`: the command table, help text and keyboards.
- `Turn`: the pure decisions of the bot.
  - prompt assembly;
  - `processContext` and `formatResponse`;
  - the group gate;
  - update routing;
  - the retry loop.
- `Telegram`: the class `TelegramBot`.

The bot's effects are modelled as follows:

- Everything the bot puts out is appended to `trace`: messages, requests to the endpoint, sleeps and callback answers.
- The Redis store is the map `store`.
- The cooldown namespace is the rate limiter's map `kv`.
- The clock is an explicit `now` argument of each handled update.
- The endpoint's replies come from an oracle indexed by request number.

The model follows the code as written, including where its behaviour is easy to misread:

- The group path makes at most three `generateResponse` calls, not four. The retry counter
  starts at 3 and is decremented on every overloaded error. The loop also sleeps after the third
  overloaded attempt before it gives up, so the sleeps are 1000, 2000 and 4000 ms
  (`Turn.RetryExhausted`).
- `sendMessageWithFallback` never reaches its plain-text fallback. `sendMessageInternal`
  catches every transport error and returns an empty list, so nothing reaches the outer
  `catch`; `formatHtml` and `splitMessage` cannot throw. The model therefore always sends the
  HTML rendering.
- `escapeHtml` and `formatHtml` replace `&`, `<`, `>` and `'` by themselves; only `"` becomes
  `&quot;` (`Helpers.EscapeHtmlQuotesOnly`). Code blocks are therefore not escaped for HTML.
- The callback data `model_<m>` is decoded with `split('_')[1]`. A model whose name contains `_`
  is decoded to the part before its first `_` (`Commands.ModelCallback`).
- Switching to a model outside the catalogue is accepted. The unknown name is stored, and the
  client is built for the first catalogue model (`Telegram.SwitchAccepted`).
- `formatHtml` turns the backticks of a fence into `<code>` spans before its fence rule runs.
  That rule then never finds a fence (`Helpers.FormatHtmlSkipsFences`).
- `isRateLimited` reads the cooldown stamp with `parseInt(…, 10)`, but `getRemainingTime` reads
  it with `parseInt(…)` and no radix, which takes `0x…` as hexadecimal and `0x` alone as `NaN`.
  On the decimal stamps the limiter writes, the two reads agree (`RateLimiting.StampsAgree`). On
  other text they can disagree (`RateLimiting.StampReadsDisagree`), and the cooldown notice then
  shows `NaN` seconds.
- A `GROUP_COOLDOWN_INTERVAL` without digits parses to `NaN`. The limiter is then built with a
  `NaN` cooldown: it never limits a chat, and the remaining time is `NaN`
  (`RateLimiting.NaNCooldownNeverLimits`).
- `start` throws when no model can be found, and `history` throws when the model check or the
  summary request fails. The rejection passes through `executeCommand`, the group handler and
  `handleUpdate`, and `handleWebhook` then answers 500. The model reports it as the `rejected`
  result of these methods (`Telegram.TelegramBot.CommandRejects`).

## Model

| member | source | states |
|---|---|---|
| Text.FindFrom | src/api/telegram.ts:558 | the first occurrence of the pattern at or after `from`, or none at all, as `indexOf` does and as a lazy `[\s\S]*?` stops |
| Text.TrimStart | src/utils/helpers.ts:6 | the result is a suffix of the input, has no leading white space, and only white space was removed |
| Text.TrimEnd | src/utils/helpers.ts:6 | the result is a prefix of the input, has no trailing white space, and only white space was removed |
| Text.Trim | src/utils/helpers.ts:6 | `trim()`: no longer than the input and no white space at either end |
| Text.SplitOn | src/utils/helpers.ts:104 | `split(sep)`: at least one piece and no piece contains the separator |
| Text.JoinSplitOn | src/utils/helpers.ts:104 | joining the pieces of `split(sep)` with `sep` gives the input back |
| Text.SplitOnCons | src/api/telegram.ts:452 | splitting `a + sep + b` with no `sep` in `a` gives `a` followed by the pieces of `b` |
| Text.SplitOnFirst | src/api/telegram.ts:456 | the first piece is the whole string exactly when the separator is absent, and otherwise the part before its first occurrence |
| Text.LastIndexOf | src/utils/helpers.ts:104 | the index of the last occurrence of a character, or none when it is absent |
| Text.ReplaceFirst | src/api/telegram.ts:203 | `replace(string, string)`: unchanged when the pattern is absent; otherwise the first occurrence, and only it, is replaced in place, the text before and after it kept |
| Decimal.NatToString | src/utils/rate-limiter.ts:18 | `toString()` of a natural number: non-empty, all digits, no leading zero |
| Decimal.NatToStringValue | src/utils/rate-limiter.ts:18 | the digits written denote the number |
| Decimal.ParseInt | src/utils/rate-limiter.ts:12 | `parseInt(s, 10)` is `NaN` (None) exactly when no digit follows the leading white space and sign; the value it reads is fixed by `ParseIntToString` (a written integer reads back as itself) |
| Decimal.ParseIntToString | src/utils/rate-limiter.ts:12 | reading back a written integer gives the integer |
| Decimal.IntToStringInjective | src/utils/rate-limiter.ts:18 | distinct integers are written differently |
| Decimal.WrittenBody | src/utils/rate-limiter.ts:18 | a written integer has no leading white space, starts with `-` exactly when it is negative, and its digits write its magnitude |
| Decimal.HexRun | src/utils/rate-limiter.ts:22 | the length of the leading run of hexadecimal digits |
| Decimal.ParseIntAnyRadix | src/utils/rate-limiter.ts:22 | `parseInt(s)` without a radix: `parseInt(s, 10)` unless `0x` or `0X` follows the sign, and then `NaN` exactly when no hexadecimal digit follows the prefix |
| Decimal.HexNumber | src/utils/rate-limiter.ts:22 | the base-16 branch of `parseInt(s)`: `NaN` exactly when no hexadecimal digit follows the prefix |
| Decimal.HexText | src/utils/rate-limiter.ts:22 | an optional sign, `0x` or `0X`, hexadecimal digits and then anything that does not start with one reads as the digits' base-16 value, negated after `-` |
| Decimal.ParseIntAnyRadixToString | src/utils/rate-limiter.ts:18-22 | on a written integer both reads agree and give the integer back |
| Decimal.HexStampDisagrees | src/utils/rate-limiter.ts:12-22 | `0x10` reads as 0 in base 10 and as 16 without a radix |
| Decimal.BarePrefixDisagrees | src/utils/rate-limiter.ts:12-22 | `0x` reads as 0 in base 10 and as `NaN` without a radix |
| Markup.ReplaceAllNoMatch | src/utils/helpers.ts:39-51 | a global replace whose pattern matches nowhere leaves the text unchanged |
| Markup.ReplaceAllPrefix | src/utils/helpers.ts:39-51 | a prefix where the pattern never matches passes through a global replace untouched |
| Markup.LazyClose | src/utils/helpers.ts:44-46 | `d(.*?)d`: the nearest closing delimiter, with no line break between the two and no earlier closing delimiter |
| Markup.LinkAt | src/utils/helpers.ts:50 | a `[caption](url)` match splits the text into a non-empty caption, a non-empty url and the rest |
| Markup.FenceLen | src/utils/helpers.ts:65 | a fence match starts and ends with three backticks and holds a body of at least the required length |
| Markup.CharToItself | src/utils/helpers.ts:41-43 | replacing a character by itself changes nothing |
| Markup.CharToRemoves | src/utils/helpers.ts:58 | after replacing every `c` by a text without `c`, no `c` remains |
| Markup.DelimitedWhole | src/utils/helpers.ts:44-46 | a delimited span on one line is replaced by its content between the new tags |
| Markup.DelimitedNoDoubled | src/utils/helpers.ts:46-47 | after the single-backtick rule no two backticks are adjacent, so no fence can remain |
| Markup.LinkToWhole | src/utils/helpers.ts:50 | a whole `[caption](url)` is replaced by the rendering of its caption and url |
| Markup.LinkToAbsent | src/utils/helpers.ts:50 | text without a link passes the link rule unchanged |
| Markup.ReplaceAllBefore | src/utils/helpers.ts:39-51 | a global replace that cannot see past the end of a text, and finds nothing in what follows it, leaves what follows untouched |
| Markup.DelimitedBlind | src/utils/helpers.ts:44-46 | a delimited span never reaches into a following text that lacks the delimiter's first and last characters |
| Markup.LinkToBlind | src/utils/helpers.ts:50 | a link never reaches into a following text without brackets or parentheses |
| Markup.ReplaceAllAvoids | src/utils/helpers.ts:39-51 | a global replace whose replacements lack a character adds no occurrence of it |
| Markup.LinkToTextAvoids | src/utils/helpers.ts:76 | the `caption (url)` rendering adds no character other than a space and parentheses |
| Helpers.EscapeHtmlQuotesOnly | src/utils/helpers.ts:53-60 | `escapeHtml` changes only `"`, into `&quot;` |
| Helpers.EscapeHtmlNoQuote | src/utils/helpers.ts:58 | no `"` is left after escaping |
| Helpers.EscapeHtmlQuoteFree | src/utils/helpers.ts:53-60 | text without `"` is its own escape |
| Helpers.EscapeHtml | src/utils/helpers.ts:53-60 | specified by `EscapeHtmlQuotesOnly`, `EscapeHtmlNoQuote` and `EscapeHtmlQuoteFree` |
| Helpers.FormatCodeBlock | src/utils/helpers.ts:4-12 | specified by `CodeBodyShape` and `CodeBodyOfTidyCode`: a normalised, escaped body between the `pre` and `code` tags |
| Helpers.LeadingNewlines | src/utils/helpers.ts:7 | the length of the run `^\n+` |
| Helpers.TrailingNewlines | src/utils/helpers.ts:7 | the length of the run `\n+$` |
| Helpers.CollapseNewlinesBound | src/utils/helpers.ts:8 | after `\n{3,}` becomes `\n\n`, no three line breaks are adjacent |
| Helpers.CollapseNewlinesLeading | src/utils/helpers.ts:8 | a leading run of line breaks is capped at two |
| Helpers.CollapseNewlinesEnds | src/utils/helpers.ts:8 | collapsing keeps the first and last character of a text that starts and ends with other characters |
| Helpers.CollapseNewlinesNoop | src/utils/helpers.ts:8 | collapsing is the identity on text with no triple line break, so it is idempotent |
| Helpers.CodeBodyShape | src/utils/helpers.ts:6-8 | the normalised code is trimmed, has no triple line break and escapes without `"` |
| Helpers.CodeBodyOfTidyCode | src/utils/helpers.ts:4-12 | code that is already trimmed and has no triple line break is kept unchanged |
| Helpers.TrimmedIsTrim | src/utils/helpers.ts:6 | text without white space at either end is its own trim |
| Helpers.FormatHtmlSkipsFences | src/utils/helpers.ts:46-49 | the fence rule of `formatHtml` never fires once inline code has been rendered |
| Helpers.PreHtmlNoFence | src/utils/helpers.ts:47-49 | text with no doubled backtick passes the fence rule unchanged |
| Helpers.FormatHtmlPlain | src/utils/helpers.ts:39-51 | text without markup characters is rendered as itself |
| Helpers.FormatHtml | src/utils/helpers.ts:39-51 | specified by `FormatHtmlPlain`, `FormatHtmlBold`, `FormatHtmlItalic`, `FormatHtmlLink` and `FormatHtmlSkipsFences` |
| Helpers.FormatHtmlBold | src/utils/helpers.ts:44 | `**x**` becomes `<b>x</b>` |
| Helpers.FormatHtmlItalic | src/utils/helpers.ts:45 | `*x*` becomes `<i>x</i>` |
| Helpers.FormatHtmlLink | src/utils/helpers.ts:50 | `[a](u)` becomes `<a href="u">a</a>` |
| Helpers.HtmlMarkupBold | src/utils/helpers.ts:44 | the bold rule renders `**x**` and the later rules leave the result alone |
| Helpers.HtmlMarkupItalic | src/utils/helpers.ts:45 | the italic rule renders `*x*` and the later rules leave the result alone |
| Helpers.HtmlMarkupLink | src/utils/helpers.ts:50 | the link rule renders `[a](u)` and the earlier rules leave it alone |
| Helpers.NoDoubleStar | src/utils/helpers.ts:44 | the bold rule finds nothing in a single-star span |
| Stripping.TokenAt | src/utils/helpers.ts:79 | a `__CODE_BLOCK_n__` match starts with the token prefix and lies within the text |
| Stripping.PlaceholderToken | src/utils/helpers.ts:67 | the placeholder written for block `n` is read back as `n`, whatever follows it |
| Stripping.SaveBlocksAtFence | src/utils/helpers.ts:65-68 | a fence is replaced by the placeholder of the next index and is saved |
| Stripping.SaveBlocksAtChar | src/utils/helpers.ts:65-68 | a character that does not start a fence is kept |
| Stripping.SaveBlocksNoTick | src/utils/helpers.ts:65-68 | text without a backtick saves no block |
| Stripping.SaveBlocksNoFence | src/utils/helpers.ts:65-68 | text without three backticks saves no block |
| Stripping.SaveBlocksShape | src/utils/helpers.ts:65-68 | the text before the first fence is kept, followed by that fence's placeholder |
| Stripping.StripFormatting | src/utils/helpers.ts:62-82 | the loop that saves the blocks, strips the prose and restores the blocks computes `Stripped(text)` |
| Stripping.FenceStep | src/utils/helpers.ts:65-68 | the scan invariant survives saving a fence |
| Stripping.CharStep | src/utils/helpers.ts:65-68 | the scan invariant survives copying a character |
| Stripping.NoTokenAcrossPlaceholder | src/utils/helpers.ts:79 | no token is read that starts in the prose and runs into a placeholder |
| Stripping.RestoreSaved | src/utils/helpers.ts:79-81 | restoring the placeholders gives back the text the blocks were saved from |
| Stripping.Stripped | src/utils/helpers.ts:62-82 | specified by `StripFormatting` (the loop computes it) and by the lemmas below |
| Stripping.StrippedKeepsBlocks | src/utils/helpers.ts:62-82 | when the prose has no markup, stripping returns the text unchanged with its code blocks in place |
| Stripping.StrippedProseThenBlock | src/utils/helpers.ts:62-82 | prose with markup followed by a code block: the prose is stripped and the block comes back verbatim behind it |
| Stripping.StrippedBlockThenProse | src/utils/helpers.ts:62-82 | a code block followed by prose with markup: the block comes back verbatim and the prose behind it is stripped |
| Stripping.SaveProseThenFence | src/utils/helpers.ts:65-68 | prose then a block saves the block and leaves the prose in front of its placeholder |
| Stripping.SaveFenceThenProse | src/utils/helpers.ts:65-68 | a block then prose saves the block and leaves its placeholder in front of the prose |
| Stripping.RestoreBehind | src/utils/helpers.ts:79-81 | the restoring replace copies prose without `_` and puts the block back behind it |
| Stripping.StripProseBefore | src/utils/helpers.ts:71-76 | the prose rules leave alone a following text without stars, backticks, brackets or parentheses |
| Stripping.StripProseAfter | src/utils/helpers.ts:71-76 | the prose rules copy a leading text without stars, backticks or `[` |
| Stripping.StripProseAvoids | src/utils/helpers.ts:71-76 | the prose rules add no character other than a space and parentheses |
| Stripping.StrippedPlainText | src/utils/helpers.ts:62-82 | text without markup and without placeholders is its own stripping |
| Stripping.StrippedProseOnly | src/utils/helpers.ts:62-82 | without fences and with no `_` left in the prose, stripping is the prose rules alone |
| Stripping.StripProseTripleStar | src/utils/helpers.ts:72 | `***x***` becomes `x` |
| Stripping.StripProseDoubleStar | src/utils/helpers.ts:73 | `**x**` becomes `x` |
| Stripping.StripProseStar | src/utils/helpers.ts:74 | `*x*` becomes `x` |
| Stripping.StripProseTick | src/utils/helpers.ts:75 | `` `x` `` becomes `x` |
| Stripping.StripProseLink | src/utils/helpers.ts:76 | `[a](u)` becomes `a (u)` |
| Stripping.StripProseOfPlain | src/utils/helpers.ts:71-76 | plain text passes the prose rules unchanged |
| Stripping.StrippedEmphasis | src/utils/helpers.ts:62-82 | stripping removes the stars and backticks around plain text |
| Stripping.StrippedStars | src/utils/helpers.ts:72-74 | stripping removes one, two or three stars around plain text |
| Stripping.StrippedTick | src/utils/helpers.ts:75 | stripping removes the backticks around plain text |
| Stripping.StrippedLink | src/utils/helpers.ts:76 | stripping writes a link as `caption (url)` |
| MessageSplit.NextFence | src/utils/helpers.ts:89 | the next position where a fence ``` … ``` starts, and its length; none starts before it |
| MessageSplit.Parts | src/utils/helpers.ts:89 | `split` with a capturing group gives an odd number of parts |
| MessageSplit.ConcatParts | src/utils/helpers.ts:89 | the parts concatenate to the text |
| MessageSplit.PartsShape | src/utils/helpers.ts:89 | the parts at odd indexes are the fences |
| MessageSplit.FenceLenIsFence | src/utils/helpers.ts:89 | a fence match is a fence |
| MessageSplit.SplitMessage | src/utils/helpers.ts:85-124 | the nested loops over parts and lines produce exactly `Chunks(text, maxLength)` |
| MessageSplit.Chunks | src/utils/helpers.ts:85-124 | specified by `SplitMessage` (the loops compute it), `SplitMessageFencesWhole`, `SplitMessageBound`, `SplitMessageShort` and `SplitMessageEmpty` |
| MessageSplit.RunLinesSnoc | src/utils/helpers.ts:105-115 | one more iteration of the line loop is one more `StepLine` |
| MessageSplit.RunPartsSnoc | src/utils/helpers.ts:92-117 | one more iteration of the part loop is one more `StepPart` |
| MessageSplit.StepFenceLands | src/utils/helpers.ts:93-102 | a fenced part ends up whole in a pushed message or in the pending one |
| MessageSplit.StepFenceHolds | src/utils/helpers.ts:93-102 | a fence already placed stays whole when a fenced part is handled |
| MessageSplit.StepLineHolds | src/utils/helpers.ts:104-115 | a fence already placed stays whole when a line is handled, even when it is trimmed on push |
| MessageSplit.RunLinesHolds | src/utils/helpers.ts:104-115 | the same across all lines of a part |
| MessageSplit.StepPartHolds | src/utils/helpers.ts:92-117 | the same across one part |
| MessageSplit.RunPartsLands | src/utils/helpers.ts:92-117 | every fence among the parts is whole inside the accumulated messages |
| MessageSplit.FenceLands | src/utils/helpers.ts:85-124 | a fence of the text lies whole inside some chunk |
| MessageSplit.SplitMessageFencesWhole | src/utils/helpers.ts:85-124 | no code fence is ever split across two messages |
| MessageSplit.InsideTrim | src/utils/helpers.ts:96 | trimming a message keeps a fence that lies inside it |
| MessageSplit.FlushOk | src/utils/helpers.ts:119-121 | the final push keeps the length bound |
| MessageSplit.StepLineOk | src/utils/helpers.ts:106-114 | the length bound survives handling a line |
| MessageSplit.StepFenceOk | src/utils/helpers.ts:94-101 | the length bound survives handling a fenced part |
| MessageSplit.RunLinesOk | src/utils/helpers.ts:104-115 | the length bound survives all lines of a part |
| MessageSplit.RunPartsOk | src/utils/helpers.ts:92-117 | the length bound survives all parts |
| MessageSplit.SplitMessageBound | src/utils/helpers.ts:85-124 | every message has at most `maxLength` characters, unless it is a fence pushed on its own or the trim of a single overlong line |
| MessageSplit.DropNewlines | src/utils/helpers.ts:113 | the result is no longer than the input and does not start with a line break |
| MessageSplit.ShortLines | src/utils/helpers.ts:104-115 | while the lines fit, the pending message is the lines joined by line breaks |
| MessageSplit.NoFenceOnePart | src/utils/helpers.ts:89 | text without a fence is a single part |
| MessageSplit.SplitMessageShort | src/utils/helpers.ts:85-124 | a short text without fences is sent as one trimmed message, or not at all when it is blank |
| MessageSplit.SplitMessageEmpty | src/utils/helpers.ts:119-123 | the empty text gives no message |
| RateLimiting.Key | src/utils/rate-limiter.ts:12 | the key is `last_request:` followed by the chat id |
| RateLimiting.KeyInjective | src/utils/rate-limiter.ts:12 | distinct chats have distinct keys |
| RateLimiting.ReadStamp | src/utils/rate-limiter.ts:12 | a missing or empty stamp reads as 0 |
| RateLimiting.ReadStampAnyRadix | src/utils/rate-limiter.ts:22 | a missing or empty stamp reads as 0 without a radix too |
| RateLimiting.StampsAgree | src/utils/rate-limiter.ts:12-22 | on a stamp the limiter wrote, or on none, `isRateLimited` and `getRemainingTime` read the same time |
| RateLimiting.Remaining | src/utils/rate-limiter.ts:22-23 | `max(0, cooldown - (now - last))` over the stamp read without a radix: defined exactly when neither that read nor the cooldown is `NaN`, never negative, and equal to `cooldown - (now - last)` when positive |
| RateLimiting.StampReadsDisagree | src/utils/rate-limiter.ts:12-23 | a stored `0x10` leaves a chat free while time remains, and a stored `0x` limits it while no time is defined |
| RateLimiting.RateLimiter.constructor | src/utils/rate-limiter.ts:6-9 | the limiter holds the cooldown and the namespace it is given |
| RateLimiting.RateLimiter.IsRateLimited | src/utils/rate-limiter.ts:11-14 | specified by `NoStampIsZero`, `StampWindow`, `ZeroCooldownNeverLimits` and `LimitedIffTimeRemains` |
| RateLimiting.RateLimiter.SetLastRequestTime | src/utils/rate-limiter.ts:17-19 | the chat's stamp becomes `now` and is read back as `now`; every other chat's stamp is unchanged |
| RateLimiting.RateLimiter.GetRemainingTime | src/utils/rate-limiter.ts:21-24 | the remaining time is defined exactly when neither the stamp read without a radix nor the cooldown is `NaN` |
| RateLimiting.NoStampIsZero | src/utils/rate-limiter.ts:12-13 | a chat never stamped reads 0, so it is limited exactly while the cooldown is a number and `now < cooldown` |
| RateLimiting.LimitedIffTimeRemains | src/utils/rate-limiter.ts:11-24 | on a stamp the limiter wrote, a chat is limited exactly when its remaining time is positive |
| RateLimiting.RemainingAtMostCooldown | src/utils/rate-limiter.ts:23 | with a non-negative cooldown, the remaining time never exceeds it |
| RateLimiting.StampWindow | src/utils/rate-limiter.ts:13 | after a stamp at `t` the chat is limited before `t + cooldown` and free from then on, when the cooldown is a number |
| RateLimiting.ZeroCooldownNeverLimits | src/utils/rate-limiter.ts:13 | a zero cooldown never limits |
| RateLimiting.NaNCooldownNeverLimits | src/utils/rate-limiter.ts:11-24 | a `NaN` cooldown never limits a chat, whatever its stamp, and leaves the remaining time `NaN` |
| Env.GetEnvOrDefault | src/env.ts:20-22 | the binding when it is non-empty, otherwise the default |
| Env.CommaList | src/env.ts:32 | one trimmed entry per comma-separated piece, none containing a comma |
| Env.CommaListJoin | src/env.ts:42 | pieces without surrounding white space join back into the binding |
| Env.GetConfig | src/env.ts:24-47 | the configuration fails exactly when the Google key is missing or empty, with the stated message |
| Env.Defaults | src/env.ts:30-46 | with only a key set: the stock system message, role `system`, bot name `bot`, the stock base url, a 180000 ms cooldown, TTLs of one year and thirty days, and empty lists |
| Env.Unset | src/env.ts:20-22 | every other binding is absent when only the key is set |
| Env.DefaultCooldownValue | src/env.ts:45 | the default cooldown text parses to 180000 |
| Env.CooldownParsed | src/env.ts:45 | the configured cooldown is `parseInt(…, 10)` of the binding, or of the default text `180000` when the binding is falsy |
| I18n.Translate | src/utils/i18n.ts:104-105 | the phrase of the language when it exists and is non-empty, otherwise the Chinese phrase |
| I18n.TranslateTotal | src/utils/i18n.ts:104-105 | every lookup lands on a phrase of the given language or of Chinese; an unknown language gets the Chinese phrase |
| I18n.DisclaimerOpensBlank | src/utils/i18n.ts:70 | in both languages the disclaimer opens with a blank line |
| I18n.TranslateName | src/config/commands.ts:93-94 | a computed name that is a key gets its phrase, any other name the text `undefined` |
| Gemini.WhiteSpaceEnd | src/api/gemini.ts:70 | the end of the run `\s*` |
| Gemini.WordEnd | src/api/gemini.ts:70 | the end of the run `\w*` |
| Gemini.Closing | src/api/gemini.ts:70 | the position of the closing ``` lies inside the text |
| Gemini.ClosingIsIndexOf | src/api/gemini.ts:70 | the closing fence is the first ``` at or after the position |
| Gemini.LastOpening | src/api/gemini.ts:70 | a backtracking match position for `\s*\n` that lies in the range and is followed by a body and a closing fence |
| Gemini.LastOpeningIsLast | src/api/gemini.ts:70 | the chosen line break is the last one from which the body can start, as backtracking finds it |
| Gemini.GeminiAPI.constructor | src/api/gemini.ts:27-33 | key, base url (default when unset) and catalogue come from the configuration; the default model is `DEFAULT_MODEL` or else the first catalogue model; without `DEFAULT_MODEL` there is a default exactly when the catalogue is non-empty, and that default is a valid model |
| Gemini.GeminiAPI.IsValidModel | src/api/gemini.ts:77-79 | specified by the constructor: the default model it picks from the catalogue is valid |
| Gemini.GeminiAPI.GetDefaultModel | src/api/gemini.ts:81-83 | specified by the constructor: without `DEFAULT_MODEL` there is a default exactly when the catalogue is non-empty, and it is valid |
| Gemini.GeminiAPI.GetAvailableModels | src/api/gemini.ts:85-87 | specified by the constructor: the catalogue of the configuration |
| Gemini.GeminiAPI.UseModel | src/api/gemini.ts:36 | the requested model when it is non-empty, otherwise the default |
| Gemini.GeminiAPI.Request | src/api/gemini.ts:37-54 | the request goes to `/chat/completions` with the bearer key, the model to use, the messages and `n: 1` |
| Gemini.GeminiAPI.GenerateResponse | src/api/gemini.ts:56-74 | an HTTP error fails with the status and body, no choices fails with its message, otherwise the first choice with its code blocks reformatted |
| Gemini.OverloadPassesThrough | src/api/gemini.ts:56-60 | an "overloaded" error body reaches the caller, where the retry loop sees it |
| Gemini.FormatContent | src/api/gemini.ts:70-72 | specified by `FormatContentNoFence`, `FormatContentLabelled`, `FormatContentUnlabelled` and `FirstWordTakenAsLanguage` |
| Gemini.FormatContentNoFence | src/api/gemini.ts:70-72 | content without a fence is returned unchanged |
| Gemini.FormatContentLabelled | src/api/gemini.ts:70-72 | a labelled fence becomes `formatCodeBlock(body, lang)` |
| Gemini.FormatContentUnlabelled | src/api/gemini.ts:70-72 | an unlabelled fence becomes `formatCodeBlock(body, '')` |
| Gemini.FirstWordTakenAsLanguage | src/api/gemini.ts:70 | a fence whose first line is a single word takes that word as its language |
| Commands.Names | src/config/commands.ts:13-100 | the names of the table, in order |
| Commands.TableShape | src/config/commands.ts:13-100 | the six commands in order, with distinct names |
| Commands.DescriptionKeys | src/config/commands.ts:93 | the key computed as `${name}_description` is the key each entry registers |
| Commands.Find | src/api/telegram.ts:124 | `find` returns an entry with that name, and finds none exactly when no entry has it |
| Commands.FindFirst | src/api/telegram.ts:124 | the entry found is the first one with the name |
| Commands.FindCommand | src/api/telegram.ts:124 | specified by `FindCommandExactly` |
| Commands.FindCommandExactly | src/api/telegram.ts:124-131 | a name finds a command exactly when it is in the table, and then finds that entry |
| Commands.HelpMessage | src/config/commands.ts:90-95 | the loop builds the intro, a blank line and one `/name - description` line per command |
| Commands.HelpLinesRegistered | src/config/commands.ts:92-95 | when every computed key is the registered one, the help lines are the registered descriptions |
| Commands.HelpTextRegistered | src/config/commands.ts:90-95 | the help text lists every command with its registered description, in table order |
| Commands.ModelKeyboard | src/config/commands.ts:56-58 | one button row per catalogue model, in order, carrying `model_<name>` |
| Commands.CallbackArgument | src/api/telegram.ts:452 | `split('_')[1]` is defined exactly when the data holds `_`, and holds no `_` itself |
| Commands.ModelCallback | src/api/telegram.ts:456 | `model_<m>` decodes to the part of `m` before its first `_`, which is `m` exactly when it has no `_` |
| Commands.ModelKeyboardRoundTrip | src/config/commands.ts:57 | a model button shows its model, and its callback decodes back to it exactly when the name has no `_` |
| Commands.LanguageCallbacks | src/config/commands.ts:33-40 | the two language buttons carry `lang_` data that decodes to `en` and `zh` |
| Commands.LanguageCallback | src/api/telegram.ts:451-452 | `lang_<l>` decodes to `l` when `l` has no `_` |
| Commands.LanguageKeys | src/api/telegram.ts:454 | the names `language_en` and `language_zh` are translation keys |
| Turn.TagLen | src/api/telegram.ts:724 | the length of a leading `Q: `, `A: `, `User: ` or `Assistant: ` tag, or zero |
| Turn.UntagExchange | src/api/telegram.ts:724 | removing the tags from a stored exchange gives the question and the answer on two lines |
| Turn.UntagPlain | src/api/telegram.ts:724 | a line without a tag is untouched |
| Turn.UntagFromPlain | src/api/telegram.ts:724 | tags are only removed at the start of a line |
| Turn.CleanContext | src/api/telegram.ts:723-736 | the cleaned context has no white space at either end |
| Turn.ParseJson | src/api/telegram.ts:719 | text that cannot start a JSON value never parses |
| Turn.ProcessContext | src/api/telegram.ts:716-737 | specified by `ProcessContextNotJson`, `ProcessContextExchange`, `ProcessContextFence`, `ProcessContextEmphasis` and `ProcessContextLink` |
| Turn.ProcessContextNotJson | src/api/telegram.ts:716-737 | text that is not JSON is cleaned |
| Turn.ProcessContextExchange | src/api/telegram.ts:515-519 | a stored exchange of plain lines is kept as the question and the answer, trimmed |
| Turn.ProcessContextFence | src/api/telegram.ts:725-730 | a fenced block is reduced to its trimmed body |
| Turn.FenceUnwrapped | src/api/telegram.ts:725-730 | the fence rule drops the opening line and the closing fence and trims the body |
| Turn.DropOpenClose | src/api/telegram.ts:727-728 | dropping the opening and the closing fence leaves the body |
| Turn.ProcessContextEmphasis | src/api/telegram.ts:731-734 | one, two or three stars, or backticks, around plain text are removed |
| Turn.ProcessContextLink | src/api/telegram.ts:735 | a link is reduced to its caption |
| Turn.StripMarkupNoMarks | src/api/telegram.ts:731-735 | text without stars, backticks or brackets passes the markup rules unchanged |
| Turn.StripMarkupTripleStar | src/api/telegram.ts:731 | `***x***` becomes `x` |
| Turn.StripMarkupDoubleStar | src/api/telegram.ts:732 | `**x**` becomes `x` |
| Turn.StripMarkupStar | src/api/telegram.ts:733 | `*x*` becomes `x` |
| Turn.StripMarkupTick | src/api/telegram.ts:734 | `` `x` `` becomes `x` |
| Turn.FormatResponseNoFence | src/api/telegram.ts:555-564 | a response without a fence is not changed |
| Turn.FormatResponseFence | src/api/telegram.ts:558-563 | a fenced block gets its body normalised and each fence on a line of its own |
| Turn.ResponseFenceWhole | src/api/telegram.ts:558 | the fence rule matches a whole block and yields the normalised fence |
| Turn.ResponseFenceShape | src/api/telegram.ts:558 | the fence rule ends at the first closing ``` after the language word and the line break |
| Turn.FormatResponse | src/api/telegram.ts:555-564 | specified by `FormatResponseNoFence`, `FormatResponseFence` and `ResponseFenceWhole` |
| Turn.Exchange | src/api/telegram.ts:262 | the stored exchange starts with `Q: ` |
| Turn.Prompt | src/api/telegram.ts:226-230 | the system message, then the context as a user message when it is non-empty, then the question |
| Turn.PromptContext | src/api/telegram.ts:224 | no stored context gives no context message |
| Turn.ReplyTextParts | src/api/telegram.ts:256-258 | the reply's first line break falls right after the robot emoji and the model; after it come the formatted response and then the disclaimer, which ends the reply |
| Turn.ReplyDisclaimerBlank | src/api/telegram.ts:256-258 | in both languages a blank line separates the formatted response from the disclaimer |
| Turn.CommandCall | src/api/telegram.ts:199 | the command name has no space, and name and arguments are the space-separated pieces after `/` |
| Turn.CommandCallText | src/api/telegram.ts:308 | the text is `/`, the name, and the arguments joined by spaces |
| Turn.GroupAdmission | src/api/telegram.ts:190-215 | a message without the mention is ignored; a command runs only for whitelisted users; the cooldown applies exactly to non-whitelisted users who are limited; only non-whitelisted users are stamped |
| Turn.WhitelistedSkipCooldown | src/api/telegram.ts:205-215 | a whitelisted user's decision does not depend on the cooldown and never stamps it |
| Turn.CeilSeconds | src/api/telegram.ts:207 | `Math.ceil(ms / 1000)`: the least number of whole seconds that covers the time |
| Turn.CooldownNoticeParts | src/api/telegram.ts:207 | the notice is the cooldown phrase, the seconds, then the `seconds` phrase; the seconds read back as the remaining time rounded up, and are `NaN` exactly when no time is defined |
| Turn.CooldownSecondsReadBack | src/api/telegram.ts:207 | the seconds written read back as the same number, and up to one second shows as 1 |
| Turn.Route | src/api/telegram.ts:275-340 | callbacks are handled first; groups go to the group handler; only whitelisted users reach commands, media refusal or chat; only private outsiders are told they are unauthorised |
| Turn.GroupRouteIgnoresWhitelist | src/api/telegram.ts:295-297 | a group message goes to the group handler whatever the whitelist says |
| Turn.OutsidersOnlyDenied | src/api/telegram.ts:334-338 | an outsider in a private chat is refused and is otherwise ignored |
| Turn.RetryLoop | src/api/telegram.ts:233-251 | the number of calls lies between the attempts already made and the attempts allowed |
| Turn.Doublings | src/api/telegram.ts:245 | one delay per sleep |
| Turn.RetryLoopDelays | src/api/telegram.ts:236-251 | each sleep doubles the one before and follows an overloaded attempt |
| Turn.RetryLoopEnd | src/api/telegram.ts:236-251 | the loop stops at the first attempt that is not overloaded, or after the last attempt with the empty response |
| Turn.RetrySpec | src/api/telegram.ts:233-254 | one to three calls; sleeps of 1000, 2000 and 4000 ms after overloaded attempts; success is a non-empty response; failure is the retry failure or a non-overload error |
| Turn.Retry | src/api/telegram.ts:233-254 | specified by `RetrySpec`, `RetryOtherError`, `RetryExhausted` and `RetryEmptyResponse` |
| Turn.RetryOtherError | src/api/telegram.ts:246-248 | any other error ends the loop at once, after one call |
| Turn.RetryExhausted | src/api/telegram.ts:236-254 | three overloads make three calls, sleep 1000, 2000 and 4000 ms, and fail |
| Turn.RetryEmptyResponse | src/api/telegram.ts:252-254 | an empty response is a failure after one call |
| Telegram.Sends | src/api/telegram.ts:172-180 | one message per chunk, in order, each with the same options |
| Telegram.SendsStep | src/api/telegram.ts:175-178 | one more iteration sends one more chunk |
| Telegram.Attempts | src/api/telegram.ts:236-251 | the number of requests and sleeps of a run |
| Telegram.AttemptsExtend | src/api/telegram.ts:236-251 | a later sleep does not change the events before it |
| Telegram.AttemptsShape | src/api/telegram.ts:236-251 | each attempt is a request followed by its sleep, in order |
| Telegram.After | src/api/telegram.ts:243 | earlier sleeps come before the sleeps of the rest of the loop |
| Telegram.RetryStops | src/api/telegram.ts:238-239 | an attempt that is not overloaded ends the loop with its outcome |
| Telegram.RetryContinues | src/api/telegram.ts:241-245 | an overloaded attempt sleeps for the current delay and retries with the delay doubled |
| Telegram.StoreKeysDistinct | src/api/telegram.ts:482-522 | the language, model and context keys never collide, and each identifies its user |
| Telegram.UserLanguage | src/api/telegram.ts:481-484 | the stored language when it is non-empty, else `zh` |
| Telegram.UserLanguageKept | src/api/telegram.ts:501-529 | clearing the context or storing a model keeps every user's language |
| Telegram.UserModel | src/api/telegram.ts:490-499 | the stored model when it is non-empty, else the first catalogue model; it fails exactly when there is neither |
| Telegram.ModelCheck | src/api/telegram.ts:65-76 | specified by `ModelCheckInCatalogue`, `ModelGate` and `SwitchAccepted` |
| Telegram.ModelCheckInCatalogue | src/api/telegram.ts:65-76 | building the client succeeds only for a catalogue model, and uses the current model when it is one |
| Telegram.ModelGate | src/api/telegram.ts:65-76 | with a key, a non-empty catalogue always builds a client, and an empty one never does |
| Telegram.PerUserDefaults | src/api/telegram.ts:481-499 | a user with nothing stored speaks Chinese and uses the first catalogue model |
| Telegram.SystemMessageFrom | src/api/telegram.ts:79-117 | a missing, empty or unparsable stored message gives the configured role (default `system`) and content |
| Telegram.SystemMessageNonEmpty | src/api/telegram.ts:79-117 | whatever is stored, the system message has a non-empty role and content |
| Telegram.SwitchAccepted | src/api/telegram.ts:455-465 | a switch to a catalogue model builds the client for it; a switch to an unknown model is accepted and uses the first catalogue model |
| Telegram.TelegramBot.constructor | src/api/telegram.ts:44-58 | the bot holds the configuration, the system message as loaded, and a limiter with the configured cooldown (a `NaN` one included) and namespace |
| Telegram.TelegramBot.IsUserWhitelisted | src/api/telegram.ts:573-575 | specified through `GroupAdmission`, `WhitelistedSkipCooldown`, `Route` and `OutsidersOnlyDenied`, which take its answer |
| Telegram.TelegramBot.Outcomes | src/api/telegram.ts:233-251 | the outcomes of the next three calls, in order |
| Telegram.TelegramBot.OutcomesAt | src/api/telegram.ts:238 | the i-th of the next outcomes is that call's outcome |
| Telegram.TelegramBot.Generation | src/api/telegram.ts:233-254 | one to three calls; without retry exactly one call; a success is the outcome of the last call |
| Telegram.TelegramBot.SendChunks | src/api/telegram.ts:174-179 | the loop sends each chunk once, in order, with the same options; nothing else changes |
| Telegram.TelegramBot.SendMessage | src/api/telegram.ts:172-180 | sends the chunks of `splitMessage` in order, and nothing else changes |
| Telegram.TelegramBot.SendMessageWithFallback | src/api/telegram.ts:344-361 | sends the HTML rendering in HTML parse mode, and nothing else changes |
| Telegram.TelegramBot.StoreContext | src/api/telegram.ts:515-519 | appends the processed exchange to the user's context |
| Telegram.TelegramBot.ClearContext | src/api/telegram.ts:525-529 | deletes the user's context and announces a new conversation in the user's language |
| Telegram.TelegramBot.SetCurrentModel | src/api/telegram.ts:501-505 | stores the model and rebuilds the client, which may fail |
| Telegram.TelegramBot.Generate | src/api/telegram.ts:322 | one request with the next outcome |
| Telegram.TelegramBot.RetryAttempts | src/api/telegram.ts:233-251 | the loop makes the calls and sleeps of `RetryLoop` and returns its result |
| Telegram.TelegramBot.GenerateWithRetry | src/api/telegram.ts:233-254 | the calls and sleeps of `Retry`, with an empty response turned into a failure |
| Telegram.TelegramBot.Answer | src/api/telegram.ts:233-254 | generation with or without retry, as `Generation` says |
| Telegram.TelegramBot.Converse | src/api/telegram.ts:218-267 | with a model: prompt the endpoint; on success send the reply and store the exchange; on failure send and store nothing; without a model do nothing |
| Telegram.TelegramBot.SummarizeHistory | src/api/telegram.ts:531-553 | no model fails without a call; no context answers `no_history` without a call; otherwise one request with the summary prompt over the processed context |
| Telegram.TelegramBot.CommandRejects | src/config/commands.ts:15-83 | `start` rejects when `getCurrentModel` throws (no stored model and an empty catalogue); `history` rejects when the model check fails or, with a stored context, when the summary request fails; no other command rejects |
| Telegram.TelegramBot.Start | src/config/commands.ts:15-25 | rejects, sending nothing, exactly when no model can be found; otherwise sends the welcome naming the current model; the store and the calls are unchanged |
| Telegram.TelegramBot.History | src/config/commands.ts:75-83 | rejects exactly as `CommandRejects` says; the store is unchanged and at most one call is made |
| Telegram.TelegramBot.ExecuteCommand | src/api/telegram.ts:123-132 | an unknown name gets `command_not_found`; `start`, `language`, `switchmodel`, `new`, `history` and `help` each send their text or keyboard and change the store as their action does; at most one call is made; the result rejects exactly as `CommandRejects` says |
| Telegram.CallbackStore | src/api/telegram.ts:439-479 | the store after a callback query; its cases are stated by `CallbackCases` |
| Telegram.ConfirmedStore | src/api/telegram.ts:451-465 | the store after a valid query: `lang_` stores the language, `model_` switches the model, other data changes nothing; stated by `CallbackCases` |
| Telegram.CallbackEvents | src/api/telegram.ts:439-479 | what a callback query puts out; its cases are stated by `CallbackCases` |
| Telegram.Confirmation | src/api/telegram.ts:451-465 | the confirmation of a valid query, before the answer; stated by `CallbackCases` |
| Telegram.CallbackCases | src/api/telegram.ts:439-479 | without a message or data nothing is sent and nothing stored; `lang_<l>` stores `l` as the sender's language and confirms in `l`; `model_<m>` (not also `lang_`) clears the context, stores `m` and confirms in the sender's language; any other data only answers; every valid query ends with the answer |
| Telegram.TelegramBot.Confirm | src/api/telegram.ts:451-465 | the store becomes `ConfirmedStore` and the trace gains `Confirmation`; no call is made |
| Telegram.TelegramBot.HandleCallbackQuery | src/api/telegram.ts:439-479 | the store and the trace are `CallbackStore` and `CallbackEvents`, whose cases `CallbackCases` states; no call is made |
| Telegram.TelegramBot.SwitchModel | src/api/telegram.ts:455-465 | clears the context, stores the model, and confirms or reports the error |
| Telegram.TelegramBot.HandleGroupMessage | src/api/telegram.ts:182-268 | follows `GroupAdmission`: ignore, or the cooldown notice with the seconds left (`NaN` when the stamp cannot be read), or a command, or an answer that stamps the cooldown for non-whitelisted users and takes the group turn (the reply sent and the exchange stored, as for `AnswerInGroup`); at most three calls; it rejects only when the command it runs does |
| Telegram.TelegramBot.NoticeCooldown | src/api/telegram.ts:205-210 | replies with the cooldown notice for the time remaining |
| Telegram.TelegramBot.AnswerInGroup | src/api/telegram.ts:212-267 | stamps the cooldown when asked (the stamp stays whatever the turn does), then, with a usable model, runs the retry loop on the prompt of system message, stored context and question: on success it sends the formatted reply with the disclaimer in reply to the message and appends the exchange to the stored context, on failure it sends and stores nothing; without a model it does nothing; one to three calls |
| Telegram.TelegramBot.HandlePrivateMessage | src/api/telegram.ts:298-339 | media of a whitelisted sender get `unsupported_message` and outsiders `unauthorized`, with nothing stored and no call; a chat makes one call when there is a model; a command at most one; only a command can reject |
| Telegram.TelegramBot.HandleUpdate | src/api/telegram.ts:271-341 | follows `Route`: a callback changes the store and the trace as `CallbackStore` and `CallbackEvents` say; outsiders and media get their notice; a chat makes one call when there is a model, a command at most one and a group message at most three; only an admitted group question from outside the whitelist stamps the cooldown; the update rejects exactly when the command it runs, privately or from a group, rejects |

## Left out

- The network is not modelled. This covers the `fetch` of `sendMessageInternal`, `editMessage`, `deleteMessage`, `sendPhoto`, `setWebhook`, `setMenuButton`, `handleWebhook`, the callback answer and `sendChatAction`. Sends are events in `trace`. The 500 that `handleWebhook` answers for a rejected update is the `rejected` result of `HandleUpdate`. The endpoint's replies are an oracle, and its reply body is given already decoded.
- src/utils/redis.ts is not part of this model. The Redis store is a map of strings. `appendContext` is a parameter of the bot (`append`), because its semantics are not visible. The TTLs are computed but never expire anything.
- The cooldown namespace is a map. `Date.now()` is the explicit `now` of each handled update.
- `JSON.parse` is an oracle. It is consulted only for text that could begin a JSON value and is otherwise taken to fail.
- `setTimeout`: the sleeps are recorded as delays in `trace`. Time does not pass in the model.
- Concurrency between async handlers is not modelled, including the check-then-stamp race on the cooldown key. Each update runs to completion.
- `formatMarkdown` and `standardizeMarkdown` are left out because they are never called. The former also refers to an undefined variable.
- The unreachable `return formatHtml(response)` after the `try` of `formatResponse` is left out. So is the plain-text fallback of `sendMessageWithFallback`, whose `catch` is never reached.
- String lengths count characters. JavaScript counts UTF-16 code units, so the 4096-character limit differs for text outside the Basic Multilingual Plane.
- The phrases of the translation tables are a parameter `Table`. The model assumes only that both languages define every key and that both disclaimers open with a blank line.
- The welcome sent by `handleStartCommand` is modelled only through the `start` command, because `handleStartCommand` itself is never called.
- `getAvailableModels`, `isValidModel` and `initialize` of the bot only forward to the client. The model keeps only the client's versions.
- Console logging is left out.
- Telegram.TelegramBot.HandleGroupMessage: the `RunCommand` case states only that the cooldown namespace is unchanged and whether the handler rejects. The trace and store of a command are the contract of `ExecuteCommand`, which it calls.
- Telegram.TelegramBot.HandleUpdate: the `ToChat`, `ToCommand` and `ToGroup` cases state the number of calls, whether the update rejects and, for a group, the cooldown, not the full trace. The full traces are the contracts of `Converse`, `ExecuteCommand` and `HandleGroupMessage`, which it calls.
- RateLimiting.LimitedIffTimeRemains: holds only for a stamp the limiter wrote itself, in decimal. `isRateLimited` reads the stamp with radix 10, but `getRemainingTime` reads it without a radix, so a stored `0x` text splits the two reads (`StampReadsDisagree`).
- Stripping.StrippedKeepsBlocks: for prose that has markup, the model proves only prose on one side of a single block (`StrippedProseThenBlock`, `StrippedBlockThenProse`). With prose on both sides of a block, a span can open before the placeholder and close after it, so the result is not the two stripped pieces around the block. The general case with markup is therefore not stated.
- Telegram.TelegramBot.ExecuteCommand: `history` is stated only as "the store is unchanged, at most one call is made, and it rejects as `CommandRejects` says". The text it sends is `SummarizeHistory`'s contract.
- Telegram.TelegramBot.History: states the store, the number of calls and the rejection, not the text it sends, which is `SummarizeHistory`'s contract.
- Telegram.TelegramBot.HandlePrivateMessage: the `ToChat` and `ToCommand` cases state the number of calls and the rejection, not the full trace, which is the contract of `Converse` and `ExecuteCommand`.

=== FILE: commands.dfy ===
/** The bot's commands: the table of names and description keys, the help text built from
    it, and the inline keyboards whose callback data `handleCallbackQuery` decodes again with
    `split('_')[1]`. What each command does is `TelegramBot.ExecuteCommand`. */
module Commands {
  import opened Wrappers
  import opened Text
  import opened I18n

  /** A table entry: the name typed after `/` and the key of its help line. */
  datatype Command = Command(name: string, description: TranslationKey)

  const CommandTable: seq<Command> := [
    Command("start", StartDescription),
    Command("language", LanguageDescription),
    Command("switchmodel", SwitchmodelDescription),
    Command("new", NewDescription),
    Command("history", HistoryDescription),
    Command("help", HelpDescription)
  ]

  function Names(cs: seq<Command>): (r: seq<string>)
    ensures |r| == |cs| && forall i :: 0 <= i < |cs| ==> r[i] == cs[i].name
  {
    seq(|cs|, i requires 0 <= i < |cs| => cs[i].name)
  }

  /** The six commands in order, under distinct names. */
  lemma TableShape()
    ensures Names(CommandTable) == ["start", "language", "switchmodel", "new", "history", "help"]
    ensures forall i, j :: 0 <= i < j < |CommandTable| ==> CommandTable[i].name != CommandTable[j].name
  {
  }

  /** Every entry is registered with the key its name and `_description` spell, which is the
      key the help text computes; the first three entries, then the last three. */
  lemma DescriptionKeyFront(i: nat)
    requires i < 3
    ensures KeyNamed(CommandTable[i].name + "_description") == Some(CommandTable[i].description)
  {
    var c := CommandTable[i];
    if i == 0 {
      assert c.name + "_description" == "start_description";
    } else if i == 1 {
      assert c.name + "_description" == "language_description";
    } else {
      assert c.name + "_description" == "switchmodel_description";
    }
  }

  lemma DescriptionKeyBack(i: nat)
    requires 3 <= i < |CommandTable|
    ensures KeyNamed(CommandTable[i].name + "_description") == Some(CommandTable[i].description)
  {
    var c := CommandTable[i];
    if i == 3 {
      assert c.name + "_description" == "new_description";
    } else if i == 4 {
      assert c.name + "_description" == "history_description";
    } else {
      assert c.name + "_description" == "help_description";
    }
  }

  lemma DescriptionKeys()
    ensures forall i :: 0 <= i < |CommandTable| ==>
      KeyNamed(CommandTable[i].name + "_description") == Some(CommandTable[i].description)
  {
    forall i | 0 <= i < |CommandTable|
      ensures KeyNamed(CommandTable[i].name + "_description") == Some(CommandTable[i].description)
    {
      if i < 3 {
        DescriptionKeyFront(i);
      } else {
        DescriptionKeyBack(i);
      }
    }
  }

  /** `commands.find(cmd => cmd.name === name)`: the first entry with that name. */
  function Find(cs: seq<Command>, name: string): (r: Option<Command>)
    ensures r.Some? ==> r.value in cs && r.value.name == name
    ensures r.None? <==> forall c :: c in cs ==> c.name != name
  {
    if cs == [] then None
    else if cs[0].name == name then Some(cs[0])
    else
      assert forall c :: c in cs ==> c == cs[0] || c in cs[1..];
      Find(cs[1..], name)
  }

  /** The entry found is the first one with that name. */
  lemma {:induction false} FindFirst(cs: seq<Command>, name: string)
    requires Find(cs, name).Some?
    ensures exists i :: 0 <= i < |cs| && cs[i] == Find(cs, name).value && forall j :: 0 <= j < i ==> cs[j].name != name
  {
    if cs[0].name != name {
      FindFirst(cs[1..], name);
      var i :| 0 <= i < |cs[1..]| && cs[1..][i] == Find(cs, name).value && forall j :: 0 <= j < i ==> cs[1..][j].name != name;
      assert cs[i + 1] == Find(cs, name).value && forall j :: 0 <= j < i + 1 ==> cs[j].name != name;
    }
  }

  function FindCommand(name: string): Option<Command> {
    Find(CommandTable, name)
  }

  /** Every command is found under its own name, and no other name finds anything. */
  lemma FindCommandExactly(name: string)
    ensures FindCommand(name).Some? <==> name in Names(CommandTable)
    ensures forall i :: 0 <= i < |CommandTable| && CommandTable[i].name == name ==> FindCommand(name) == Some(CommandTable[i])
  {
    TableShape();
    if FindCommand(name).None? {
      assert forall i :: 0 <= i < |CommandTable| ==> CommandTable[i] in CommandTable;
    }
  }

  // ---------------------------------------------------------------------------
  // The help text

  /** One help line: `/name - ` and the phrase of the key `${name}_description`. */
  function HelpLine(t: Table, c: Command, language: string): string
    requires Complete(t)
  {
    "/" + c.name + " - " + TranslateName(t, c.name + "_description", language) + "\n"
  }

  /** The help lines of the commands, in order. */
  function HelpLines(t: Table, cs: seq<Command>, language: string): string
    requires Complete(t)
    decreases |cs|
  {
    if cs == [] then "" else HelpLines(t, cs[..|cs| - 1], language) + HelpLine(t, cs[|cs| - 1], language)
  }

  function HelpText(t: Table, language: string): string
    requires Complete(t)
  {
    Translate(t, HelpIntro, language) + "\n\n" + HelpLines(t, CommandTable, language)
  }

  /** The `help` action's text: the intro and a blank line, then a line per command appended
      in a loop over the table it is given. */
  method HelpMessage(t: Table, language: string, commands: seq<Command>) returns (helpMessage: string)
    requires Complete(t)
    ensures helpMessage == Translate(t, HelpIntro, language) + "\n\n" + HelpLines(t, commands, language)
  {
    helpMessage := Translate(t, HelpIntro, language) + "\n\n";
    for i := 0 to |commands|
      invariant helpMessage == Translate(t, HelpIntro, language) + "\n\n" + HelpLines(t, commands[..i], language)
    {
      var command := commands[i];
      var descriptionKey := command.name + "_description";
      helpMessage := helpMessage + "/" + command.name + " - " + TranslateName(t, descriptionKey, language) + "\n";
      assert commands[..i + 1][..i] == commands[..i];
    }
    assert commands[..|commands|] == commands;
  }

  /** A help line as the table registers it: the phrase of the entry's own description key. */
  function RegisteredLine(t: Table, c: Command, language: string): string
    requires Complete(t)
  {
    "/" + c.name + " - " + Translate(t, c.description, language) + "\n"
  }

  function RegisteredLines(t: Table, cs: seq<Command>, language: string): string
    requires Complete(t)
    decreases |cs|
  {
    if cs == [] then "" else RegisteredLines(t, cs[..|cs| - 1], language) + RegisteredLine(t, cs[|cs| - 1], language)
  }

  /** When every computed key is the registered one, the help lines are the registered lines. */
  lemma {:induction false} HelpLinesRegistered(t: Table, cs: seq<Command>, language: string)
    requires Complete(t)
    requires forall i :: 0 <= i < |cs| ==> KeyNamed(cs[i].name + "_description") == Some(cs[i].description)
    ensures HelpLines(t, cs, language) == RegisteredLines(t, cs, language)
    decreases |cs|
  {
    if cs != [] {
      HelpLinesRegistered(t, cs[..|cs| - 1], language);
    }
  }

  /** The help text is the intro, a blank line, then one line per command in table order, each
      with the phrase of the description key the table registers for it. */
  lemma HelpTextRegistered(t: Table, language: string)
    requires Complete(t)
    ensures HelpText(t, language) == Translate(t, HelpIntro, language) + "\n\n" + RegisteredLines(t, CommandTable, language)
  {
    DescriptionKeys();
    HelpLinesRegistered(t, CommandTable, language);
  }

  // ---------------------------------------------------------------------------
  // Keyboards and their callback data

  datatype Button = Button(text: string, callbackData: string)

  /** Rows of buttons. */
  type Keyboard = seq<seq<Button>>

  const LanguagePrefix := "lang_"
  const ModelPrefix := "model_"

  /** The `language` command's keyboard: one row, English then Simplified Chinese. */
  const LanguageKeyboard: Keyboard := [[
    Button("\U{1F1FA}\U{1F1F8} English", "lang_en"),
    Button("\U{1F1E8}\U{1F1F3} \U{7B80}\U{4F53}\U{4E2D}\U{6587}", "lang_zh")
  ]]

  /** The `switchmodel` command's keyboard: a row per catalogue model, in catalogue order. */
  function ModelKeyboard(models: seq<string>): (r: Keyboard)
    ensures |r| == |models|
    ensures forall i :: 0 <= i < |models| ==> r[i] == [Button(models[i], ModelPrefix + models[i])]
  {
    seq(|models|, i requires 0 <= i < |models| => [Button(models[i], ModelPrefix + models[i])])
  }

  /** `data.split('_')[1]`: the second piece; `None` is the `undefined` of data without `_`. */
  function CallbackArgument(data: string): (r: Option<string>)
    ensures r.Some? <==> '_' in data
    ensures r.Some? ==> '_' !in r.value
  {
    var pieces := SplitOn(data, '_');
    if |pieces| > 1 then Some(pieces[1]) else None
  }

  /** What `model_<m>` decodes to: the part of `m` before its first `_`, so exactly `m` when
      `m` has no `_`, and otherwise a proper prefix of it. */
  lemma ModelCallback(m: string)
    ensures CallbackArgument(ModelPrefix + m) == Some(SplitOn(m, '_')[0])
    ensures CallbackArgument(ModelPrefix + m) == Some(m) <==> '_' !in m
    ensures '_' in m ==> StartsWith(m, SplitOn(m, '_')[0] + "_")
  {
    assert ModelPrefix + m == "model" + ['_'] + m;
    SplitOnCons("model", '_', m);
    SplitOnFirst(m, '_');
  }

  /** Every row of the model keyboard carries its model's name, and its callback decodes back
      to that model exactly when the name has no `_`. */
  lemma ModelKeyboardRoundTrip(models: seq<string>, i: nat)
    requires i < |models|
    ensures |ModelKeyboard(models)[i]| == 1 && ModelKeyboard(models)[i][0].text == models[i]
    ensures CallbackArgument(ModelKeyboard(models)[i][0].callbackData) == Some(models[i]) <==> '_' !in models[i]
  {
    ModelCallback(models[i]);
  }

  /** The language keyboard's buttons decode to `en` and `zh`. */
  lemma LanguageCallbacks()
    ensures CallbackArgument(LanguageKeyboard[0][0].callbackData) == Some("en")
    ensures CallbackArgument(LanguageKeyboard[0][1].callbackData) == Some("zh")
    ensures StartsWith(LanguageKeyboard[0][0].callbackData, LanguagePrefix)
    ensures StartsWith(LanguageKeyboard[0][1].callbackData, LanguagePrefix)
  {
    LanguageCallback("en");
    LanguageCallback("zh");
    assert "lang_en" == LanguagePrefix + "en";
    assert "lang_zh" == LanguagePrefix + "zh";
  }

  /** `lang_<l>` decodes to `l` when `l` has no `_`. */
  lemma LanguageCallback(l: string)
    requires '_' !in l
    ensures CallbackArgument(LanguagePrefix + l) == Some(l)
  {
    assert LanguagePrefix + l == "lang" + ['_'] + l;
    SplitOnCons("lang", '_', l);
    assert LastIndexOf(l, '_').None?;
  }

  /** The keys the language callback computes for `en` and `zh` are theirs. */
  lemma LanguageKeys()
    ensures KeyNamed("language_" + "en") == Some(LanguageEn) && KeyNamed("language_" + "zh") == Some(LanguageZh)
  {
  }

  /** The `start` reply: the welcome, the current model, and the group usage hint, one per line. */
  function WelcomeText(t: Table, language: string, model: string): string
    requires Complete(t)
  {
    Translate(t, Welcome, language) + "\n" + Translate(t, CurrentModel, language) + model + "\n"
      + Translate(t, GroupUsageHint, language)
  }
}

=== FILE: decimal.dfy ===
/** Decimal text of integers: `Number.prototype.toString()` on integral values and
    `parseInt(s, 10)`. The rate limiter stores `Date.now().toString()` and reads it back
    with `parseInt`, the configuration parses the cooldown with `parseInt`, and the bot
    turns user ids into strings and back. */
module Decimal {
  import opened Wrappers
  import opened Text

  function DigitChar(d: nat): (c: char)
    requires d < 10
    ensures IsDigit(c) && (c as int) - ('0' as int) == d
  {
    (('0' as int) + d) as char
  }

  function DigitValue(c: char): (d: nat)
    requires IsDigit(c)
    ensures d < 10 && DigitChar(d) == c
  {
    (c as int) - ('0' as int)
  }

  predicate AllDigits(s: string) {
    forall i :: 0 <= i < |s| ==> IsDigit(s[i])
  }

  /** Decimal digits of `n`, most significant first, without leading zeros. */
  function NatToString(n: nat): (r: string)
    ensures |r| >= 1 && AllDigits(r)
    ensures |r| > 1 ==> r[0] != '0'
  {
    if n < 10 then [DigitChar(n)] else NatToString(n / 10) + [DigitChar(n % 10)]
  }

  /** `String(i)` for an integer `i`. */
  function IntToString(i: int): (r: string)
    ensures r != []
  {
    if i < 0 then "-" + NatToString(-i) else NatToString(i)
  }

  /** The value of a run of decimal digits. */
  function DigitsValue(ds: string): nat
    requires AllDigits(ds)
  {
    if ds == [] then 0 else DigitsValue(ds[..|ds| - 1]) * 10 + DigitValue(ds[|ds| - 1])
  }

  /** The length of the longest prefix of `s` made of digits. */
  function DigitRun(s: string): (n: nat)
    ensures n <= |s| && AllDigits(s[..n])
    ensures n < |s| ==> !IsDigit(s[n])
  {
    if s != [] && IsDigit(s[0]) then
      var n := 1 + DigitRun(s[1..]);
      assert s[..n] == [s[0]] + s[1..][..n - 1];
      n
    else 0
  }

  /** `parseInt(s, 10)`: leading white space is skipped, then an optional sign, then the
      longest run of digits is read and the rest ignored. `None` stands for `NaN` (no digit). */
  function ParseInt(s: string): (r: Option<int>)
    ensures r.None? <==> DigitRun(SignedBody(TrimStart(s))) == 0
  {
    var t := TrimStart(s);
    var body := SignedBody(t);
    var n := DigitRun(body);
    if n == 0 then None
    else
      var v: int := DigitsValue(body[..n]);
      Some(if t != [] && t[0] == '-' then -v else v)
  }

  /** Text that opens with a character other than white space, a sign or a digit is `NaN`. */
  lemma NoDigitFirst(s: string)
    requires s != [] && !IsWhiteSpace(s[0]) && s[0] != '-' && s[0] != '+' && !IsDigit(s[0])
    ensures ParseInt(s).None?
  {
    assert TrimStart(s) == s;
  }

  /** What follows an optional leading sign. */
  function SignedBody(t: string): string {
    if t != [] && (t[0] == '-' || t[0] == '+') then t[1..] else t
  }

  predicate IsHexDigit(c: char) {
    IsDigit(c) || ('a' <= c <= 'f') || ('A' <= c <= 'F')
  }

  function HexDigitValue(c: char): (d: nat)
    requires IsHexDigit(c)
    ensures d < 16
    ensures IsDigit(c) ==> d == DigitValue(c)
  {
    if IsDigit(c) then DigitValue(c)
    else if 'a' <= c <= 'f' then (c as int) - ('a' as int) + 10
    else (c as int) - ('A' as int) + 10
  }

  /** The length of the longest prefix of `s` made of hexadecimal digits. */
  function HexRun(s: string): (n: nat)
    ensures n <= |s| && forall i :: 0 <= i < n ==> IsHexDigit(s[i])
    ensures n < |s| ==> !IsHexDigit(s[n])
  {
    if s != [] && IsHexDigit(s[0]) then 1 + HexRun(s[1..]) else 0
  }

  /** The value of a run of hexadecimal digits. */
  function HexValue(ds: string): nat
    requires forall i :: 0 <= i < |ds| ==> IsHexDigit(ds[i])
  {
    if ds == [] then 0 else HexValue(ds[..|ds| - 1]) * 16 + HexDigitValue(ds[|ds| - 1])
  }

  /** `0x` or `0X` at the start of the text after the sign. */
  predicate HexPrefixed(body: string) {
    |body| >= 2 && body[0] == '0' && (body[1] == 'x' || body[1] == 'X')
  }

  /** `parseInt(s)` without a radix: as `parseInt(s, 10)`, except that `0x` or `0X` after
      the sign selects base 16 and is skipped; `None` is `NaN`, also when no hexadecimal
      digit follows the prefix. */
  function ParseIntAnyRadix(s: string): (r: Option<int>)
    ensures !HexPrefixed(SignedBody(TrimStart(s))) ==> r == ParseInt(s)
    ensures HexPrefixed(SignedBody(TrimStart(s))) ==> (r.None? <==> HexRun(SignedBody(TrimStart(s))[2..]) == 0)
  {
    var t := TrimStart(s);
    if HexPrefixed(SignedBody(t)) then HexNumber(t) else ParseInt(s)
  }

  /** The base-16 branch of `ParseIntAnyRadix` on the trimmed text `t`: the run of
      hexadecimal digits after the prefix, negated after `-`, or `NaN` when it is empty. */
  function HexNumber(t: string): (r: Option<int>)
    requires HexPrefixed(SignedBody(t))
    ensures r.None? <==> HexRun(SignedBody(t)[2..]) == 0
  {
    var digits := SignedBody(t)[2..];
    var n := HexRun(digits);
    if n == 0 then None
    else
      var v: int := HexValue(digits[..n]);
      Some(if t != [] && t[0] == '-' then -v else v)
  }

  /** Both reads agree on the text of an integer, which has no `0x` prefix. */
  lemma ParseIntAnyRadixToString(i: int)
    ensures ParseIntAnyRadix(IntToString(i)) == ParseInt(IntToString(i)) == Some(i)
  {
    WrittenBody(i);
    var digits := NatToString(if i < 0 then -i else i);
    if |digits| >= 2 {
      assert IsDigit(digits[1]);
    }
    ParseIntToString(i);
  }

  /** `0x10` reads as 0 in base 10 but as 16 without a radix. */
  lemma HexStampDisagrees()
    ensures ParseInt("0x10") == Some(0) && ParseIntAnyRadix("0x10") == Some(16)
  {
    HexStampDecimal();
    HexStampHex();
  }

  lemma HexStampDecimal()
    ensures ParseInt("0x10") == Some(0)
  {
    ZeroThenOther("0x10");
  }

  /** A text that opens with a digit has no white space or sign to skip. */
  lemma DigitFirst(s: string)
    requires s != [] && IsDigit(s[0])
    ensures TrimStart(s) == s && SignedBody(s) == s
  {
    assert '0' <= s[0] <= '9';
    assert !IsWhiteSpace(s[0]);
  }

  /** In base 10, a `0` followed by a character other than a digit reads as 0. */
  lemma ZeroThenOther(s: string)
    requires |s| >= 2 && s[0] == '0' && !IsDigit(s[1])
    ensures ParseInt(s) == Some(0)
  {
    DigitFirst(s);
    assert DigitRun(s[1..]) == 0;
    assert DigitRun(s) == 1;
    assert s[..1] == [s[0]];
    assert DigitsValue([s[0]]) == DigitsValue([]) * 10 + DigitValue(s[0]);
  }

  lemma HexStampHex()
    ensures ParseIntAnyRadix("0x10") == Some(16)
  {
    var s := "0x10";
    DigitFirst(s);
    assert s[2..] == "10";
    assert HexRun("10") == 2;
    assert "10"[..2] == "10";
    HexTen();
  }

  lemma HexTen()
    ensures HexValue("10") == 16
  {
    assert "10"[..1] == "1" && "1"[..0] == "";
  }

  /** A number written in base 16 (an optional sign, `0x` or `0X`, hexadecimal digits, then
      anything that does not start with one) reads as the digits' value, negated after `-`. */
  lemma HexText(sign: string, x: char, digits: string, rest: string)
    requires |sign| <= 1 && (sign != [] ==> sign[0] == '-' || sign[0] == '+')
    requires x == 'x' || x == 'X'
    requires digits != [] && forall i :: 0 <= i < |digits| ==> IsHexDigit(digits[i])
    requires rest == [] || !IsHexDigit(rest[0])
    ensures var v: int := HexValue(digits);
      ParseIntAnyRadix(sign + (['0', x] + (digits + rest))) == Some(if '-' in sign then -v else v)
  {
    var body := ['0', x] + (digits + rest);
    SignThenZero(sign, body);
    HexPrefixOf(x, digits + rest);
    HexRunOf(digits, rest);
    HexRead(sign + body, sign + body, digits + rest, digits, '-' in sign);
  }

  /** `0x` or `0X` opens the text, and dropping it leaves what follows. */
  lemma HexPrefixOf(x: char, after: string)
    requires x == 'x' || x == 'X'
    ensures HexPrefixed(['0', x] + after) && (['0', x] + after)[2..] == after
  {
  }

  /** After the prefix, the run of hexadecimal digits gives the value, negated after `-`. */
  lemma HexRead(s: string, t: string, after: string, digits: string, negative: bool)
    requires t == TrimStart(s) && HexPrefixed(SignedBody(t)) && after == SignedBody(t)[2..]
    requires HexRun(after) != 0 && digits == after[..HexRun(after)]
    requires negative == (t != [] && t[0] == '-')
    ensures var v: int := HexValue(digits);
      ParseIntAnyRadix(s) == Some(if negative then -v else v)
  {
    assert ParseIntAnyRadix(s) == HexNumber(t);
  }

  /** White space trimming leaves a text opening with a sign or a `0` alone, and the sign
      is all that `SignedBody` drops. */
  lemma SignThenZero(sign: string, body: string)
    requires |sign| <= 1 && (sign != [] ==> sign[0] == '-' || sign[0] == '+')
    requires body != [] && body[0] == '0'
    ensures TrimStart(sign + body) == sign + body && SignedBody(sign + body) == body
    ensures (sign + body)[0] == '-' <==> '-' in sign
  {
    var s := sign + body;
    if sign == [] {
      assert s == body;
      DigitFirst(body);
    } else {
      assert s[0] == sign[0] && s[1..] == body;
      NoLeadingSpace(s);
    }
  }

  /** A sign is not white space, so trimming stops before it. */
  lemma NoLeadingSpace(s: string)
    requires s != [] && (s[0] == '-' || s[0] == '+')
    ensures TrimStart(s) == s
  {
    assert !IsWhiteSpace(s[0]);
  }

  /** The hexadecimal run of `digits + rest` is `digits` when `rest` does not go on with one. */
  lemma HexRunOf(digits: string, rest: string)
    requires forall i :: 0 <= i < |digits| ==> IsHexDigit(digits[i])
    requires rest == [] || !IsHexDigit(rest[0])
    ensures HexRun(digits + rest) == |digits| && (digits + rest)[..|digits|] == digits
  {
    assert forall i :: 0 <= i < |digits| ==> (digits + rest)[i] == digits[i];
    assert rest != [] ==> (digits + rest)[|digits|] == rest[0];
  }

  /** `0x` reads as 0 in base 10 but as `NaN` without a radix. */
  lemma BarePrefixDisagrees()
    ensures ParseInt("0x") == Some(0) && ParseIntAnyRadix("0x") == None
  {
    var s := "0x";
    ZeroThenOther(s);
    DigitFirst(s);
    assert s[2..] == "";
  }

  /** Reading the digits of `n` back gives `n`. */
  lemma {:induction false} NatToStringValue(n: nat)
    ensures DigitsValue(NatToString(n)) == n
    decreases n
  {
    if n >= 10 {
      NatToStringValue(n / 10);
      var s := NatToString(n);
      assert s[..|s| - 1] == NatToString(n / 10);
    }
  }

  /** The digit run of `ds + t` stops where `ds` ends when `t` starts with a non-digit. */
  lemma {:induction false} DigitRunPrefix(ds: string, t: string)
    requires AllDigits(ds) && t != [] && !IsDigit(t[0])
    ensures DigitRun(ds + t) == |ds|
    decreases |ds|
  {
    if ds != [] {
      DigitRunPrefix(ds[1..], t);
      assert (ds + t)[1..] == ds[1..] + t;
    } else {
      assert ds + t == t;
    }
  }

  lemma AllDigitsRun(s: string)
    requires AllDigits(s)
    ensures DigitRun(s) == |s|
  {
  }

  /** The text of an integer is its sign, if any, then the digits of its magnitude. */
  lemma WrittenBody(i: int)
    ensures var s := IntToString(i);
      && TrimStart(s) == s
      && SignedBody(s) == NatToString(if i < 0 then -i else i)
      && (s[0] == '-' <==> i < 0)
  {
    var s := IntToString(i);
    var digits := NatToString(if i < 0 then -i else i);
    assert TrimStart(s) == s by {
      assert !IsWhiteSpace(s[0]);
    }
    if i < 0 {
      assert s[1..] == digits;
    } else {
      assert s[0] != '-' && s[0] != '+' by { assert IsDigit(s[0]); }
    }
  }

  /** `parseInt(String(i), 10) == i`: the limiter reads back the very time it stored. */
  lemma ParseIntToString(i: int)
    ensures ParseInt(IntToString(i)) == Some(i)
  {
    var s := IntToString(i);
    var digits := NatToString(if i < 0 then -i else i);
    WrittenBody(i);
    AllDigitsRun(digits);
    assert digits[..|digits|] == digits;
    NatToStringValue(if i < 0 then -i else i);
  }

  /** Distinct integers have distinct decimal texts, so keys built from them never collide. */
  lemma IntToStringInjective(a: int, b: int)
    requires IntToString(a) == IntToString(b)
    ensures a == b
  {
    ParseIntToString(a);
    ParseIntToString(b);
  }
}

=== FILE: env.dfy ===
/** The worker's configuration, read from its environment bindings. A binding that is
    absent or empty is falsy, and `||` then takes the default. */
module Env {
  import opened Wrappers
  import opened Text
  import opened Decimal

  /** The environment: the bindings that are set, by name. */
  type Environment = map<string, string>

  const DefaultSystemMessage := "You are a helpful assistant."
  const DefaultSystemRole := "system"
  const DefaultBaseUrl := "https://generativelanguage.googleapis.com/v1beta"
  const DefaultBotName := "bot"
  const DefaultCooldown := "180000"
  /** What `DefaultCooldown` reads as. */
  const DefaultCooldownMs := 180000
  const MissingKeyError := "At least one model API key must be set (Google)"

  /** The binding as JavaScript sees it: `undefined` when absent. */
  function Get(env: Environment, name: string): Option<string> {
    if name in env then Some(env[name]) else None
  }

  /** A binding that is set to a non-empty string. */
  predicate Truthy(env: Environment, name: string) {
    name in env && env[name] != ""
  }

  /** `getEnvOrDefault`: the binding when it is set and non-empty, else the default. */
  function GetEnvOrDefault(env: Environment, name: string, default: string): (r: string)
    ensures Truthy(env, name) ==> r == env[name]
    ensures !Truthy(env, name) ==> r == default
    ensures default != "" ==> r != ""
  {
    if Truthy(env, name) then env[name] else default
  }

  /** `v.split(',').map(x => x.trim())`. */
  function CommaList(v: string): (r: seq<string>)
    ensures |r| == |SplitOn(v, ',')|
    ensures forall i :: 0 <= i < |r| ==> r[i] == Trim(SplitOn(v, ',')[i]) && ',' !in r[i]
  {
    var pieces := SplitOn(v, ',');
    seq(|pieces|, i requires 0 <= i < |pieces| => Trim(pieces[i]))
  }

  /** A list-valued binding: `[]` when falsy, the trimmed comma-separated pieces otherwise. */
  function ListOf(env: Environment, name: string): seq<string> {
    if Truthy(env, name) then CommaList(env[name]) else []
  }

  datatype Config = Config(
    telegramBotToken: Option<string>,
    whitelistedUsers: seq<string>,
    systemInitMessage: string,
    systemInitMessageRole: string,
    defaultModel: Option<string>,
    upstashRedisRestUrl: Option<string>,
    upstashRedisRestToken: Option<string>,
    languageTTL: nat,
    contextTTL: nat,
    googleModelKey: string,
    googleModelBaseUrl: string,
    googleModels: seq<string>,
    botName: string,
    /** `None` stands for the `NaN` of a cooldown without digits. */
    groupCooldownInterval: Option<int>)

  /** `getConfig`: fails without a Google key, otherwise one object built from the bindings. */
  function GetConfig(env: Environment): (r: Result<Config, string>)
    ensures r.Failure? <==> !Truthy(env, "GOOGLE_MODEL_KEY")
    ensures r.Failure? ==> r.error == MissingKeyError
  {
    if !Truthy(env, "GOOGLE_MODEL_KEY") then Failure(MissingKeyError)
    else Success(Config(
      telegramBotToken := Get(env, "TELEGRAM_BOT_TOKEN"),
      whitelistedUsers := ListOf(env, "WHITELISTED_USERS"),
      systemInitMessage := GetEnvOrDefault(env, "SYSTEM_INIT_MESSAGE", DefaultSystemMessage),
      systemInitMessageRole := GetEnvOrDefault(env, "SYSTEM_INIT_MESSAGE_ROLE", DefaultSystemRole),
      defaultModel := Get(env, "DEFAULT_MODEL"),
      upstashRedisRestUrl := Get(env, "UPSTASH_REDIS_REST_URL"),
      upstashRedisRestToken := Get(env, "UPSTASH_REDIS_REST_TOKEN"),
      languageTTL := 60 * 60 * 24 * 365,
      contextTTL := 60 * 60 * 24 * 30,
      googleModelKey := env["GOOGLE_MODEL_KEY"],
      googleModelBaseUrl := GetEnvOrDefault(env, "GOOGLE_MODEL_BASEURL", DefaultBaseUrl),
      googleModels := ListOf(env, "GOOGLE_MODELS"),
      botName := GetEnvOrDefault(env, "BOT_NAME", DefaultBotName),
      groupCooldownInterval :=
        if Truthy(env, "GROUP_COOLDOWN_INTERVAL") then ParseInt(env["GROUP_COOLDOWN_INTERVAL"])
        else Some(DefaultCooldownMs)))
  }

  /** The cooldown is `parseInt` of the binding, or of the default text when it is falsy. */
  lemma CooldownParsed(env: Environment)
    requires GetConfig(env).Success?
    ensures GetConfig(env).value.groupCooldownInterval
         == ParseInt(GetEnvOrDefault(env, "GROUP_COOLDOWN_INTERVAL", DefaultCooldown))
  {
    DefaultCooldownValue();
  }

  /** Pieces that carry no surrounding white space join back into the binding. */
  lemma CommaListJoin(v: string)
    requires forall i :: 0 <= i < |SplitOn(v, ',')| ==> Trim(SplitOn(v, ',')[i]) == SplitOn(v, ',')[i]
    ensures Join(CommaList(v), ',') == v
  {
    assert CommaList(v) == SplitOn(v, ',');
    JoinSplitOn(v, ',');
  }

  /** With only the key set, every other setting takes its default: the stock system
      message and role, bot name `bot`, a cooldown of 180000, a year of language memory
      and thirty days of context. */
  lemma Defaults(key: string)
    requires key != ""
    ensures var c := GetConfig(map["GOOGLE_MODEL_KEY" := key]).value;
      && c.systemInitMessage == DefaultSystemMessage
      && c.systemInitMessageRole == DefaultSystemRole
      && c.botName == DefaultBotName
      && c.googleModelBaseUrl == DefaultBaseUrl
      && c.groupCooldownInterval == Some(180000)
      && c.languageTTL == 31536000
      && c.contextTTL == 2592000
      && c.whitelistedUsers == [] && c.googleModels == []
      && c.defaultModel.None?
  {
    var env := map["GOOGLE_MODEL_KEY" := key];
    Unset(key, "SYSTEM_INIT_MESSAGE");
    Unset(key, "SYSTEM_INIT_MESSAGE_ROLE");
    Unset(key, "BOT_NAME");
    Unset(key, "GOOGLE_MODEL_BASEURL");
    Unset(key, "GROUP_COOLDOWN_INTERVAL");
    Unset(key, "WHITELISTED_USERS");
    Unset(key, "GOOGLE_MODELS");
    Unset(key, "DEFAULT_MODEL");
  }

  /** Only the key is bound in an environment made of the key alone. */
  lemma Unset(key: string, name: string)
    requires name != "GOOGLE_MODEL_KEY"
    ensures !Truthy(map["GOOGLE_MODEL_KEY" := key], name) && Get(map["GOOGLE_MODEL_KEY" := key], name).None?
  {
  }

  /** The default cooldown text reads as 180000 milliseconds. */
  lemma DefaultCooldownValue()
    ensures ParseInt(DefaultCooldown) == Some(180000)
  {
    CooldownDigits();
    assert IntToString(180000) == DefaultCooldown;
    ParseIntToString(180000);
  }

  lemma CooldownDigits()
    ensures NatToString(180000) == "180000"
  {
    assert NatToString(18) == "18";
    assert NatToString(180) == NatToString(18) + "0";
    assert NatToString(1800) == NatToString(180) + "0";
    assert NatToString(18000) == NatToString(1800) + "0";
    assert NatToString(180000) == NatToString(18000) + "0";
  }
}

=== FILE: gemini.dfy ===
/** The Gemini client: a catalogue of models read from the configuration, the
    chat-completions request it sends, and what it makes of the reply. The HTTP exchange
    itself is outside the model; the reply arrives as an `HttpReply` value. */
module Gemini {
  import opened Wrappers
  import opened Text
  import opened Markup
  import opened Helpers
  import opened Env
  import opened Turn

  const NoChoicesError := "Gemini API did not return any choices"
  const ErrorPrefix := "Gemini API error: "

  /** What `fetch` hands back: a response that is not `ok` (its status text and body), or the
      decoded `choices`, each reduced to its `message.content`. */
  datatype HttpReply = NotOk(statusText: string, errorText: string) | Ok(choices: seq<string>)

  /** The POST sent to `<baseUrl>/chat/completions`. `model` is `None` for the `undefined`
      a catalogue without models gives. */
  datatype ChatRequest = ChatRequest(url: string, authorization: string, model: Option<string>,
                                     messages: seq<ChatMessage>, n: nat)

  // ---------------------------------------------------------------------------
  // The fence rewrite

  /** The end of the run of `\s` characters that starts at `i`. */
  function WhiteSpaceEnd(s: string, i: nat): (e: nat)
    requires i <= |s|
    ensures i <= e <= |s| && forall k :: i <= k < e ==> IsWhiteSpace(s[k])
    ensures e < |s| ==> !IsWhiteSpace(s[e])
    decreases |s| - i
  {
    if i < |s| && IsWhiteSpace(s[i]) then WhiteSpaceEnd(s, i + 1) else i
  }

  /** The end of the run of `\w` characters that starts at `i`. */
  function WordEnd(s: string, i: nat): (e: nat)
    requires i <= |s|
    ensures i <= e <= |s| && forall k :: i <= k < e ==> IsWordChar(s[k])
    ensures e < |s| ==> !IsWordChar(s[e])
    decreases |s| - i
  {
    if i < |s| && IsWordChar(s[i]) then WordEnd(s, i + 1) else i
  }

  /** `s.indexOf('```', from)`, compared character by character. */
  function Closing(s: string, from: nat): (r: Option<nat>)
    ensures r.Some? ==> from <= r.value && r.value + 3 <= |s|
    decreases |s| - from
  {
    if from + 3 > |s| then None
    else if s[from] == '`' && s[from + 1] == '`' && s[from + 2] == '`' then Some(from)
    else Closing(s, from + 1)
  }

  /** A `\n` at `n` can end the opening line: a ``` occurs at least two characters after it
      (the lazy `[\s\S]+?` needs one character). */
  predicate Opens(s: string, n: nat) {
    n < |s| && s[n] == '\n' && Closing(s, n + 2).Some?
  }

  /** The backtracking search for the `\n` that ends a fence's opening line: the last `n` in
      `s[lo..hi)` that `Opens`, with the first ``` after it. */
  function LastOpening(s: string, lo: nat, hi: nat): (r: Option<(nat, nat)>)
    requires lo <= hi <= |s|
    ensures r.Some? ==> lo <= r.value.0 < hi && r.value.0 + 2 <= r.value.1 && r.value.1 + 3 <= |s|
    decreases hi - lo
  {
    if hi <= lo then None
    else if Opens(s, hi - 1) then Some((hi - 1, Closing(s, hi + 1).value))
    else LastOpening(s, lo, hi - 1)
  }

  /** The search finds the last opening in range: none after the one it returns, and none at
      all when it returns nothing. */
  lemma {:induction false} LastOpeningIsLast(s: string, lo: nat, hi: nat)
    requires lo <= hi <= |s|
    ensures var r := LastOpening(s, lo, hi);
      && (r.Some? ==> Opens(s, r.value.0) && Closing(s, r.value.0 + 2) == Some(r.value.1))
      && (r.Some? ==> forall n :: r.value.0 < n < hi ==> !Opens(s, n))
      && (r.None? ==> forall n :: lo <= n < hi ==> !Opens(s, n))
    decreases hi - lo
  {
    if lo < hi && !Opens(s, hi - 1) {
      LastOpeningIsLast(s, lo, hi - 1);
    }
  }

  /** `/```\s*(\w*)\s*\n([\s\S]+?)```/g` replaced by `formatCodeBlock(code, lang || '')`. */
  function CodeFence(): Matcher {
    CodeFenceAt
  }

  /** The regex at the start of `s`, tried in ECMAScript's backtracking order: the length of
      the match, the code (group 2) and the language (group 1, `''` when it did not take part).
      The greedy `\s*` first takes all the white space after the backticks (up to `p`) and
      `(\w*)` the word after it (up to `q`); the second `\s*` then gives back characters until
      a `\n` follows. Only when no `\n` in the white space after the word opens a block does
      the first `\s*` give back characters; the word is then empty and the `\n` lies in the
      white space right after the backticks. */
  function FenceCaptures(s: string): (r: Option<(nat, string, string)>)
  {
    if !StartsWith(s, "```") then None
    else
      var p := WhiteSpaceEnd(s, 3);
      var q := WordEnd(s, p);
      var labelled := if q > p then LastOpening(s, q, WhiteSpaceEnd(s, q)) else None;
      if labelled.Some? then Some((labelled.value.1 + 3, s[labelled.value.0 + 1..labelled.value.1], s[p..q]))
      else
        var plain := LastOpening(s, 3, p);
        if plain.Some? then Some((plain.value.1 + 3, s[plain.value.0 + 1..plain.value.1], ""))
        else None
  }

  function CodeFenceAt(s: string): Option<Match> {
    match FenceCaptures(s)
    case Some((len, code, lang)) => Some(Match(len, FormatCodeBlock(code, lang)))
    case None => None
  }

  /** The content returned for a choice: every fence rewritten as an HTML code block. */
  function FormatContent(content: string): string {
    ReplaceAll(CodeFence(), content)
  }

  // ---------------------------------------------------------------------------
  // The client

  class GeminiAPI {
    const apiKey: string
    const baseUrl: string
    const models: seq<string>
    /** `config.defaultModel || models[0]`; `None` is the `undefined` of an empty catalogue
        without a default. */
    const defaultModel: Option<string>

    /** Built from a configuration that `getConfig` accepted (it throws otherwise). */
    constructor(env: Environment)
      requires GetConfig(env).Success?
      ensures apiKey == GetConfig(env).value.googleModelKey && apiKey != ""
      ensures baseUrl == GetConfig(env).value.googleModelBaseUrl && baseUrl != ""
      ensures models == GetConfig(env).value.googleModels
      ensures Truthy(env, "DEFAULT_MODEL") ==> defaultModel == Some(env["DEFAULT_MODEL"])
      ensures !Truthy(env, "DEFAULT_MODEL") && models != [] ==> defaultModel == Some(models[0])
      ensures !Truthy(env, "DEFAULT_MODEL") && models == [] ==> defaultModel.None?
      ensures !Truthy(env, "DEFAULT_MODEL") ==> (GetDefaultModel().Some? <==> GetAvailableModels() != [])
      ensures !Truthy(env, "DEFAULT_MODEL") && GetDefaultModel().Some? ==> IsValidModel(GetDefaultModel().value)
    {
      var config := GetConfig(env).value;
      apiKey := config.googleModelKey;
      baseUrl := if config.googleModelBaseUrl != "" then config.googleModelBaseUrl else DefaultBaseUrl;
      models := config.googleModels;
      defaultModel :=
        if config.defaultModel.Some? && config.defaultModel.value != "" then config.defaultModel
        else if config.googleModels != [] then Some(config.googleModels[0])
        else None;
    }

    /** `isValidModel`: the model is in the catalogue. */
    predicate IsValidModel(model: string) {
      model in models
    }

    function GetDefaultModel(): Option<string> {
      defaultModel
    }

    function GetAvailableModels(): seq<string> {
      models
    }

    /** `model || this.defaultModel`: the model asked for unless it is empty. */
    function UseModel(model: string): (r: Option<string>)
      ensures model != "" ==> r == Some(model)
      ensures model == "" ==> r == defaultModel
    {
      if model != "" then Some(model) else defaultModel
    }

    /** The request `generateResponse` sends for these messages. */
    function Request(messages: seq<ChatMessage>, model: string): (r: ChatRequest)
      ensures r.url == baseUrl + "/chat/completions" && r.authorization == "Bearer " + apiKey
      ensures r.model == UseModel(model) && r.messages == messages && r.n == 1
    {
      ChatRequest(baseUrl + "/chat/completions", "Bearer " + apiKey, UseModel(model), messages, 1)
    }

    /** What `generateResponse` resolves or rejects with, given the reply to its request. */
    function GenerateResponse(reply: HttpReply): (r: Result<string, string>)
      ensures reply.NotOk? ==> r == Failure(ErrorPrefix + reply.statusText + "\n" + reply.errorText)
      ensures reply.Ok? && reply.choices == [] ==> r == Failure(NoChoicesError)
      ensures reply.Ok? && reply.choices != [] ==> r == Success(FormatContent(reply.choices[0]))
    {
      match reply
      case NotOk(statusText, errorText) => Failure(ErrorPrefix + statusText + "\n" + errorText)
      case Ok(choices) => if choices == [] then Failure(NoChoicesError) else Success(FormatContent(choices[0]))
    }
  }

  // ---------------------------------------------------------------------------
  // Properties

  /** An upstream error body that reports an overload makes the rejection an overload, which
      is what the group path's retry loop looks for. */
  lemma OverloadPassesThrough(api: GeminiAPI, statusText: string, errorText: string)
    requires Contains(errorText, OverloadedMarker)
    ensures Overloaded(api.GenerateResponse(NotOk(statusText, errorText)))
  {
    var prefix := ErrorPrefix + statusText + "\n";
    var whole := prefix + errorText;
    assert whole[|prefix|..] == errorText;
    if !Contains(whole, OverloadedMarker) {
      NotContainsSuffix(whole, OverloadedMarker, |prefix|);
    }
  }

  /** Content without a fence is returned as it is. */
  lemma FormatContentNoFence(content: string)
    requires Nowhere(content, "```")
    ensures FormatContent(content) == content
  {
    forall k | 0 <= k < |content| ensures CodeFenceAt(content[k..]).None? {
      if k + 3 <= |content| {
        assert content[k..][..3] == content[k..k + 3];
        assert !At(content, k, "```");
      }
    }
    ReplaceAllNoMatch(CodeFence(), content);
  }

  /** A fence that is the whole content becomes one code block labelled with its word. The
      white space `pre` allowed before the word may itself hold a line break, so the first
      line of an unlabelled block is taken as the language when it is a single word. */
  lemma FormatContentLabelled(pre: string, lang: string, body: string)
    requires forall i :: 0 <= i < |pre| ==> IsWhiteSpace(pre[i])
    requires lang != [] && forall i :: 0 <= i < |lang| ==> IsWordChar(lang[i])
    requires body != [] && !IsWhiteSpace(body[0]) && '`' !in body
    ensures FormatContent("```" + pre + lang + "\n" + body + "```") == FormatCodeBlock(body, lang)
  {
    var s := "```" + pre + lang + "\n" + body + "```";
    CapturesOfLabelled(pre, lang, body);
    assert CodeFenceAt(s) == Some(Match(|s|, FormatCodeBlock(body, lang)));
    assert ReplaceAll(CodeFence(), s) == FormatCodeBlock(body, lang) + ReplaceAll(CodeFence(), s[|s|..]);
    assert s[|s|..] == [];
  }

  lemma CapturesOfLabelled(pre: string, lang: string, body: string)
    requires forall i :: 0 <= i < |pre| ==> IsWhiteSpace(pre[i])
    requires lang != [] && forall i :: 0 <= i < |lang| ==> IsWordChar(lang[i])
    requires body != [] && !IsWhiteSpace(body[0]) && '`' !in body
    ensures var s := "```" + pre + lang + "\n" + body + "```";
      FenceCaptures(s) == Some((|s|, body, lang))
  {
    var s := "```" + pre + lang + "\n" + body + "```";
    var p := 3 + |pre|;
    var q := p + |lang|;
    LabelledRuns(pre, lang, body);
    OpeningAt(s, q, body);
    CapturesLabelled(s, p, q, q + 1, q, q + 1 + |body|);
    assert s[q + 1..q + 1 + |body|] == body;
    assert s[p..q] == lang;
  }

  /** The regex takes the labelled reading when the white space after the word opens a block. */
  lemma CapturesLabelled(s: string, p: nat, q: nat, e: nat, n: nat, j: nat)
    requires StartsWith(s, "```") && 3 <= p < q <= e <= |s|
    requires WhiteSpaceEnd(s, 3) == p && WordEnd(s, p) == q && WhiteSpaceEnd(s, q) == e
    requires LastOpening(s, q, e) == Some((n, j))
    ensures n + 1 <= j <= |s| && FenceCaptures(s) == Some((j + 3, s[n + 1..j], s[p..q]))
  {
  }

  /** Where the greedy parts of the regex stop on a labelled fence. */
  lemma LabelledRuns(pre: string, lang: string, body: string)
    requires forall i :: 0 <= i < |pre| ==> IsWhiteSpace(pre[i])
    requires lang != [] && forall i :: 0 <= i < |lang| ==> IsWordChar(lang[i])
    requires body != [] && !IsWhiteSpace(body[0])
    ensures var s := "```" + pre + lang + "\n" + body + "```";
      var p := 3 + |pre|;
      var q := p + |lang|;
      && StartsWith(s, "```") && WhiteSpaceEnd(s, 3) == p && WordEnd(s, p) == q
      && WhiteSpaceEnd(s, q) == q + 1 && s[q] == '\n' && s[q + 1..] == body + "```"
  {
    var s := "```" + pre + lang + "\n" + body + "```";
    var p := 3 + |pre|;
    var q := p + |lang|;
    WhiteSpaceEndAt(s, 3, p);
    WordEndAt(s, p, q);
    WhiteSpaceEndAt(s, q, q + 1);
    assert s[q + 1..] == body + "```";
  }

  /** A `\n` right before a body without backticks and its closing ``` opens the block. */
  lemma OpeningAt(s: string, n: nat, body: string)
    requires body != [] && '`' !in body
    requires n < |s| && s[n] == '\n' && n + 1 + |body| + 3 == |s| && s[n + 1..] == body + "```"
    ensures LastOpening(s, n, n + 1) == Some((n, n + 1 + |body|))
  {
    FenceAfter(s, n, body);
  }

  /** A fence with no word whose body opens with neither white space nor a word character
      becomes one unlabelled code block. */
  lemma FormatContentUnlabelled(body: string)
    requires body != [] && !IsWhiteSpace(body[0]) && !IsWordChar(body[0]) && '`' !in body
    ensures FormatContent("```\n" + body + "```") == FormatCodeBlock(body, "")
  {
    var s := "```\n" + body + "```";
    CapturesOfUnlabelled(body);
    assert CodeFenceAt(s) == Some(Match(|s|, FormatCodeBlock(body, "")));
    assert ReplaceAll(CodeFence(), s) == FormatCodeBlock(body, "") + ReplaceAll(CodeFence(), s[|s|..]);
    assert s[|s|..] == [];
  }

  lemma CapturesOfUnlabelled(body: string)
    requires body != [] && !IsWhiteSpace(body[0]) && !IsWordChar(body[0]) && '`' !in body
    ensures var s := "```\n" + body + "```";
      FenceCaptures(s) == Some((|s|, body, ""))
  {
    var s := "```\n" + body + "```";
    WhiteSpaceEndAt(s, 3, 4);
    WordEndAt(s, 4, 4);
    assert s[4..] == body + "```";
    OpeningAt(s, 3, body);
    CapturesUnlabelled(s, 4, 3, 4 + |body|);
    assert s[4..4 + |body|] == body;
  }

  /** Without a word after the white space, the `\n` is looked for in that white space. */
  lemma CapturesUnlabelled(s: string, p: nat, n: nat, j: nat)
    requires StartsWith(s, "```") && 3 <= p <= |s|
    requires WhiteSpaceEnd(s, 3) == p && WordEnd(s, p) == p
    requires LastOpening(s, 3, p) == Some((n, j))
    ensures n + 1 <= j <= |s| && FenceCaptures(s) == Some((j + 3, s[n + 1..j], ""))
  {
  }

  /** The ``` closing a body without backticks is the first one after the body starts. */
  lemma FenceAfter(s: string, n: nat, body: string)
    requires body != [] && '`' !in body
    requires n + 1 + |body| + 3 == |s| && s[n + 1..] == body + "```"
    ensures Closing(s, n + 2) == Some(n + 1 + |body|)
  {
    var j := n + 1 + |body|;
    forall k | n + 2 <= k < j ensures s[k] != '`' {
      assert s[k] == body[k - n - 1];
    }
    assert s[j] == '`' && s[j + 1] == '`' && s[j + 2] == '`' by {
      assert s[j..] == "```";
    }
    ClosingAt(s, n + 2, j);
  }

  /** The first ``` at or after `from` is found when no backtick lies before it. */
  lemma {:induction false} ClosingAt(s: string, from: nat, j: nat)
    requires from <= j && j + 3 <= |s| && s[j] == '`' && s[j + 1] == '`' && s[j + 2] == '`'
    requires forall k :: from <= k < j ==> s[k] != '`'
    ensures Closing(s, from) == Some(j)
    decreases j - from
  {
    if from < j {
      ClosingAt(s, from + 1, j);
    }
  }

  /** `Closing` is `indexOf` of the three backticks. */
  lemma {:induction false} ClosingIsIndexOf(s: string, from: nat)
    ensures Closing(s, from) == FindFrom(s, "```", from)
    decreases |s| - from
  {
    if from + 3 <= |s| {
      assert At(s, from, "```") <==> (s[from] == '`' && s[from + 1] == '`' && s[from + 2] == '`') by {
        assert s[from..from + 3] == [s[from], s[from + 1], s[from + 2]];
      }
      ClosingIsIndexOf(s, from + 1);
    }
  }

  /** A run of white space ends where something else follows. */
  lemma {:induction false} WhiteSpaceEndAt(s: string, i: nat, e: nat)
    requires i <= e <= |s| && forall k :: i <= k < e ==> IsWhiteSpace(s[k])
    requires e < |s| ==> !IsWhiteSpace(s[e])
    ensures WhiteSpaceEnd(s, i) == e
    decreases e - i
  {
    if i < e {
      WhiteSpaceEndAt(s, i + 1, e);
    }
  }

  /** A run of word characters ends where something else follows. */
  lemma {:induction false} WordEndAt(s: string, i: nat, e: nat)
    requires i <= e <= |s| && forall k :: i <= k < e ==> IsWordChar(s[k])
    requires e < |s| ==> !IsWordChar(s[e])
    ensures WordEnd(s, i) == e
    decreases e - i
  {
    if i < e {
      WordEndAt(s, i + 1, e);
    }
  }

  /** The first line of an unlabelled block is read as its language when it is one word. */
  lemma FirstWordTakenAsLanguage(word: string, body: string)
    requires word != [] && forall i :: 0 <= i < |word| ==> IsWordChar(word[i])
    requires body != [] && !IsWhiteSpace(body[0]) && '`' !in body
    ensures FormatContent("```\n" + word + "\n" + body + "```") == FormatCodeBlock(body, word)
  {
    FormatContentLabelled("\n", word, body);
    assert "```" + "\n" == "```\n";
  }
}

=== FILE: helpers.dfy ===
/** The HTML rendering helpers of `src/utils/helpers.ts`: `escapeHtml`, `formatCodeBlock`
    and `formatHtml`. Each is a chain of global replaces, written with `Markup.ReplaceAll`. */
module Helpers {
  import opened Wrappers
  import opened Text
  import opened Markup

  /** `escapeHtml`: five global replaces of one character each. As written, `&`, `<`, `>`
      and `'` are replaced by themselves; only `"` becomes `&quot;`. */
  function EscapeHtml(text: string): string {
    var t1 := ReplaceAll(CharTo('&', "&"), text);
    var t2 := ReplaceAll(CharTo('<', "<"), t1);
    var t3 := ReplaceAll(CharTo('>', ">"), t2);
    var t4 := ReplaceAll(CharTo('"', "&quot;"), t3);
    ReplaceAll(CharTo('\'', "'"), t4)
  }

  /** Of the five replaces only the one of `"` has an effect. */
  lemma EscapeHtmlQuotesOnly(text: string)
    ensures EscapeHtml(text) == ReplaceAll(CharTo('"', "&quot;"), text)
  {
    CharToItself('&', text);
    CharToItself('<', text);
    CharToItself('>', text);
    CharToItself('\'', ReplaceAll(CharTo('"', "&quot;"), text));
  }

  /** The escaped text holds no double quote, so it can stand inside an attribute value. */
  lemma EscapeHtmlNoQuote(text: string)
    ensures '"' !in EscapeHtml(text)
  {
    EscapeHtmlQuotesOnly(text);
    CharToRemoves('"', "&quot;", text);
  }

  /** A text without `"` is returned as it is. */
  lemma EscapeHtmlQuoteFree(text: string)
    requires '"' !in text
    ensures EscapeHtml(text) == text
  {
    EscapeHtmlQuotesOnly(text);
    CharToAbsent('"', "&quot;", text);
  }

  /** The number of `\n` at the start of `s`. */
  function LeadingNewlines(s: string): (n: nat)
    ensures n <= |s|
    ensures forall i :: 0 <= i < n ==> s[i] == '\n'
    ensures n < |s| ==> s[n] != '\n'
  {
    if s != [] && s[0] == '\n' then 1 + LeadingNewlines(s[1..]) else 0
  }

  /** The number of `\n` at the end of `s`. */
  function TrailingNewlines(s: string): (n: nat)
    ensures n <= |s|
    ensures forall i :: |s| - n <= i < |s| ==> s[i] == '\n'
    ensures n < |s| ==> s[|s| - n - 1] != '\n'
  {
    if s != [] && s[|s| - 1] == '\n' then 1 + TrailingNewlines(s[..|s| - 1]) else 0
  }

  /** `/\n{3,}/` at the start of a text, replaced by two newlines. */
  function NewlineRun(): Matcher {
    s => var n := LeadingNewlines(s); if n >= 3 then Some(Match(n, "\n\n")) else None
  }

  /** `.replace(/\n{3,}/g, '\n\n')`. */
  function CollapseNewlines(s: string): string {
    ReplaceAll(NewlineRun(), s)
  }

  /** No three consecutive newlines. */
  predicate NoTripleNewline(s: string) {
    forall i :: 0 <= i && i + 2 < |s| ==> !(s[i] == '\n' && s[i + 1] == '\n' && s[i + 2] == '\n')
  }

  /** One step of the collapsing scan. */
  lemma CollapseNewlinesStep(s: string)
    requires s != []
    ensures var n := LeadingNewlines(s);
      CollapseNewlines(s) == if n >= 3 then "\n\n" + CollapseNewlines(s[n..]) else [s[0]] + CollapseNewlines(s[1..])
  {
  }

  /** After collapsing, the text starts with as many newlines as before, but at most two. */
  lemma {:induction false} CollapseNewlinesLeading(s: string)
    ensures LeadingNewlines(CollapseNewlines(s)) == if LeadingNewlines(s) < 2 then LeadingNewlines(s) else 2
    decreases |s|
  {
    if s != [] {
      var r := CollapseNewlines(s);
      var n := LeadingNewlines(s);
      CollapseNewlinesStep(s);
      if n >= 3 {
        var rest := CollapseNewlines(s[n..]);
        CollapseNewlinesLeading(s[n..]);
        assert r[1..][1..] == rest;
      } else {
        CollapseNewlinesLeading(s[1..]);
        assert r[1..] == CollapseNewlines(s[1..]);
      }
    }
  }

  /** After collapsing, no three newlines follow each other. */
  lemma {:induction false} CollapseNewlinesBound(s: string)
    ensures NoTripleNewline(CollapseNewlines(s))
    decreases |s|
  {
    if s != [] {
      var r := CollapseNewlines(s);
      var n := LeadingNewlines(s);
      CollapseNewlinesStep(s);
      if n >= 3 {
        var rest := CollapseNewlines(s[n..]);
        CollapseNewlinesBound(s[n..]);
        CollapseNewlinesLeading(s[n..]);
        assert rest == [] || rest[0] != '\n';
        forall i | 0 <= i && i + 2 < |r|
          ensures !(r[i] == '\n' && r[i + 1] == '\n' && r[i + 2] == '\n')
        {
          if i >= 2 {
            assert r[i] == rest[i - 2] && r[i + 1] == rest[i - 1] && r[i + 2] == rest[i];
          }
        }
      } else {
        var rest := CollapseNewlines(s[1..]);
        CollapseNewlinesBound(s[1..]);
        CollapseNewlinesLeading(s);
        forall i | 0 <= i && i + 2 < |r|
          ensures !(r[i] == '\n' && r[i + 1] == '\n' && r[i + 2] == '\n')
        {
          if i > 0 {
            assert r[i] == rest[i - 1] && r[i + 1] == rest[i] && r[i + 2] == rest[i + 1];
          } else if r[0] == '\n' && r[1] == '\n' && r[2] == '\n' {
            assert false;
          }
        }
      }
    }
  }

  /** Collapsing keeps the first character when it is not a newline, and the last one. */
  lemma CollapseNewlinesEnds(s: string)
    requires s != [] && s[0] != '\n' && s[|s| - 1] != '\n'
    ensures var r := CollapseNewlines(s); r != [] && r[0] == s[0] && r[|r| - 1] == s[|s| - 1]
  {
    CollapseNewlinesStep(s);
    if |s| > 1 {
      CollapseNewlinesTail(s[1..]);
    }
  }

  lemma {:induction false} CollapseNewlinesTail(s: string)
    requires s != [] && s[|s| - 1] != '\n'
    ensures var r := CollapseNewlines(s); r != [] && r[|r| - 1] == s[|s| - 1]
    decreases |s|
  {
    var n := LeadingNewlines(s);
    CollapseNewlinesStep(s);
    if n >= 3 {
      CollapseNewlinesTail(s[n..]);
    } else if |s| > 1 {
      CollapseNewlinesTail(s[1..]);
    }
  }

  /** A text without three newlines in a row is left as it is. */
  lemma CollapseNewlinesNoop(s: string)
    requires NoTripleNewline(s)
    ensures CollapseNewlines(s) == s
  {
    forall k | 0 <= k < |s| ensures !Usable(NewlineRun()(s[k..]), s[k..]) {
      if LeadingNewlines(s[k..]) >= 3 {
        assert s[k..][0] == s[k] && s[k..][1] == s[k + 1] && s[k..][2] == s[k + 2];
      }
    }
    ReplaceAllNoMatch(NewlineRun(), s);
  }

  /** `.replace(/^\n+|\n+$/g, '')`: without the `m` flag `^` and `$` anchor at the ends of the
      whole text, so the replace drops the leading run of newlines and then the trailing one. */
  function StripOuterNewlines(s: string): string {
    var t := s[LeadingNewlines(s)..];
    t[..|t| - TrailingNewlines(t)]
  }

  /** The text is its own `trim()`. */
  predicate Trimmed(s: string) {
    s == [] || (!IsWhiteSpace(s[0]) && !IsWhiteSpace(s[|s| - 1]))
  }

  /** The code placed inside `<pre><code>` by `formatCodeBlock`. */
  function CodeBody(code: string): string {
    CollapseNewlines(StripOuterNewlines(Trim(code)))
  }

  /** `formatCodeBlock(code, language)`. */
  function FormatCodeBlock(code: string, language: string): string {
    "\n<pre><code class=\"language-" + language + "\">" + EscapeHtml(CodeBody(code)) + "</code></pre>\n"
  }

  /** The body of a formatted block is trimmed, has no three newlines in a row, and its
      escaped form holds no `"`; after `trim()` the outer-newline replace has nothing left to do. */
  lemma CodeBodyShape(code: string)
    ensures StripOuterNewlines(Trim(code)) == Trim(code)
    ensures Trimmed(CodeBody(code)) && Trim(CodeBody(code)) == CodeBody(code)
    ensures NoTripleNewline(CodeBody(code))
    ensures '"' !in EscapeHtml(CodeBody(code))
  {
    var t := Trim(code);
    assert LeadingNewlines(t) == 0 && TrailingNewlines(t) == 0;
    assert t[0..] == t && t[..|t|] == t;
    var body := CollapseNewlines(t);
    CollapseNewlinesBound(t);
    if t != [] {
      CollapseNewlinesEnds(t);
    } else {
      assert body == [];
    }
    TrimmedIsTrim(body);
    EscapeHtmlNoQuote(body);
  }

  /** A trimmed text is its own `trim()`. */
  lemma TrimmedIsTrim(s: string)
    requires Trimmed(s)
    ensures Trim(s) == s
  {
  }

  /** Code that is already trimmed and has no three newlines in a row is placed in the block
      unchanged. */
  lemma CodeBodyOfTidyCode(code: string)
    requires Trimmed(code) && NoTripleNewline(code)
    ensures CodeBody(code) == code
  {
    TrimmedIsTrim(code);
    CodeBodyShape(code);
    CollapseNewlinesNoop(code);
  }

  // `**x**` on one line, lazily, replaced by `<b>x</b>`.
  function BoldHtml(): Matcher { Delimited("**", "<b>", "</b>") }

  // `*x*` on one line, lazily, replaced by `<i>x</i>`.
  function ItalicHtml(): Matcher { Delimited("*", "<i>", "</i>") }

  /** `` /`(.*?)`/g `` with `'<code>$1</code>'`. */
  function CodeHtml(): Matcher { Delimited("`", "<code>", "</code>") }

  /** `` /```(\w*)\n([\s\S]+?)```/g `` rendered as a `<pre>` block with the escaped, trimmed body. */
  function PreHtml(): Matcher {
    s =>
      if !StartsWith(s, "```") then None
      else
        var p := 3 + WordRun(s[3..]);
        if !At(s, p, "\n") then None
        else match FindFrom(s, "```", p + 2)
          case None => None
          case Some(j) =>
            Some(Match(j + 3, "<pre><code class=\"language-" + s[3..p] + "\">" + EscapeHtml(Trim(s[p + 1..j])) + "</code></pre>"))
  }

  /** `/\[([^\]]+)\]\(([^\)]+)\)/g` with `'<a href="$2">$1</a>'`. */
  function LinkHtml(): Matcher {
    LinkTo(Anchor)
  }

  function Anchor(caption: string, url: string): string {
    "<a href=\"" + url + "\">" + caption + "</a>"
  }

  /** `formatHtml`: the replaces in source order. */
  function FormatHtml(text: string): string {
    var t1 := ReplaceAll(CharTo('&', "&"), text);
    var t2 := ReplaceAll(CharTo('<', "<"), t1);
    var t3 := ReplaceAll(CharTo('>', ">"), t2);
    var t4 := ReplaceAll(BoldHtml(), t3);
    var t5 := ReplaceAll(ItalicHtml(), t4);
    var t6 := ReplaceAll(CodeHtml(), t5);
    var t7 := ReplaceAll(PreHtml(), t6);
    ReplaceAll(LinkHtml(), t7)
  }

  /** Bold, then italic, then inline code, then links: the replaces of `formatHtml` that
      can change the text. */
  function HtmlMarkup(text: string): string {
    ReplaceAll(LinkHtml(), ReplaceAll(CodeHtml(), ReplaceAll(ItalicHtml(), ReplaceAll(BoldHtml(), text))))
  }

  /** The inline-code replace runs first and consumes backticks in pairs on one line, so no
      two backticks stand side by side afterwards, no fence reaches the `<pre>` replace and it
      never fires; the character replaces change nothing. */
  lemma FormatHtmlSkipsFences(text: string)
    ensures FormatHtml(text) == HtmlMarkup(text)
  {
    CharToItself('&', text);
    CharToItself('<', text);
    CharToItself('>', text);
    var t5 := ReplaceAll(ItalicHtml(), ReplaceAll(BoldHtml(), text));
    DelimitedNoDoubled('`', "<code>", "</code>", t5);
    PreHtmlNoFence(ReplaceAll(CodeHtml(), t5));
  }

  /** With no two backticks side by side, the `<pre>` replace finds nothing to change. */
  lemma PreHtmlNoFence(t: string)
    requires NoDoubled(t, '`')
    ensures ReplaceAll(PreHtml(), t) == t
  {
    forall k | 0 <= k < |t| ensures !Usable(PreHtml()(t[k..]), t[k..]) {
      if StartsWith(t[k..], "```") {
        assert t[k..][..3] == "```";
        assert t[k] == '`' && t[k + 1] == '`';
      }
    }
    ReplaceAllNoMatch(PreHtml(), t);
  }

  /** A text with none of the characters the markup replaces react to. */
  predicate Plain(x: string) {
    '*' !in x && '`' !in x && '[' !in x && ']' !in x && '(' !in x && ')' !in x && '_' !in x
    && !HasLineTerminator(x)
  }

  /** A text without markup is returned as it is. */
  lemma FormatHtmlPlain(x: string)
    requires Plain(x)
    ensures FormatHtml(x) == x
  {
    FormatHtmlSkipsFences(x);
    DelimitedAbsent("**", "<b>", "</b>", x);
    DelimitedAbsent("*", "<i>", "</i>", x);
    DelimitedAbsent("`", "<code>", "</code>", x);
    NoBracketNoLink(x);
    LinkToAbsent(Anchor, x);
  }

  /** `**x**` becomes `<b>x</b>`: the bold replace runs before the italic one, which would
      otherwise have made two empty `<i></i>` out of the doubled stars. */
  lemma FormatHtmlBold(x: string)
    requires Plain(x)
    ensures FormatHtml("**" + x + "**") == "<b>" + x + "</b>"
  {
    HtmlMarkupBold(x);
    FormatHtmlSkipsFences("**" + x + "**");
  }

  lemma HtmlMarkupBold(x: string)
    requires Plain(x)
    ensures HtmlMarkup("**" + x + "**") == "<b>" + x + "</b>"
  {
    var s := "**" + x + "**";
    var b := "<b>" + x + "</b>";
    assert ReplaceAll(BoldHtml(), s) == b by {
      DelimitedWhole("**", "<b>", "</b>", x);
    }
    assert ReplaceAll(ItalicHtml(), b) == b by {
      assert '*' !in b;
      DelimitedAbsent("*", "<i>", "</i>", b);
    }
    assert ReplaceAll(CodeHtml(), b) == b by {
      assert '`' !in b;
      DelimitedAbsent("`", "<code>", "</code>", b);
    }
    assert ReplaceAll(LinkHtml(), b) == b by {
      assert '[' !in b;
      NoBracketNoLink(b);
      LinkToAbsent(Anchor, b);
    }
  }

  /** `*x*` with a non-empty `x` becomes `<i>x</i>` (`**` alone is an empty bold span). */
  lemma FormatHtmlItalic(x: string)
    requires Plain(x) && x != []
    ensures FormatHtml("*" + x + "*") == "<i>" + x + "</i>"
  {
    HtmlMarkupItalic(x);
    FormatHtmlSkipsFences("*" + x + "*");
  }

  lemma HtmlMarkupItalic(x: string)
    requires Plain(x) && x != []
    ensures HtmlMarkup("*" + x + "*") == "<i>" + x + "</i>"
  {
    var s := "*" + x + "*";
    var i := "<i>" + x + "</i>";
    assert ReplaceAll(BoldHtml(), s) == s by {
      NoDoubleStar(x);
      ReplaceAllNoMatch(BoldHtml(), s);
    }
    assert ReplaceAll(ItalicHtml(), s) == i by {
      DelimitedWhole("*", "<i>", "</i>", x);
    }
    assert ReplaceAll(CodeHtml(), i) == i by {
      assert '`' !in i;
      DelimitedAbsent("`", "<code>", "</code>", i);
    }
    assert ReplaceAll(LinkHtml(), i) == i by {
      assert '[' !in i;
      NoBracketNoLink(i);
      LinkToAbsent(Anchor, i);
    }
  }

  /** In `*x*` with a star-free, non-empty `x`, no two stars are adjacent, so `**…**` matches nowhere. */
  lemma NoDoubleStar(x: string)
    requires '*' !in x && x != []
    ensures NoMatchIn(BoldHtml(), "*" + x + "*")
  {
    var s := "*" + x + "*";
    forall k | 0 <= k < |s| ensures !Usable(BoldHtml()(s[k..]), s[k..]) {
      assert k + 1 < |s| ==> s[k..][..2] == [s[k], s[k + 1]];
    }
  }

  /** `[a](u)` becomes `<a href="u">a</a>`. */
  lemma FormatHtmlLink(a: string, u: string)
    requires Plain(a) && Plain(u) && a != [] && u != []
    ensures FormatHtml("[" + a + "](" + u + ")") == Anchor(a, u)
  {
    HtmlMarkupLink(a, u);
    FormatHtmlSkipsFences("[" + a + "](" + u + ")");
  }

  lemma HtmlMarkupLink(a: string, u: string)
    requires Plain(a) && Plain(u) && a != [] && u != []
    ensures HtmlMarkup("[" + a + "](" + u + ")") == Anchor(a, u)
  {
    var s := "[" + a + "](" + u + ")";
    assert '*' !in s && '`' !in s;
    DelimitedAbsent("**", "<b>", "</b>", s);
    DelimitedAbsent("*", "<i>", "</i>", s);
    DelimitedAbsent("`", "<code>", "</code>", s);
    LinkToWhole(Anchor, a, u);
  }
}

=== FILE: i18n.dfy ===
/** Translation lookup: two phrase tables, English and Chinese, each defining every key;
    Chinese is the default language and the fallback. The phrases themselves are a
    parameter of the model; what the bot relies on about them is stated by `Complete`. */
module I18n {
  import opened Wrappers

  datatype TranslationKey =
    | Welcome | Unauthorized | Error | CurrentLanguage | LanguageChanged | NewConversation
    | NoHistory | HistorySummary | CurrentModel | AvailableModels | ModelChanged | HelpIntro
    | StartDescription | LanguageDescription | NewDescription | HistoryDescription
    | SwitchmodelDescription | HelpDescription | ChooseLanguage | ChooseModel | LanguageEn
    | LanguageZh | Analyzing | AnalyzingDone | GroupUsageHint | CommandNotFound
    | UnsupportedMessage | GroupCooldown | Seconds | Disclaimer

  /** Phrase tables by language code. */
  type Table = map<string, map<TranslationKey, string>>

  const DefaultLanguage := "zh"

  /** Both supported languages define every key, and both disclaimers open with a blank line. */
  ghost predicate Complete(t: Table) {
    && "en" in t && "zh" in t
    && (forall k: TranslationKey :: k in t["en"] && k in t["zh"])
    && |t["en"][Disclaimer]| >= 2 && t["en"][Disclaimer][..2] == "\n\n"
    && |t["zh"][Disclaimer]| >= 2 && t["zh"][Disclaimer][..2] == "\n\n"
  }

  /** `translate(key, language)`: the phrase of that language when it is a non-empty
      string, otherwise the Chinese phrase. */
  function Translate(t: Table, key: TranslationKey, language: string := DefaultLanguage): (r: string)
    requires Complete(t)
    ensures language in t && key in t[language] && t[language][key] != "" ==> r == t[language][key]
    ensures !(language in t && key in t[language] && t[language][key] != "") ==> r == t["zh"][key]
  {
    if language in t && key in t[language] && t[language][key] != "" then t[language][key]
    else t["zh"][key]
  }

  /** Every lookup lands on a phrase of one of the two tables, whatever the language code. */
  lemma TranslateTotal(t: Table, key: TranslationKey, language: string)
    requires Complete(t)
    ensures Translate(t, key, language) == t["zh"][key] || Translate(t, key, language) == t[language][key]
    ensures language != "en" && language != "zh" && language !in t ==> Translate(t, key, language) == t["zh"][key]
  {
  }

  /** The disclaimer opens with a blank line in either supported language. */
  lemma DisclaimerOpensBlank(t: Table, language: string)
    requires Complete(t) && (language == "en" || language == "zh")
    ensures |Translate(t, Disclaimer, language)| >= 2 && Translate(t, Disclaimer, language)[..2] == "\n\n"
  {
  }

  /** The key a computed name such as `${name}_description` stands for, if any. The names
      are told apart by their length and one distinguishing character before the whole
      name is compared. */
  function KeyNamed(s: string): Option<TranslationKey> {
    if |s| == 5 then
      if s[0] == 'e' then (if s == "error" then Some(Error) else None)
      else None
    else if |s| == 7 then
      if s[0] == 'w' then (if s == "welcome" then Some(Welcome) else None)
      else if s[0] == 's' then (if s == "seconds" then Some(Seconds) else None)
      else None
    else if |s| == 9 then
      if s[0] == 'a' then (if s == "analyzing" then Some(Analyzing) else None)
      else None
    else if |s| == 10 then
      if s[0] == 'n' then (if s == "no_history" then Some(NoHistory) else None)
      else if s[0] == 'h' then (if s == "help_intro" then Some(HelpIntro) else None)
      else if s[0] == 'd' then (if s == "disclaimer" then Some(Disclaimer) else None)
      else None
    else if |s| == 11 then
      if s[9] == 'e' then (if s == "language_en" then Some(LanguageEn) else None)
      else if s[9] == 'z' then (if s == "language_zh" then Some(LanguageZh) else None)
      else None
    else if |s| == 12 then
      if s[0] == 'u' then (if s == "unauthorized" then Some(Unauthorized) else None)
      else if s[0] == 'c' then (if s == "choose_model" then Some(ChooseModel) else None)
      else None
    else if |s| == 13 then
      if s[0] == 'c' then (if s == "current_model" then Some(CurrentModel) else None)
      else if s[0] == 'm' then (if s == "model_changed" then Some(ModelChanged) else None)
      else None
    else if |s| == 14 then
      if s[0] == 'a' then (if s == "analyzing_done" then Some(AnalyzingDone) else None)
      else if s[0] == 'g' then (if s == "group_cooldown" then Some(GroupCooldown) else None)
      else None
    else if |s| == 15 then
      if s[0] == 'h' then (if s == "history_summary" then Some(HistorySummary) else None)
      else if s[0] == 'n' then (if s == "new_description" then Some(NewDescription) else None)
      else if s[0] == 'c' then (if s == "choose_language" then Some(ChooseLanguage) else None)
      else None
    else if |s| == 16 then
      if s[0] == 'c' then (if s == "current_language" then Some(CurrentLanguage) else None)
      else if s[0] == 'l' then (if s == "language_changed" then Some(LanguageChanged) else None)
      else if s[0] == 'n' then (if s == "new_conversation" then Some(NewConversation) else None)
      else if s[0] == 'a' then (if s == "available_models" then Some(AvailableModels) else None)
      else if s[0] == 'h' then (if s == "help_description" then Some(HelpDescription) else None)
      else if s[0] == 'g' then (if s == "group_usage_hint" then Some(GroupUsageHint) else None)
      else None
    else if |s| == 17 then
      if s[0] == 's' then (if s == "start_description" then Some(StartDescription) else None)
      else if s[0] == 'c' then (if s == "command_not_found" then Some(CommandNotFound) else None)
      else None
    else if |s| == 19 then
      if s[0] == 'h' then (if s == "history_description" then Some(HistoryDescription) else None)
      else if s[0] == 'u' then (if s == "unsupported_message" then Some(UnsupportedMessage) else None)
      else None
    else if |s| == 20 then
      if s[0] == 'l' then (if s == "language_description" then Some(LanguageDescription) else None)
      else None
    else if |s| == 23 then
      if s[0] == 's' then (if s == "switchmodel_description" then Some(SwitchmodelDescription) else None)
      else None
    else None
  }

  /** `translate(name as TranslationKey, language)` for a computed name: the phrase when the
      name is a key, and the text `undefined` that an unknown key turns into inside a
      template string. */
  function TranslateName(t: Table, name: string, language: string): (r: string)
    requires Complete(t)
    ensures KeyNamed(name).Some? ==> r == Translate(t, KeyNamed(name).value, language)
    ensures KeyNamed(name).None? ==> r == "undefined"
  {
    match KeyNamed(name)
    case Some(k) => Translate(t, k, language)
    case None => "undefined"
  }
}

=== FILE: markup.dfy ===
/** The regular expressions of the text pipeline, written as matchers over `seq<char>`.
    A matcher looks at a text and says whether the pattern matches at its first
    character, how many characters the match covers and what replaces them.
    `ReplaceAll` is `String.prototype.replace` with a global regex: it tries the
    matcher at each position from left to right, keeps a character where nothing
    matches, and resumes behind each match. None of the patterns here can match the
    empty string, and none looks behind its start, so this is exactly the ECMAScript
    scanning order. */
module Markup {
  import opened Wrappers
  import opened Text

  /** A match at the start of a text: its length and its replacement. */
  datatype Match = Match(len: nat, rep: string)

  type Matcher = string -> Option<Match>

  /** A matcher's verdict is usable when it covers at least one character of the text. */
  predicate Usable(m: Option<Match>, s: string) {
    m.Some? && 1 <= m.value.len <= |s|
  }

  /** `s.replace(/pattern/g, replacement)`. */
  function ReplaceAll(at: Matcher, s: string): string
    decreases |s|
  {
    if s == [] then []
    else if Usable(at(s), s) then at(s).value.rep + ReplaceAll(at, s[at(s).value.len..])
    else [s[0]] + ReplaceAll(at, s[1..])
  }

  /** No position of `s` starts a match. */
  predicate NoMatchIn(at: Matcher, s: string) {
    forall k :: 0 <= k < |s| ==> !Usable(at(s[k..]), s[k..])
  }

  /** A global replace that never matches leaves the text as it is. */
  lemma {:induction false} ReplaceAllNoMatch(at: Matcher, s: string)
    requires NoMatchIn(at, s)
    ensures ReplaceAll(at, s) == s
    decreases |s|
  {
    if s != [] {
      assert s[0..] == s;
      assert NoMatchIn(at, s[1..]) by {
        forall k | 0 <= k < |s[1..]| ensures !Usable(at(s[1..][k..]), s[1..][k..]) {
          assert s[1..][k..] == s[k + 1..];
        }
      }
      ReplaceAllNoMatch(at, s[1..]);
    }
  }

  /** Positions of `a` that start no match, even with `b` behind them, are copied. */
  lemma {:induction false} ReplaceAllPrefix(at: Matcher, a: string, b: string)
    requires forall k :: 0 <= k < |a| ==> !Usable(at((a + b)[k..]), (a + b)[k..])
    ensures ReplaceAll(at, a + b) == a + ReplaceAll(at, b)
    decreases |a|
  {
    if a != [] {
      assert (a + b)[0..] == a + b;
      assert (a + b)[1..] == a[1..] + b;
      forall k | 0 <= k < |a[1..]|
        ensures !Usable(at((a[1..] + b)[k..]), (a[1..] + b)[k..])
      {
        assert (a[1..] + b)[k..] == (a + b)[k + 1..];
      }
      ReplaceAllPrefix(at, a[1..], b);
    }
  }

  /** The text contains a line terminator, which `.` does not match. */
  predicate HasLineTerminator(s: string) {
    exists i :: 0 <= i < |s| && IsLineTerminator(s[i])
  }

  /** `d(.*?)d` at the start of `s`: the index of the closing delimiter, which is the
      first occurrence of `d` after the opening one, provided no line terminator lies
      between them (a lazy `.*?` cannot cross a line break and cannot skip a closing `d`). */
  function LazyClose(s: string, d: string): (r: Option<nat>)
    requires d != []
    ensures r.Some? ==> StartsWith(s, d) && |d| <= r.value && At(s, r.value, d)
    ensures r.Some? ==> !HasLineTerminator(s[|d|..r.value])
    ensures r.Some? ==> forall k :: |d| <= k < r.value ==> !At(s, k, d)
  {
    if !StartsWith(s, d) then None
    else match FindFrom(s, d, |d|)
      case None => None
      case Some(j) => if HasLineTerminator(s[|d|..j]) then None else Some(j)
  }

  /** `/d(.*?)d/g` replaced by `open + $1 + close`. */
  function Delimited(d: string, open: string, close: string): Matcher
    requires d != []
  {
    s =>
      match LazyClose(s, d)
      case None => None
      case Some(j) => Some(Match(j + |d|, open + s[|d|..j] + close))
  }

  // The global replaces of `***x***`, `**x**`, `*x*` and `` `x` `` (lazy, one line) by `x`.
  function StripTripleStar(): Matcher { Delimited("***", "", "") }
  function StripDoubleStar(): Matcher { Delimited("**", "", "") }
  function StripStar(): Matcher { Delimited("*", "", "") }
  function StripTick(): Matcher { Delimited("`", "", "") }

  /** `` /`([^`]+)`/g `` with `'$1'`: unlike `.*?`, the span may cross lines but must not be empty. */
  function StripTickSpan(): Matcher {
    s =>
      if !StartsWith(s, "`") then None
      else match FindFrom(s, "`", 1)
        case None => None
        case Some(j) => if j == 1 then None else Some(Match(j + 1, s[1..j]))
  }

  /** `/\[([^\]]+)\]\(([^\)]+)\)/` at the start of `s`: the caption, the url and the match length. */
  datatype Link = Link(caption: string, url: string, len: nat)

  function LinkAt(s: string): (r: Option<Link>)
    ensures r.Some? ==> 1 <= r.value.len <= |s|
    ensures r.Some? ==> s == "[" + r.value.caption + "](" + r.value.url + ")" + s[r.value.len..]
    ensures r.Some? ==> r.value.caption != [] && r.value.url != []
  {
    if !StartsWith(s, "[") then None
    else match FindFrom(s, "]", 1)
      case None => None
      case Some(k) =>
        if k == 1 || !At(s, k + 1, "(") then None
        else match FindFrom(s, ")", k + 2)
          case None => None
          case Some(m) =>
            if m == k + 2 then None
            else
              LinkShape(s, k, m);
              Some(Link(s[1..k], s[k + 2..m], m + 1))
  }

  /** The pieces of a link: `[`, the caption, `](`, the url, `)`, then the rest. */
  lemma LinkShape(s: string, k: nat, m: nat)
    requires 1 < k && k + 2 < m < |s|
    requires At(s, 0, "[") && At(s, k, "]") && At(s, k + 1, "(") && At(s, m, ")")
    ensures s == "[" + s[1..k] + "](" + s[k + 2..m] + ")" + s[m + 1..]
  {
    assert s[k..k + 2] == s[k..k + 1] + s[k + 1..k + 2];
    assert s == s[..1] + s[1..k] + s[k..k + 2] + s[k + 2..m] + s[m..m + 1] + s[m + 1..];
  }

  /** `[caption](url)` replaced by a text built from the caption and the url. */
  function LinkTo(render: (string, string) -> string): Matcher {
    s => match LinkAt(s)
      case None => None
      case Some(l) => Some(Match(l.len, render(l.caption, l.url)))
  }

  /** `'$1 ($2)'`. */
  function LinkToText(): Matcher {
    LinkTo(CaptionAndUrl)
  }

  function CaptionAndUrl(caption: string, url: string): string {
    caption + " (" + url + ")"
  }

  /** `'$1'`. */
  function LinkToCaption(): Matcher {
    LinkTo(CaptionOnly)
  }

  function CaptionOnly(caption: string, url: string): string {
    caption
  }

  /** `` /```[\s\S]*?```/ `` (`minBody == 0`) or `` /```[\s\S]+?```/ `` (`minBody == 1`) at
      the start of `s`: the length of the fence, which ends at the first `` ``` `` that leaves
      at least `minBody` characters of body. */
  function FenceLen(s: string, minBody: nat): (r: Option<nat>)
    ensures r.Some? ==> 6 + minBody <= r.value <= |s| && StartsWith(s, "```") && EndsWith(s[..r.value], "```")
  {
    if !StartsWith(s, "```") then None
    else match FindFrom(s, "```", 3 + minBody)
      case None => None
      case Some(j) => Some(j + 3)
  }

  /** Replace a single character by a string: `/c/g` with a literal replacement. */
  function CharTo(c: char, rep: string): Matcher {
    s => if s != [] && s[0] == c then Some(Match(1, rep)) else None
  }

  /** Replacing a character by itself changes nothing. */
  lemma {:induction false} CharToItself(c: char, s: string)
    ensures ReplaceAll(CharTo(c, [c]), s) == s
    decreases |s|
  {
    if s != [] {
      CharToItself(c, s[1..]);
      assert s == [s[0]] + s[1..];
    }
  }

  /** After replacing every `c` by a text without `c`, no `c` is left. */
  lemma {:induction false} CharToRemoves(c: char, rep: string, s: string)
    requires c !in rep
    ensures c !in ReplaceAll(CharTo(c, rep), s)
    decreases |s|
  {
    if s != [] {
      CharToRemoves(c, rep, s[1..]);
    }
  }

  /** A text without the character is left unchanged. */
  lemma CharToAbsent(c: char, rep: string, s: string)
    requires c !in s
    ensures ReplaceAll(CharTo(c, rep), s) == s
  {
    forall k | 0 <= k < |s| ensures !Usable(CharTo(c, rep)(s[k..]), s[k..]) {
      assert s[k..][0] == s[k];
    }
    ReplaceAllNoMatch(CharTo(c, rep), s);
  }

  /** The longest prefix of `s` made of `\w` characters. */
  function WordRun(s: string): (n: nat)
    ensures n <= |s| && forall i :: 0 <= i < n ==> IsWordChar(s[i])
    ensures n < |s| ==> !IsWordChar(s[n])
  {
    if s != [] && IsWordChar(s[0]) then 1 + WordRun(s[1..]) else 0
  }

  /** A delimited span needs its delimiter's first character: without it nothing changes. */
  lemma DelimitedAbsent(d: string, open: string, close: string, s: string)
    requires d != [] && d[0] !in s
    ensures ReplaceAll(Delimited(d, open, close), s) == s
  {
    forall k | 0 <= k < |s| ensures !Usable(Delimited(d, open, close)(s[k..]), s[k..]) {
      assert s[k..][0] == s[k];
    }
    ReplaceAllNoMatch(Delimited(d, open, close), s);
  }

  /** A one-line span between two delimiters, with no delimiter character inside, is
      replaced as a whole. */
  lemma DelimitedWhole(d: string, open: string, close: string, x: string)
    requires d != [] && d[0] !in x && !HasLineTerminator(x)
    ensures ReplaceAll(Delimited(d, open, close), d + x + d) == open + x + close
  {
    var s := d + x + d;
    var j := |d| + |x|;
    assert s[..|d|] == d && s[|d|..j] == x && s[j..] == d;
    assert forall k :: |d| <= k < j ==> !At(s, k, d);
    FindFromFirst(s, d, |d|, j);
    assert LazyClose(s, d) == Some(j);
    assert s[|s|..] == [];
  }

  /** No link starts anywhere in `s`. */
  predicate NoLinkIn(s: string) {
    forall k :: 0 <= k < |s| ==> LinkAt(s[k..]).None?
  }

  /** A text without `[` holds no link. */
  lemma NoBracketNoLink(s: string)
    requires '[' !in s
    ensures NoLinkIn(s)
  {
    forall k | 0 <= k < |s| ensures LinkAt(s[k..]).None? {
      assert s[k..][0] == s[k];
    }
  }

  /** A link replace leaves a text without links as it is. */
  lemma LinkToAbsent(render: (string, string) -> string, s: string)
    requires NoLinkIn(s)
    ensures ReplaceAll(LinkTo(render), s) == s
  {
    ReplaceAllNoMatch(LinkTo(render), s);
  }

  /** A whole `[caption](url)` is replaced by its rendering. */
  lemma LinkToWhole(render: (string, string) -> string, caption: string, url: string)
    requires caption != [] && url != [] && ']' !in caption && ')' !in url
    ensures ReplaceAll(LinkTo(render), "[" + caption + "](" + url + ")") == render(caption, url)
  {
    var s := "[" + caption + "](" + url + ")";
    LinkAtWhole(caption, url);
    assert s[|s|..] == [];
  }

  /** A whole `[caption](url)` is one link spanning the text. */
  lemma LinkAtWhole(caption: string, url: string)
    requires caption != [] && url != [] && ']' !in caption && ')' !in url
    ensures var s := "[" + caption + "](" + url + ")"; LinkAt(s) == Some(Link(caption, url, |s|))
  {
    var s := "[" + caption + "](" + url + ")";
    var k := 1 + |caption|;
    var m := k + 2 + |url|;
    assert StartsWith(s, "[") by { assert s[..1] == "["; }
    assert At(s, k, "]") by { assert s[k..k + 1] == "]"; }
    forall i | 1 <= i < k ensures !At(s, i, "]") {
      assert s[i] == caption[i - 1];
    }
    FindFromFirst(s, "]", 1, k);
    assert At(s, k + 1, "(") by { assert s[k + 1..k + 2] == "("; }
    assert At(s, m, ")") by { assert s[m..m + 1] == ")"; }
    forall i | k + 2 <= i < m ensures !At(s, i, ")") {
      assert s[i] == url[i - k - 2];
    }
    FindFromFirst(s, ")", k + 2, m);
    assert s[1..k] == caption && s[k + 2..m] == url;
  }

  /** No two copies of `c` next to each other. */
  predicate NoDoubled(s: string, c: char) {
    forall i :: 0 <= i && i + 1 < |s| ==> !(s[i] == c && s[i + 1] == c)
  }

  /** A lazy one-character-delimited replace whose replacement starts with something and holds
      no delimiter leaves no two delimiters side by side: two adjacent ones would have matched
      as an empty span. A delimiter at the head of the result was at the head of the input. */
  lemma {:induction false} DelimitedNoDoubled(c: char, open: string, close: string, s: string)
    requires open != [] && c !in open && c !in close
    ensures var r := ReplaceAll(Delimited([c], open, close), s);
      NoDoubled(r, c) && (r != [] && r[0] == c ==> s != [] && s[0] == c)
    decreases |s|
  {
    var m := Delimited([c], open, close);
    var r := ReplaceAll(m, s);
    if s != [] {
      if Usable(m(s), s) {
        var j :| LazyClose(s, [c]) == Some(j);
        var rest := ReplaceAll(m, s[j + 1..]);
        DelimitedNoDoubled(c, open, close, s[j + 1..]);
        var rep := open + s[1..j] + close;
        assert c !in s[1..j] by {
          forall i | 1 <= i < j ensures s[i] != c {
            assert !At(s, i, [c]);
            assert s[i..i + 1] == [s[i]];
          }
        }
        assert r == rep + rest;
        assert c !in rep;
        forall i | 0 <= i && i + 1 < |r| ensures !(r[i] == c && r[i + 1] == c) {
          if i + 1 < |rep| {
            assert r[i] == rep[i];
          } else if i + 1 == |rep| {
            assert r[i] == rep[i];
          } else {
            assert r[i] == rest[i - |rep|] && r[i + 1] == rest[i + 1 - |rep|];
          }
        }
        assert r[0] == open[0];
      } else {
        var rest := ReplaceAll(m, s[1..]);
        DelimitedNoDoubled(c, open, close, s[1..]);
        DoubledUsable(c, open, close, s);
        assert r == [s[0]] + rest;
        forall i | 0 <= i && i + 1 < |r| ensures !(r[i] == c && r[i + 1] == c) {
          if i > 0 {
            assert r[i] == rest[i - 1] && r[i + 1] == rest[i];
          } else {
            assert r[1] == rest[0];
          }
        }
      }
    }
  }

  /** Two delimiters at the head of a text match as an empty span. */
  lemma DoubledUsable(c: char, open: string, close: string, s: string)
    ensures |s| >= 2 && s[0] == c && s[1] == c ==> Usable(Delimited([c], open, close)(s), s)
  {
    if |s| >= 2 && s[0] == c && s[1] == c {
      assert StartsWith(s, [c]) by { assert s[..1] == [c]; }
      assert At(s, 1, [c]) by { assert s[1..2] == [c]; }
    }
  }

  /** A delimited replace changes nothing where its delimiter occurs nowhere. */
  lemma DelimitedNowhere(d: string, open: string, close: string, s: string)
    requires d != [] && Nowhere(s, d)
    ensures ReplaceAll(Delimited(d, open, close), s) == s
  {
    forall k | 0 <= k < |s| ensures !Usable(Delimited(d, open, close)(s[k..]), s[k..]) {
      if StartsWith(s[k..], d) {
        assert s[k..][..|d|] == s[k..k + |d|];
        assert At(s, k, d);
      }
    }
    ReplaceAllNoMatch(Delimited(d, open, close), s);
  }

  /** `w` copies of `c`. */
  function Repeat(c: char, w: nat): (r: string)
    ensures |r| == w && forall i :: 0 <= i < w ==> r[i] == c
  {
    seq(w, _ => c)
  }

  /** In `x` wrapped in `w` copies of `c` on each side, where `x` is non-empty and free of `c`,
      no `w + 1` copies of `c` follow each other. */
  lemma NoLongerRun(c: char, x: string, w: nat)
    requires c !in x && x != []
    ensures Nowhere(Repeat(c, w) + x + Repeat(c, w), Repeat(c, w + 1))
  {
    var s := Repeat(c, w) + x + Repeat(c, w);
    var d := Repeat(c, w + 1);
    forall k | 0 <= k ensures !At(s, k, d) {
      if k + w + 1 <= |s| {
        var i := if k < w then w - k else 0;
        assert s[k + i] == x[k + i - w];
        assert s[k + i] != c;
        assert s[k..k + w + 1][i] == s[k + i];
        assert d[i] == c;
      }
    }
  }

  /** An occurrence of a delimiter contains an occurrence of each of its prefixes. */
  lemma AtPrefix(s: string, k: nat, d: string, e: string)
    requires At(s, k, d) && e <= d
    ensures At(s, k, e)
  {
    assert s[k..k + |e|] == s[k..k + |d|][..|e|];
  }

  // ---------------------------------------------------------------------------
  // Text behind a scanned text

  /** An occurrence of `p` in `z + b` lies in `z` when `b` lacks the last character of `p`. */
  lemma AtBefore(z: string, b: string, p: string, k: nat)
    requires p != [] && p[|p| - 1] !in b
    ensures At(z + b, k, p) <==> At(z, k, p)
  {
    var s := z + b;
    if k + |p| <= |z| {
      assert s[k..k + |p|] == z[k..k + |p|];
    } else if k + |p| <= |s| {
      var i := k + |p| - 1;
      assert s[i] == b[i - |z|];
      assert s[k..k + |p|][|p| - 1] == s[i];
    }
  }

  /** `indexOf` finds the same occurrence in `z + b` as in `z`. */
  lemma FindFromBefore(z: string, b: string, p: string, from: nat)
    requires p != [] && p[|p| - 1] !in b
    ensures FindFrom(z + b, p, from) == FindFrom(z, p, from)
  {
    forall k: nat ensures At(z + b, k, p) <==> At(z, k, p) {
      AtBefore(z, b, p, k);
    }
    if FindFrom(z, p, from).Some? {
      FindFromFirst(z + b, p, from, FindFrom(z, p, from).value);
    }
  }

  /** At every position of `y`, the matcher sees the same match with or without `b` behind
      `y`, and that match ends inside `y`. */
  ghost predicate BlindTo(at: Matcher, y: string, b: string) {
    forall k :: 0 <= k < |y| ==>
      && at(y[k..] + b) == at(y[k..])
      && (at(y[k..]).Some? ==> at(y[k..]).value.len <= |y| - k)
  }

  lemma BlindSuffix(at: Matcher, y: string, b: string, n: nat)
    requires BlindTo(at, y, b) && n <= |y|
    ensures BlindTo(at, y[n..], b)
  {
    forall k | 0 <= k < |y[n..]|
      ensures at(y[n..][k..] + b) == at(y[n..][k..])
      ensures at(y[n..][k..]).Some? ==> at(y[n..][k..]).value.len <= |y[n..]| - k
    {
      assert y[n..][k..] == y[n + k..];
    }
  }

  /** A global replace over `y + b` is the replace over `y` followed by `b`, when no match
      reaches into `b` and none starts in it. */
  lemma {:induction false} ReplaceAllBefore(at: Matcher, y: string, b: string)
    requires BlindTo(at, y, b) && NoMatchIn(at, b)
    ensures ReplaceAll(at, y + b) == ReplaceAll(at, y) + b
    decreases |y|
  {
    if y == [] {
      assert y + b == b;
      ReplaceAllNoMatch(at, b);
    } else {
      var s := y + b;
      assert y[0..] == y;
      assert at(s) == at(y);
      if Usable(at(y), y) {
        var n := at(y).value.len;
        assert s[n..] == y[n..] + b;
        BlindSuffix(at, y, b, n);
        ReplaceAllBefore(at, y[n..], b);
      } else {
        assert !Usable(at(s), s);
        assert s[1..] == y[1..] + b;
        BlindSuffix(at, y, b, 1);
        ReplaceAllBefore(at, y[1..], b);
      }
    }
  }

  /** A delimited span never reaches into a text that lacks the delimiter's characters. */
  lemma DelimitedBlind(d: string, open: string, close: string, y: string, b: string)
    requires d != [] && d[0] !in b && d[|d| - 1] !in b
    ensures BlindTo(Delimited(d, open, close), y, b) && NoMatchIn(Delimited(d, open, close), b)
  {
    forall k | 0 <= k < |y|
      ensures Delimited(d, open, close)(y[k..] + b) == Delimited(d, open, close)(y[k..])
      ensures Delimited(d, open, close)(y[k..]).Some? ==> Delimited(d, open, close)(y[k..]).value.len <= |y| - k
    {
      DelimitedBefore(d, open, close, y[k..], b);
    }
    forall k | 0 <= k < |b| ensures !Usable(Delimited(d, open, close)(b[k..]), b[k..]) {
      assert b[k..][0] == b[k];
    }
  }

  /** A delimited span at the start of `z` is the same with `b` behind `z`. */
  lemma DelimitedBefore(d: string, open: string, close: string, z: string, b: string)
    requires d != [] && d[|d| - 1] !in b
    ensures Delimited(d, open, close)(z + b) == Delimited(d, open, close)(z)
    ensures Delimited(d, open, close)(z).Some? ==> Delimited(d, open, close)(z).value.len <= |z|
  {
    LazyCloseBefore(z, b, d);
    if LazyClose(z, d).Some? {
      var j := LazyClose(z, d).value;
      assert (z + b)[|d|..j] == z[|d|..j];
    }
  }

  /** The closing delimiter found in `z + b` is the one found in `z`. */
  lemma LazyCloseBefore(z: string, b: string, d: string)
    requires d != [] && d[|d| - 1] !in b
    ensures LazyClose(z + b, d) == LazyClose(z, d)
    ensures LazyClose(z, d).Some? ==> LazyClose(z, d).value + |d| <= |z|
  {
    AtBefore(z, b, d, 0);
    FindFromBefore(z, b, d, |d|);
    if FindFrom(z, d, |d|).Some? {
      var j := FindFrom(z, d, |d|).value;
      assert (z + b)[|d|..j] == z[|d|..j];
    }
  }

  /** A link never reaches into a text without brackets and parentheses. */
  lemma LinkAtBefore(z: string, b: string)
    requires '[' !in b && ']' !in b && '(' !in b && ')' !in b
    ensures LinkAt(z + b) == LinkAt(z)
  {
    AtBefore(z, b, "[", 0);
    FindFromBefore(z, b, "]", 1);
    if FindFrom(z, "]", 1).Some? {
      var k := FindFrom(z, "]", 1).value;
      AtBefore(z, b, "(", k + 1);
      FindFromBefore(z, b, ")", k + 2);
      if FindFrom(z, ")", k + 2).Some? {
        var m := FindFrom(z, ")", k + 2).value;
        assert (z + b)[1..k] == z[1..k] && (z + b)[k + 2..m] == z[k + 2..m];
      }
    }
  }

  lemma LinkToBlind(render: (string, string) -> string, y: string, b: string)
    requires '[' !in b && ']' !in b && '(' !in b && ')' !in b
    ensures BlindTo(LinkTo(render), y, b) && NoMatchIn(LinkTo(render), b)
  {
    forall k | 0 <= k < |y|
      ensures LinkTo(render)(y[k..] + b) == LinkTo(render)(y[k..])
      ensures LinkTo(render)(y[k..]).Some? ==> LinkTo(render)(y[k..]).value.len <= |y| - k
    {
      LinkAtBefore(y[k..], b);
    }
    NoBracketNoLink(b);
  }

  /** Every match at a position of `y` writes a replacement without `c`. */
  ghost predicate RepsAvoid(at: Matcher, y: string, c: char) {
    forall k :: 0 <= k < |y| ==> at(y[k..]).Some? ==> c !in at(y[k..]).value.rep
  }

  /** A global replace introduces no character that neither the text nor any replacement holds. */
  lemma {:induction false} ReplaceAllAvoids(at: Matcher, y: string, c: char)
    requires c !in y && RepsAvoid(at, y, c)
    ensures c !in ReplaceAll(at, y)
    decreases |y|
  {
    if y != [] {
      assert y[0..] == y;
      var n := if Usable(at(y), y) then at(y).value.len else 1;
      forall k | 0 <= k < |y[n..]| ensures at(y[n..][k..]).Some? ==> c !in at(y[n..][k..]).value.rep {
        assert y[n..][k..] == y[n + k..];
      }
      assert forall i :: 0 <= i < |y[n..]| ==> y[n..][i] == y[n + i];
      ReplaceAllAvoids(at, y[n..], c);
    }
  }

  /** A delimited span is replaced by its inside between `open` and `close`. */
  lemma DelimitedAvoids(d: string, open: string, close: string, y: string, c: char)
    requires d != [] && c !in y && c !in open && c !in close
    ensures RepsAvoid(Delimited(d, open, close), y, c)
  {
    forall k | 0 <= k < |y| && Delimited(d, open, close)(y[k..]).Some?
      ensures c !in Delimited(d, open, close)(y[k..]).value.rep
    {
      var z := y[k..];
      var j := LazyClose(z, d).value;
      assert forall i :: 0 <= i < j - |d| ==> z[|d|..j][i] == y[k + |d| + i];
    }
  }

  /** A link is replaced by its caption and its url in parentheses. */
  lemma LinkToTextAvoids(y: string, c: char)
    requires c !in y && c != ' ' && c != '(' && c != ')'
    ensures RepsAvoid(LinkToText(), y, c)
  {
    forall k | 0 <= k < |y| && LinkToText()(y[k..]).Some?
      ensures c !in LinkToText()(y[k..]).value.rep
    {
      var z := y[k..];
      var l := LinkAt(z).value;
      assert forall i :: 0 <= i < |z| ==> z[i] == y[k + i];
      assert c !in z;
      assert c !in l.caption && c !in l.url;
      assert LinkToText()(z) == LinkTo(CaptionAndUrl)(z) == Some(Match(l.len, CaptionAndUrl(l.caption, l.url)));
    }
  }
}

=== FILE: rate_limiter.dfy ===
/** The group cooldown: a key-value store mapping `last_request:<chat id>` to the decimal
    text of the time of the chat's last admitted request. The clock is the explicit `now`.
    A cooldown of `None` is the `NaN` that a configured interval without digits parses to. */
module RateLimiting {
  import opened Wrappers
  import opened Decimal

  const KeyPrefix := "last_request:"

  /** The store key of a chat. */
  function Key(chatId: int): (k: string)
    ensures |k| > |KeyPrefix| && k[..|KeyPrefix|] == KeyPrefix && k[|KeyPrefix|..] == IntToString(chatId)
  {
    KeyPrefix + IntToString(chatId)
  }

  /** Distinct chats have distinct keys. */
  lemma KeyInjective(a: int, b: int)
    requires Key(a) == Key(b)
    ensures a == b
  {
    assert IntToString(a) == Key(a)[|KeyPrefix|..];
    IntToStringInjective(a, b);
  }

  /** `parseInt(stored || '0', 10)`, the read of `isRateLimited`: a missing or empty value
      reads as 0, and `None` stands for the `NaN` a value without digits gives. */
  function ReadStamp(stored: Option<string>): (r: Option<int>)
    ensures stored.None? || stored == Some("") ==> r == Some(0)
  {
    ParseIntToString(0);
    assert IntToString(0) == "0";
    ParseInt(if stored.None? || stored.value == "" then "0" else stored.value)
  }

  /** `parseInt(stored || '0')`, the read of `getRemainingTime`, which passes no radix. */
  function ReadStampAnyRadix(stored: Option<string>): (r: Option<int>)
    ensures stored.None? || stored == Some("") ==> r == Some(0)
  {
    ParseIntAnyRadixToString(0);
    assert IntToString(0) == "0";
    ParseIntAnyRadix(if stored.None? || stored.value == "" then "0" else stored.value)
  }

  /** `Math.max(0, x)`. */
  function MaxZero(x: int): nat {
    if x >= 0 then x else 0
  }

  function StoredStamp(kv: map<string, string>, chatId: int): Option<string> {
    if Key(chatId) in kv then Some(kv[Key(chatId)]) else None
  }

  /** The stamp of a chat as `isRateLimited` reads it back. */
  function Stamp(kv: map<string, string>, chatId: int): Option<int> {
    ReadStamp(StoredStamp(kv, chatId))
  }

  /** The stamp of a chat as `getRemainingTime` reads it back. */
  function AnyRadixStamp(kv: map<string, string>, chatId: int): Option<int> {
    ReadStampAnyRadix(StoredStamp(kv, chatId))
  }

  /** The chat's stamp, if any, is the decimal text of a time, as `setLastRequestTime` writes. */
  ghost predicate WrittenStamp(kv: map<string, string>, chatId: int) {
    Key(chatId) in kv ==> exists t :: kv[Key(chatId)] == IntToString(t)
  }

  /** On a stamp the limiter wrote, or on none, both reads agree. */
  lemma StampsAgree(kv: map<string, string>, chatId: int)
    requires WrittenStamp(kv, chatId)
    ensures AnyRadixStamp(kv, chatId) == Stamp(kv, chatId) && Stamp(kv, chatId).Some?
  {
    if Key(chatId) in kv {
      var t :| kv[Key(chatId)] == IntToString(t);
      assert StoredStamp(kv, chatId) == Some(IntToString(t));
      ParseIntAnyRadixToString(t);
    }
  }

  /** `now - last < cooldown`; a `NaN` stamp or a `NaN` cooldown compares false. */
  predicate Limited(kv: map<string, string>, cooldown: Option<int>, chatId: int, now: int) {
    match Stamp(kv, chatId)
    case None => false
    case Some(last) => cooldown.Some? && now - last < cooldown.value
  }

  /** `max(0, cooldown - (now - last))` over the radix-less read; `None` is the `NaN` that
      `Math.max` passes on from a `NaN` stamp or a `NaN` cooldown. */
  function Remaining(kv: map<string, string>, cooldown: Option<int>, chatId: int, now: int): (r: Option<nat>)
    ensures r.Some? <==> AnyRadixStamp(kv, chatId).Some? && cooldown.Some?
    ensures r.Some? ==> r.value >= cooldown.value - (now - AnyRadixStamp(kv, chatId).value)
    ensures r.Some? && r.value > 0 ==> r.value == cooldown.value - (now - AnyRadixStamp(kv, chatId).value)
  {
    match AnyRadixStamp(kv, chatId)
    case None => None
    case Some(last) =>
      match cooldown
      case None => None
      case Some(c) => Some(MaxZero(c - (now - last)))
  }

  /** A stored `0x10` splits the two reads: at `now` 20 with a cooldown of 5 the chat is not
      limited, yet one millisecond remains; a stored `0x` leaves a chat limited at `now` 2
      while the remaining time is `NaN`. */
  lemma StampReadsDisagree()
    ensures var kv := map[Key(7) := "0x10"]; !Limited(kv, Some(5), 7, 20) && Remaining(kv, Some(5), 7, 20) == Some(1)
    ensures var kv := map[Key(7) := "0x"]; Limited(kv, Some(5), 7, 2) && Remaining(kv, Some(5), 7, 2).None?
  {
    HexStampSplits();
    BareStampSplits();
  }

  /** The `0x10` half of `StampReadsDisagree`. */
  lemma HexStampSplits()
    ensures var kv := map[Key(7) := "0x10"]; !Limited(kv, Some(5), 7, 20) && Remaining(kv, Some(5), 7, 20) == Some(1)
  {
    HexStampReads();
  }

  /** How the two reads see a stored `0x10`. */
  lemma HexStampReads()
    ensures var kv := map[Key(7) := "0x10"]; Stamp(kv, 7) == Some(0) && AnyRadixStamp(kv, 7) == Some(16)
  {
    HexStampDisagrees();
    StoredText(7, "0x10");
  }

  /** The `0x` half of `StampReadsDisagree`. */
  lemma BareStampSplits()
    ensures var kv := map[Key(7) := "0x"]; Limited(kv, Some(5), 7, 2) && Remaining(kv, Some(5), 7, 2).None?
  {
    BareStampReads();
  }

  /** How the two reads see a stored `0x`. */
  lemma BareStampReads()
    ensures var kv := map[Key(7) := "0x"]; Stamp(kv, 7) == Some(0) && AnyRadixStamp(kv, 7).None?
  {
    BarePrefixDisagrees();
    StoredText(7, "0x");
  }

  /** A chat whose only entry is a non-empty text is read through `parseInt` both ways. */
  lemma StoredText(chatId: int, text: string)
    requires text != ""
    ensures Stamp(map[Key(chatId) := text], chatId) == ParseInt(text)
    ensures AnyRadixStamp(map[Key(chatId) := text], chatId) == ParseIntAnyRadix(text)
  {
    assert StoredStamp(map[Key(chatId) := text], chatId) == Some(text);
  }

  class RateLimiter {
    /** The cooldown in milliseconds; `None` is `NaN`. */
    const cooldown: Option<int>
    /** The key-value namespace, reduced to the entries it holds. */
    var kv: map<string, string>

    constructor(cooldown: Option<int>, kv: map<string, string>)
      ensures this.cooldown == cooldown && this.kv == kv
    {
      this.cooldown := cooldown;
      this.kv := kv;
    }

    /** The stamp read back for a chat. */
    function LastRequestTime(chatId: int): Option<int>
      reads this
    {
      Stamp(kv, chatId)
    }

    /** `isRateLimited`: `now - last < cooldown`; a `NaN` stamp or cooldown compares false. */
    predicate IsRateLimited(chatId: int, now: int)
      reads this
    {
      Limited(kv, cooldown, chatId, now)
    }

    /** `setLastRequestTime`: stores `now` under the chat's key and nothing else. */
    method SetLastRequestTime(chatId: int, now: int)
      modifies this
      ensures kv == old(kv)[Key(chatId) := IntToString(now)]
      ensures LastRequestTime(chatId) == Some(now) && WrittenStamp(kv, chatId)
      ensures forall other :: other != chatId ==> LastRequestTime(other) == old(LastRequestTime(other))
    {
      kv := kv[Key(chatId) := IntToString(now)];
      ParseIntToString(now);
      forall other | other != chatId
        ensures LastRequestTime(other) == old(LastRequestTime(other))
      {
        if Key(other) == Key(chatId) {
          KeyInjective(other, chatId);
        }
      }
    }

    /** `getRemainingTime`, which reads the stamp without a radix. */
    function GetRemainingTime(chatId: int, now: int): (r: Option<nat>)
      reads this
      ensures r.Some? <==> AnyRadixStamp(kv, chatId).Some? && cooldown.Some?
    {
      Remaining(kv, cooldown, chatId, now)
    }
  }

  /** A chat with no stamp counts as last seen at time 0. */
  lemma NoStampIsZero(l: RateLimiter, chatId: int, now: int)
    requires Key(chatId) !in l.kv
    ensures l.LastRequestTime(chatId) == Some(0)
    ensures l.IsRateLimited(chatId, now) <==> l.cooldown.Some? && now < l.cooldown.value
  {
  }

  /** At the same `now`, a chat whose stamp the limiter wrote is limited exactly when some
      time remains. */
  lemma LimitedIffTimeRemains(l: RateLimiter, chatId: int, now: int)
    requires WrittenStamp(l.kv, chatId)
    ensures l.IsRateLimited(chatId, now) <==> (l.GetRemainingTime(chatId, now).Some? && l.GetRemainingTime(chatId, now).value > 0)
  {
    StampsAgree(l.kv, chatId);
  }

  /** The time remaining never exceeds the cooldown when the stamp is not in the future. */
  lemma RemainingAtMostCooldown(l: RateLimiter, chatId: int, now: int)
    requires l.cooldown.Some? && 0 <= l.cooldown.value
    requires AnyRadixStamp(l.kv, chatId).Some? && AnyRadixStamp(l.kv, chatId).value <= now
    ensures l.GetRemainingTime(chatId, now).value <= l.cooldown.value
  {
  }

  /** After a stamp at `t`, the chat is limited until `t + cooldown` and free from then on. */
  lemma StampWindow(l: RateLimiter, chatId: int, t: int, later: int)
    requires l.LastRequestTime(chatId) == Some(t)
    ensures l.cooldown.Some? && later - t < l.cooldown.value ==> l.IsRateLimited(chatId, later)
    ensures l.cooldown.Some? && later >= t + l.cooldown.value ==> !l.IsRateLimited(chatId, later)
  {
  }

  /** With a cooldown of 0, no chat whose stamp is not in the future is limited. */
  lemma ZeroCooldownNeverLimits(l: RateLimiter, chatId: int, now: int)
    requires l.cooldown == Some(0)
    requires l.LastRequestTime(chatId).Some? ==> l.LastRequestTime(chatId).value <= now
    ensures !l.IsRateLimited(chatId, now)
  {
  }

  /** A `NaN` cooldown never limits a chat, whatever its stamp, and leaves no time to report:
      a mistyped interval turns the group cooldown off. */
  lemma NaNCooldownNeverLimits(l: RateLimiter, chatId: int, now: int)
    requires l.cooldown.None?
    ensures !l.IsRateLimited(chatId, now) && l.GetRemainingTime(chatId, now).None?
  {
  }
}

=== FILE: split_message.dfy ===
/** `splitMessage`: the chunker that keeps every reply under Telegram's message size.
    The text is first cut by `split(/(```[\s\S]*?```)/)` into prose and fenced parts; a
    fenced part is appended whole or pushed as a chunk of its own, prose is fed line by
    line, and a line or fence that would overflow the pending chunk first flushes it. */
module MessageSplit {
  import opened Wrappers
  import opened Text
  import opened Markup

  /** Telegram's limit on the length of one message, the default `maxLength`. */
  const DefaultMaxLength := 4096

  // ---------------------------------------------------------------------------
  // Cutting the text into parts

  /** The first index at or after `q` where ```` ```…``` ```` (lazy body) matches. */
  function NextFence(s: string, q: nat): (r: Option<(nat, nat)>)
    requires q <= |s|
    ensures r.Some? ==> q <= r.value.0 && r.value.0 + r.value.1 <= |s| && 6 <= r.value.1
    ensures r.Some? ==> FenceLen(s[r.value.0..], 0) == Some(r.value.1)
    ensures r.Some? ==> forall k :: q <= k < r.value.0 ==> FenceLen(s[k..], 0).None?
    ensures r.None? ==> forall k :: q <= k <= |s| ==> FenceLen(s[k..], 0).None?
    decreases |s| - q
  {
    if q == |s| then None
    else match FenceLen(s[q..], 0)
      case Some(len) => Some((q, len))
      case None => NextFence(s, q + 1)
  }

  /** `text.split(/(```[\s\S]*?```)/)`: prose at even indices, matched fences (the
      capture group) at odd indices. */
  function Parts(s: string): (r: seq<string>)
    ensures |r| % 2 == 1
    decreases |s|
  {
    match NextFence(s, 0)
    case None => [s]
    case Some((i, len)) => [s[..i], s[i..i + len]] + Parts(s[i + len..])
  }

  function Concat(ps: seq<string>): string {
    if ps == [] then [] else ps[0] + Concat(ps[1..])
  }

  /** A fenced part: opens and closes with three backticks. */
  predicate IsFence(f: string) {
    |f| >= 6 && StartsWith(f, "```") && EndsWith(f, "```")
  }

  /** The parts put back together are the text. */
  lemma {:induction false} ConcatParts(s: string)
    ensures Concat(Parts(s)) == s
    decreases |s|
  {
    match NextFence(s, 0)
    case None =>
    case Some((i, len)) =>
      ConcatParts(s[i + len..]);
      var ps := [s[..i], s[i..i + len]] + Parts(s[i + len..]);
      assert ps[1..] == [s[i..i + len]] + Parts(s[i + len..]);
      assert ps[1..][1..] == Parts(s[i + len..]);
      assert s == s[..i] + s[i..i + len] + s[i + len..];
  }

  /** Every part at an odd index is a whole fence. */
  lemma {:induction false} PartsShape(s: string)
    ensures forall i :: 0 <= i < |Parts(s)| && i % 2 == 1 ==> IsFence(Parts(s)[i])
    decreases |s|
  {
    match NextFence(s, 0)
    case None =>
    case Some((i, len)) =>
      var rest := Parts(s[i + len..]);
      PartsShape(s[i + len..]);
      assert s[i..i + len] == s[i..][..len];
      FenceLenIsFence(s[i..], len);
      OddFences(s[..i], s[i..i + len], rest);
  }

  /** A prose part and a fence in front of parts with fences at odd indices keep them there. */
  lemma OddFences(prose: string, fence: string, rest: seq<string>)
    requires IsFence(fence)
    requires forall i :: 0 <= i < |rest| && i % 2 == 1 ==> IsFence(rest[i])
    ensures forall i :: 0 <= i < |[prose, fence] + rest| && i % 2 == 1 ==> IsFence(([prose, fence] + rest)[i])
  {
    var ps := [prose, fence] + rest;
    forall j | 0 <= j < |ps| && j % 2 == 1 ensures IsFence(ps[j]) {
      if j > 1 {
        assert ps[j] == rest[j - 2];
      }
    }
  }

  lemma FenceLenIsFence(t: string, len: nat)
    requires FenceLen(t, 0) == Some(len)
    ensures IsFence(t[..len])
  {
    assert t[..len][..3] == t[..3];
  }

  // ---------------------------------------------------------------------------
  // The chunking loop, as a function of the parts seen so far

  /** The loop's state: the chunks pushed so far and the pending `currentMessage`. */
  datatype Acc = Acc(messages: seq<string>, current: string)

  const Start := Acc([], "")

  /** What a flush pushes: the trimmed pending text, if there is any. */
  function Pending(current: string): seq<string> {
    if current != [] then [Trim(current)] else []
  }

  /** A part that starts with three backticks. */
  function StepFence(a: Acc, part: string, maxLength: int): Acc {
    if |a.current| + |part| > maxLength then Acc(a.messages + Pending(a.current) + [part], "")
    else Acc(a.messages, a.current + part)
  }

  /** One line of a prose part. */
  function StepLine(a: Acc, line: string, maxLength: int): Acc {
    if |a.current| + |line| + 1 > maxLength then Acc(a.messages + Pending(a.current), line)
    else Acc(a.messages, a.current + (if a.current != [] then "\n" else "") + line)
  }

  function RunLines(a: Acc, lines: seq<string>, maxLength: int): Acc {
    if lines == [] then a
    else StepLine(RunLines(a, lines[..|lines| - 1], maxLength), lines[|lines| - 1], maxLength)
  }

  function StepPart(a: Acc, part: string, maxLength: int): Acc {
    if StartsWith(part, "```") then StepFence(a, part, maxLength)
    else RunLines(a, SplitOn(part, '\n'), maxLength)
  }

  function RunParts(a: Acc, parts: seq<string>, maxLength: int): Acc {
    if parts == [] then a
    else StepPart(RunParts(a, parts[..|parts| - 1], maxLength), parts[|parts| - 1], maxLength)
  }

  lemma RunLinesSnoc(a: Acc, lines: seq<string>, j: nat, maxLength: int)
    requires j < |lines|
    ensures RunLines(a, lines[..j + 1], maxLength) == StepLine(RunLines(a, lines[..j], maxLength), lines[j], maxLength)
  {
    assert lines[..j + 1][..j] == lines[..j];
  }

  lemma RunPartsSnoc(a: Acc, parts: seq<string>, i: nat, maxLength: int)
    requires i < |parts|
    ensures RunParts(a, parts[..i + 1], maxLength) == StepPart(RunParts(a, parts[..i], maxLength), parts[i], maxLength)
  {
    assert parts[..i + 1][..i] == parts[..i];
  }

  /** The chunks `splitMessage(text, maxLength)` returns. */
  function Chunks(text: string, maxLength: int): seq<string> {
    var a := RunParts(Start, Parts(text), maxLength);
    a.messages + Pending(a.current)
  }

  /** `splitMessage` as the source writes it: nested loops over the parts and their lines. */
  method SplitMessage(text: string, maxLength: int := DefaultMaxLength) returns (messages: seq<string>)
    ensures messages == Chunks(text, maxLength)
  {
    messages := [];
    var parts := Parts(text);
    var current := "";
    for i := 0 to |parts|
      invariant Acc(messages, current) == RunParts(Start, parts[..i], maxLength)
    {
      var part := parts[i];
      RunPartsSnoc(Start, parts, i, maxLength);
      if StartsWith(part, "```") {
        if |current| + |part| > maxLength {
          if current != "" {
            messages := messages + [Trim(current)];
            current := "";
          }
          messages := messages + [part];
        } else {
          current := current + part;
        }
      } else {
        var lines := SplitOn(part, '\n');
        for j := 0 to |lines|
          invariant Acc(messages, current) == RunLines(RunParts(Start, parts[..i], maxLength), lines[..j], maxLength)
        {
          var line := lines[j];
          RunLinesSnoc(RunParts(Start, parts[..i], maxLength), lines, j, maxLength);
          if |current| + |line| + 1 > maxLength {
            if current != "" {
              messages := messages + [Trim(current)];
              current := "";
            }
            current := line;
          } else {
            current := current + (if current != "" then "\n" else "") + line;
          }
        }
        assert lines[..|lines|] == lines;
      }
    }
    assert parts[..|parts|] == parts;
    if current != "" {
      messages := messages + [Trim(current)];
    }
  }

  // ---------------------------------------------------------------------------
  // A fence is never split

  /** `f` occurs in `c`. */
  ghost predicate Inside(f: string, c: string) {
    exists k: nat :: At(c, k, f)
  }

  /** `f` lies whole inside one of `chunks`. */
  ghost predicate InSomeChunk(f: string, chunks: seq<string>) {
    exists c :: c in chunks && Inside(f, c)
  }

  /** `f` is inside a chunk already pushed or inside the pending text. */
  ghost predicate Holds(a: Acc, f: string) {
    (exists m :: m in a.messages && Inside(f, m)) || Inside(f, a.current)
  }

  lemma InsideExtend(f: string, c: string, x: string)
    requires Inside(f, c)
    ensures Inside(f, c + x)
  {
    var k: nat :| At(c, k, f);
    assert (c + x)[k..k + |f|] == c[k..k + |f|];
    assert At(c + x, k, f);
  }

  /** Trimming keeps a fence that lies in the text, since a fence starts and ends with a backtick. */
  lemma InsideTrim(f: string, c: string)
    requires IsFence(f) && Inside(f, c)
    ensures Inside(f, Trim(c))
  {
    assert f[0] == f[..3][0];
    assert f[|f| - 1] == f[|f| - 3..][2];
    InsideTrimStart(f, c);
    InsideTrimEnd(f, TrimStart(c));
  }

  lemma InsideTrimStart(f: string, c: string)
    requires f != [] && !IsWhiteSpace(f[0]) && Inside(f, c)
    ensures Inside(f, TrimStart(c))
  {
    var k: nat :| At(c, k, f);
    var t := TrimStart(c);
    var d := |c| - |t|;
    assert c[k] == c[k..k + |f|][0];
    assert d <= k;
    assert t[k - d..k - d + |f|] == c[k..k + |f|];
    assert At(t, k - d, f);
  }

  lemma InsideTrimEnd(f: string, t: string)
    requires f != [] && !IsWhiteSpace(f[|f| - 1]) && Inside(f, t)
    ensures Inside(f, TrimEnd(t))
  {
    var k: nat :| At(t, k, f);
    var u := TrimEnd(t);
    assert t[k + |f| - 1] == t[k..k + |f|][|f| - 1];
    assert k + |f| <= |u|;
    assert u[k..k + |f|] == t[k..k + |f|];
    assert At(u, k, f);
  }

  lemma StepLineHolds(a: Acc, line: string, maxLength: int, f: string)
    requires IsFence(f) && Holds(a, f)
    ensures Holds(StepLine(a, line, maxLength), f)
  {
    var b := StepLine(a, line, maxLength);
    if m :| m in a.messages && Inside(f, m) {
      assert m in b.messages;
    } else if |a.current| + |line| + 1 > maxLength {
      InsideTrim(f, a.current);
      assert Trim(a.current) in b.messages;
    } else {
      var sep := if a.current != [] then "\n" else "";
      InsideExtend(f, a.current, sep + line);
      assert b.current == a.current + (sep + line);
    }
  }

  lemma StepFenceHolds(a: Acc, part: string, maxLength: int, f: string)
    requires IsFence(f) && Holds(a, f)
    ensures Holds(StepFence(a, part, maxLength), f)
  {
    var b := StepFence(a, part, maxLength);
    if m :| m in a.messages && Inside(f, m) {
      assert m in b.messages;
    } else if |a.current| + |part| > maxLength {
      InsideTrim(f, a.current);
      assert Trim(a.current) in b.messages;
    } else {
      InsideExtend(f, a.current, part);
    }
  }

  /** A fenced part goes whole into the pending text or becomes a chunk by itself. */
  lemma StepFenceLands(a: Acc, part: string, maxLength: int)
    requires IsFence(part)
    ensures Holds(StepFence(a, part, maxLength), part)
  {
    var b := StepFence(a, part, maxLength);
    assert At(part, 0, part);
    if |a.current| + |part| > maxLength {
      assert part in b.messages;
    } else {
      assert b.current[|a.current|..][..|part|] == part;
      assert At(b.current, |a.current|, part);
    }
  }

  lemma {:induction false} RunLinesHolds(a: Acc, lines: seq<string>, maxLength: int, f: string)
    requires IsFence(f) && Holds(a, f)
    ensures Holds(RunLines(a, lines, maxLength), f)
    decreases |lines|
  {
    if lines != [] {
      RunLinesHolds(a, lines[..|lines| - 1], maxLength, f);
      StepLineHolds(RunLines(a, lines[..|lines| - 1], maxLength), lines[|lines| - 1], maxLength, f);
    }
  }

  lemma StepPartHolds(a: Acc, part: string, maxLength: int, f: string)
    requires IsFence(f) && Holds(a, f)
    ensures Holds(StepPart(a, part, maxLength), f)
  {
    if StartsWith(part, "```") {
      StepFenceHolds(a, part, maxLength, f);
    } else {
      RunLinesHolds(a, SplitOn(part, '\n'), maxLength, f);
    }
  }

  lemma {:induction false} RunPartsLands(parts: seq<string>, maxLength: int)
    ensures forall i :: 0 <= i < |parts| && IsFence(parts[i]) ==> Holds(RunParts(Start, parts, maxLength), parts[i])
    decreases |parts|
  {
    if parts != [] {
      var n := |parts| - 1;
      var front := parts[..n];
      RunPartsLands(front, maxLength);
      var a := RunParts(Start, front, maxLength);
      forall i | 0 <= i < |parts| && IsFence(parts[i])
        ensures Holds(RunParts(Start, parts, maxLength), parts[i])
      {
        if i < n {
          assert front[i] == parts[i];
          StepPartHolds(a, parts[n], maxLength, parts[i]);
        } else {
          StepFenceLands(a, parts[n], maxLength);
        }
      }
    }
  }

  /** A fenced part of the text lies whole inside one of the chunks: no fence is cut. */
  lemma FenceLands(text: string, maxLength: int, f: string)
    requires f in Parts(text) && IsFence(f)
    ensures InSomeChunk(f, Chunks(text, maxLength))
  {
    var parts := Parts(text);
    var a := RunParts(Start, parts, maxLength);
    RunPartsLands(parts, maxLength);
    var i :| 0 <= i < |parts| && parts[i] == f;
    assert Holds(a, f);
    var chunks := Chunks(text, maxLength);
    if m :| m in a.messages && Inside(f, m) {
      assert m in chunks;
    } else {
      InsideTrim(f, a.current);
      assert Trim(a.current) in chunks;
    }
  }

  /** The fences the cut matched (the odd-indexed parts) all land whole in a chunk. */
  lemma SplitMessageFencesWhole(text: string, maxLength: int)
    ensures forall i :: 0 <= i < |Parts(text)| && i % 2 == 1 ==> InSomeChunk(Parts(text)[i], Chunks(text, maxLength))
  {
    PartsShape(text);
    forall i | 0 <= i < |Parts(text)| && i % 2 == 1
      ensures InSomeChunk(Parts(text)[i], Chunks(text, maxLength))
    {
      FenceLands(text, maxLength, Parts(text)[i]);
    }
  }

  // ---------------------------------------------------------------------------
  // Chunk lengths

  /** `c` is the trimmed form of one line, longer than the limit, of a prose part. */
  ghost predicate FromLongLine(c: string, parts: seq<string>, maxLength: int) {
    exists p, l :: p in parts && !StartsWith(p, "```") && l in SplitOn(p, '\n') && |l| > maxLength && c == Trim(l)
  }

  /** Within the limit, or a fenced part pushed on its own, or a long line. */
  ghost predicate ChunkOk(c: string, parts: seq<string>, maxLength: int) {
    || |c| <= maxLength
    || (c in parts && StartsWith(c, "```"))
    || FromLongLine(c, parts, maxLength)
  }

  ghost predicate PendingOk(current: string, parts: seq<string>, maxLength: int) {
    || current == []
    || |current| <= maxLength
    || exists p :: p in parts && !StartsWith(p, "```") && current in SplitOn(p, '\n')
  }

  ghost predicate AccOk(a: Acc, parts: seq<string>, maxLength: int) {
    && (forall c :: c in a.messages ==> ChunkOk(c, parts, maxLength))
    && PendingOk(a.current, parts, maxLength)
  }

  lemma FlushOk(current: string, parts: seq<string>, maxLength: int)
    requires PendingOk(current, parts, maxLength)
    ensures forall c :: c in Pending(current) ==> ChunkOk(c, parts, maxLength)
  {
    if current != [] && |current| > maxLength {
      var p :| p in parts && !StartsWith(p, "```") && current in SplitOn(p, '\n');
      assert FromLongLine(Trim(current), parts, maxLength);
    }
  }

  lemma StepLineOk(a: Acc, line: string, p: string, parts: seq<string>, maxLength: int)
    requires AccOk(a, parts, maxLength)
    requires p in parts && !StartsWith(p, "```") && line in SplitOn(p, '\n')
    ensures AccOk(StepLine(a, line, maxLength), parts, maxLength)
  {
    FlushOk(a.current, parts, maxLength);
  }

  lemma StepFenceOk(a: Acc, part: string, parts: seq<string>, maxLength: int)
    requires AccOk(a, parts, maxLength)
    requires part in parts && StartsWith(part, "```")
    ensures AccOk(StepFence(a, part, maxLength), parts, maxLength)
  {
    FlushOk(a.current, parts, maxLength);
  }

  lemma {:induction false} RunLinesOk(a: Acc, lines: seq<string>, p: string, parts: seq<string>, maxLength: int)
    requires AccOk(a, parts, maxLength)
    requires p in parts && !StartsWith(p, "```")
    requires forall l :: l in lines ==> l in SplitOn(p, '\n')
    ensures AccOk(RunLines(a, lines, maxLength), parts, maxLength)
    decreases |lines|
  {
    if lines != [] {
      var n := |lines| - 1;
      assert forall l :: l in lines[..n] ==> l in lines;
      RunLinesOk(a, lines[..n], p, parts, maxLength);
      assert lines[n] in lines;
      StepLineOk(RunLines(a, lines[..n], maxLength), lines[n], p, parts, maxLength);
    }
  }

  lemma {:induction false} RunPartsOk(ps: seq<string>, parts: seq<string>, maxLength: int)
    requires forall p :: p in ps ==> p in parts
    ensures AccOk(RunParts(Start, ps, maxLength), parts, maxLength)
    decreases |ps|
  {
    if ps != [] {
      var n := |ps| - 1;
      assert forall p :: p in ps[..n] ==> p in ps;
      RunPartsOk(ps[..n], parts, maxLength);
      var a := RunParts(Start, ps[..n], maxLength);
      assert ps[n] in ps;
      if StartsWith(ps[n], "```") {
        StepFenceOk(a, ps[n], parts, maxLength);
      } else {
        RunLinesOk(a, SplitOn(ps[n], '\n'), ps[n], parts, maxLength);
      }
    }
  }

  /** Every chunk fits in `maxLength`, unless it is a fenced part pushed untrimmed on its own,
      or the trimmed form of a single line that is by itself longer than `maxLength`. */
  lemma SplitMessageBound(text: string, maxLength: int)
    ensures forall c :: c in Chunks(text, maxLength) ==> ChunkOk(c, Parts(text), maxLength)
  {
    var a := RunParts(Start, Parts(text), maxLength);
    RunPartsOk(Parts(text), Parts(text), maxLength);
    FlushOk(a.current, Parts(text), maxLength);
  }

  // ---------------------------------------------------------------------------
  // Short texts

  /** `s` without its leading newlines. */
  function DropNewlines(s: string): (r: string)
    ensures |r| <= |s| && (r == [] || r[0] != '\n')
  {
    if s != [] && s[0] == '\n' then DropNewlines(s[1..]) else s
  }

  lemma {:induction false} DropNewlinesAppend(a: string, b: string)
    ensures DropNewlines(a + b) == if DropNewlines(a) != [] then DropNewlines(a) + b else DropNewlines(b)
    decreases |a|
  {
    if a == [] {
      assert a + b == b;
    } else if a[0] == '\n' {
      assert (a + b)[1..] == a[1..] + b;
      DropNewlinesAppend(a[1..], b);
    }
  }

  lemma {:induction false} TrimStartDropNewlines(s: string)
    ensures TrimStart(DropNewlines(s)) == TrimStart(s)
    decreases |s|
  {
    if s != [] && s[0] == '\n' {
      TrimStartDropNewlines(s[1..]);
    }
  }

  /** Joining a prefix of the lines gives no more text than joining them all. */
  lemma {:induction false} JoinPrefixLength(xs: seq<string>, i: nat, sep: char)
    requires i <= |xs|
    ensures |Join(xs[..i], sep)| <= |Join(xs, sep)|
    decreases |xs| - i
  {
    if i < |xs| {
      JoinPrefixLength(xs, i + 1, sep);
      var ys := xs[..i + 1];
      assert ys[..i] == xs[..i];
    } else {
      assert xs[..i] == xs;
    }
  }

  /** While nothing overflows, the pending text is the lines joined so far, less the
      newlines of leading empty lines. */
  lemma {:induction false} ShortLines(lines: seq<string>, i: nat, maxLength: int)
    requires forall k :: 0 <= k < |lines| ==> '\n' !in lines[k]
    requires |Join(lines, '\n')| <= maxLength && i <= |lines|
    ensures RunLines(Start, lines[..i], maxLength) == Acc([], DropNewlines(Join(lines[..i], '\n')))
    decreases i
  {
    if i == 0 {
      assert lines[..0] == [];
    } else {
      var j := i - 1;
      ShortLines(lines, j, maxLength);
      RunLinesSnoc(Start, lines, j, maxLength);
      JoinPrefixLength(lines, i, '\n');
      var ys := lines[..i];
      assert ys[..j] == lines[..j] && ys[j] == lines[j];
      assert '\n' !in lines[j];
      if j > 0 {
        assert Join(ys, '\n') == Join(lines[..j], '\n') + "\n" + lines[j];
      }
      ShortStep(Join(lines[..j], '\n'), lines[j], j > 0, maxLength);
    }
  }

  /** One more short line: the pending text grows by the line, the newline before it kept
      unless nothing is pending yet. */
  lemma ShortStep(whole: string, line: string, more: bool, maxLength: int)
    requires '\n' !in line
    requires !more ==> whole == []
    requires |if more then whole + "\n" + line else line| <= maxLength
    ensures StepLine(Acc([], DropNewlines(whole)), line, maxLength)
      == Acc([], DropNewlines(if more then whole + "\n" + line else line))
  {
    assert DropNewlines(line) == line by {
      if line != [] {
        assert line[0] in line;
      }
    }
    if more {
      assert whole + "\n" + line == whole + ("\n" + line);
      DropNewlinesAppend(whole, "\n" + line);
      assert ("\n" + line)[1..] == line;
    } else {
      assert Pending("") == [];
    }
  }

  /** The text has no fence, so it is a single prose part. */
  lemma NoFenceOnePart(text: string)
    requires !Contains(text, "```")
    ensures Parts(text) == [text]
  {
    forall k | 0 <= k <= |text| ensures FenceLen(text[k..], 0).None? {
      if FenceLen(text[k..], 0).Some? {
        assert text[k..][..3] == text[k..k + 3];
        assert At(text, k, "```");
      }
    }
  }

  /** A text without a fence and within the limit gives at most one chunk, its trimmed
      self; no chunk at all only when that is empty. */
  lemma SplitMessageShort(text: string, maxLength: int)
    requires !Contains(text, "```") && |text| <= maxLength
    ensures Chunks(text, maxLength) == [] || Chunks(text, maxLength) == [Trim(text)]
    ensures Chunks(text, maxLength) == [] ==> Trim(text) == []
  {
    NoFenceOnePart(text);
    assert !StartsWith(text, "```") by {
      assert !At(text, 0, "```");
    }
    assert [text][..0] == [];
    var lines := SplitOn(text, '\n');
    assert RunParts(Start, [text], maxLength) == RunLines(Start, lines, maxLength);
    JoinSplitOn(text, '\n');
    ShortLines(lines, |lines|, maxLength);
    assert lines[..|lines|] == lines;
    TrimStartDropNewlines(text);
  }

  /** The empty text gives no chunk. */
  lemma SplitMessageEmpty(maxLength: int)
    ensures Chunks("", maxLength) == []
  {
    assert Parts("") == [""];
    assert [""][..0] == [];
    assert SplitOn("", '\n') == [""];
    assert !StartsWith("", "```");
    assert RunParts(Start, [""], maxLength) == RunLines(Start, [""], maxLength);
    assert RunLines(Start, [""], maxLength) == StepLine(Start, "", maxLength);
  }
}

=== FILE: stripping.dfy ===
/** `stripFormatting` of `src/utils/helpers.ts`: fenced code blocks are set aside behind
    `__CODE_BLOCK_n__` placeholders, the markup of the remaining prose is removed, and the
    placeholders are replaced by the saved blocks again. */
module Stripping {
  import opened Wrappers
  import opened Text
  import opened Decimal
  import opened Markup
  import opened Helpers

  const TokenPrefix := "__CODE_BLOCK_"

  /** The placeholder for the block saved at index `n`. */
  function Placeholder(n: nat): string {
    TokenPrefix + NatToString(n) + "__"
  }

  /** The text with its blocks replaced by placeholders, and the blocks in order. */
  datatype Saved = Saved(text: string, blocks: seq<string>)

  /** `` text.replace(/```[\s\S]+?```/g, …) `` whose callback pushes each block and returns the
      placeholder of its index; `n` blocks have been pushed before `s`. */
  function SaveBlocks(s: string, n: nat): (r: Saved)
    decreases |s|
  {
    if s == [] then Saved([], [])
    else match FenceLen(s, 1)
      case Some(len) =>
        var rest := SaveBlocks(s[len..], n + 1);
        Saved(Placeholder(n) + rest.text, [s[..len]] + rest.blocks)
      case None =>
        var rest := SaveBlocks(s[1..], n);
        Saved([s[0]] + rest.text, rest.blocks)
  }

  /** `/__CODE_BLOCK_(\d+)__/` at the start of `s`: the index it names and the token length. */
  function TokenAt(s: string): (r: Option<(nat, nat)>)
    ensures r.Some? ==> StartsWith(s, TokenPrefix) && 1 <= r.value.1 <= |s|
  {
    if !StartsWith(s, TokenPrefix) then None
    else
      var digits := s[13..];
      var d := DigitRun(digits);
      if d == 0 || !At(s, 13 + d, "__") then None
      else Some((DigitsValue(digits[..d]), 15 + d))
  }

  /** The restoring replace: the token becomes `codeBlocks[index]`, which is `undefined` when
      the index is out of range. */
  function RestoreToken(blocks: seq<string>): Matcher {
    s => match TokenAt(s)
      case None => None
      case Some(t) => Some(Match(t.1, if t.0 < |blocks| then blocks[t.0] else "undefined"))
  }

  /** The five prose replaces, in source order. */
  function StripProse(t: string): string {
    var t1 := ReplaceAll(StripTripleStar(), t);
    var t2 := ReplaceAll(StripDoubleStar(), t1);
    var t3 := ReplaceAll(StripStar(), t2);
    var t4 := ReplaceAll(StripTick(), t3);
    ReplaceAll(LinkToText(), t4)
  }

  /** What `stripFormatting(text)` returns. */
  function Stripped(text: string): string {
    var saved := SaveBlocks(text, 0);
    ReplaceAll(RestoreToken(saved.blocks), StripProse(saved.text))
  }

  /** A step of the saving scan at position `pos` of the whole text, where a block starts. */
  lemma SaveBlocksAtFence(text: string, pos: nat, n: nat, len: nat)
    requires pos < |text| && FenceLen(text[pos..], 1) == Some(len)
    ensures pos + len <= |text|
    ensures var next := SaveBlocks(text[pos + len..], n + 1);
      SaveBlocks(text[pos..], n) == Saved(Placeholder(n) + next.text, [text[pos..pos + len]] + next.blocks)
  {
    var rest := text[pos..];
    assert rest[..len] == text[pos..pos + len];
    assert rest[len..] == text[pos + len..];
  }

  /** A step of the saving scan at position `pos` of the whole text, where no block starts. */
  lemma SaveBlocksAtChar(text: string, pos: nat, n: nat)
    requires pos < |text| && FenceLen(text[pos..], 1).None?
    ensures var next := SaveBlocks(text[pos + 1..], n);
      SaveBlocks(text[pos..], n) == Saved([text[pos]] + next.text, next.blocks)
  {
    var rest := text[pos..];
    assert rest[1..] == text[pos + 1..];
  }

  /** `stripFormatting`: the saving replace is a scan that pushes into `codeBlocks`. */
  method StripFormatting(text: string) returns (r: string)
    ensures r == Stripped(text)
  {
    var codeBlocks: seq<string> := [];
    var processed := "";
    var pos := 0;
    assert text[pos..] == text;
    while pos < |text|
      invariant 0 <= pos <= |text|
      invariant Scanned(text, pos, processed, codeBlocks)
      decreases |text| - pos
    {
      match FenceLen(text[pos..], 1) {
        case Some(len) =>
          FenceStep(text, pos, len, processed, codeBlocks);
          processed := processed + Placeholder(|codeBlocks|);
          codeBlocks := codeBlocks + [text[pos..pos + len]];
          pos := pos + len;
        case None =>
          CharStep(text, pos, processed, codeBlocks);
          processed := processed + [text[pos]];
          pos := pos + 1;
      }
    }
    assert text[pos..] == [];
    assert SaveBlocks(text, 0) == Saved(processed, codeBlocks);
    processed := StripProse(processed);
    r := ReplaceAll(RestoreToken(codeBlocks), processed);
  }

  /** The scan's invariant: what is processed and pushed so far, followed by what saving the
      rest gives, is what saving the whole text gives. */
  ghost predicate Scanned(text: string, pos: nat, processed: string, codeBlocks: seq<string>)
    requires pos <= |text|
  {
    var rest := SaveBlocks(text[pos..], |codeBlocks|);
    SaveBlocks(text, 0) == Saved(processed + rest.text, codeBlocks + rest.blocks)
  }

  /** A block at `pos` is pushed and its placeholder processed. */
  lemma FenceStep(text: string, pos: nat, len: nat, processed: string, codeBlocks: seq<string>)
    requires pos < |text| && FenceLen(text[pos..], 1) == Some(len) && Scanned(text, pos, processed, codeBlocks)
    ensures pos + len <= |text|
    ensures Scanned(text, pos + len, processed + Placeholder(|codeBlocks|), codeBlocks + [text[pos..pos + len]])
  {
    var here := SaveBlocks(text[pos..], |codeBlocks|);
    var next := SaveBlocks(text[pos + len..], |codeBlocks| + 1);
    SaveBlocksAtFence(text, pos, |codeBlocks|, len);
    ShiftSaved(processed, codeBlocks, Placeholder(|codeBlocks|), [text[pos..pos + len]], next, here);
  }

  /** A character at `pos` where no block starts is processed as it is. */
  lemma CharStep(text: string, pos: nat, processed: string, codeBlocks: seq<string>)
    requires pos < |text| && FenceLen(text[pos..], 1).None? && Scanned(text, pos, processed, codeBlocks)
    ensures Scanned(text, pos + 1, processed + [text[pos]], codeBlocks)
  {
    var here := SaveBlocks(text[pos..], |codeBlocks|);
    var next := SaveBlocks(text[pos + 1..], |codeBlocks|);
    SaveBlocksAtChar(text, pos, |codeBlocks|);
    assert here.blocks == [] + next.blocks;
    ShiftSaved(processed, codeBlocks, [text[pos]], [], next, here);
  }

  /** Moving a step of the scan from the saved rest into what is already processed. */
  lemma ShiftSaved(processed: string, codeBlocks: seq<string>, piece: string, pieceBlocks: seq<string>,
                   next: Saved, here: Saved)
    requires here.text == piece + next.text && here.blocks == pieceBlocks + next.blocks
    ensures Saved(processed + here.text, codeBlocks + here.blocks)
      == Saved((processed + piece) + next.text, (codeBlocks + pieceBlocks) + next.blocks)
  {
    assert processed + here.text == (processed + piece) + next.text;
    assert codeBlocks + here.blocks == (codeBlocks + pieceBlocks) + next.blocks;
  }

  /** A text without a backtick holds no block, and saving leaves it as it is. */
  lemma {:induction false} SaveBlocksNoTick(s: string, n: nat)
    requires '`' !in s
    ensures SaveBlocks(s, n) == Saved(s, [])
    decreases |s|
  {
    if s != [] {
      SaveBlocksNoTick(s[1..], n);
      assert s == [s[0]] + s[1..];
    }
  }

  /** No `__CODE_BLOCK_n__` token starts anywhere in `s`. */
  predicate NoTokenIn(s: string) {
    forall k :: 0 <= k < |s| ==> TokenAt(s[k..]).None?
  }

  /** The prose replaces leave alone a text with no `*`, no backtick and no link. */
  lemma StripProsePlain(t: string)
    requires '*' !in t && '`' !in t && NoLinkIn(t)
    ensures StripProse(t) == t
  {
    DelimitedAbsent("***", "", "", t);
    DelimitedAbsent("**", "", "", t);
    DelimitedAbsent("*", "", "", t);
    DelimitedAbsent("`", "", "", t);
    LinkToAbsent(CaptionAndUrl, t);
  }

  /** A text with no `*`, no backtick, no `[a](u)` link and no placeholder token is returned
      unchanged. */
  lemma StrippedPlainText(text: string)
    requires '*' !in text && '`' !in text && NoLinkIn(text) && NoTokenIn(text)
    ensures Stripped(text) == text
  {
    SaveBlocksNoTick(text, 0);
    StripProsePlain(text);
    ReplaceAllNoMatch(RestoreToken([]), text);
  }

  /** The first position of `t` where a block starts. */
  function FirstBlock(t: string): (r: Option<nat>)
    ensures r.Some? ==> r.value < |t|
    decreases |t|
  {
    if t == [] then None
    else if FenceLen(t, 1).Some? then Some(0)
    else match FirstBlock(t[1..])
      case None => None
      case Some(p) => Some(p + 1)
  }

  /** Saving copies the text up to the first block, then writes that block's placeholder. */
  lemma {:induction false} SaveBlocksShape(t: string, n: nat)
    ensures FirstBlock(t).None? ==> SaveBlocks(t, n).text == t
    ensures FirstBlock(t).Some? ==> t[..FirstBlock(t).value] + Placeholder(n) <= SaveBlocks(t, n).text
    decreases |t|
  {
    if t != [] && FenceLen(t, 1).None? {
      SaveBlocksShape(t[1..], n);
      assert t == [t[0]] + t[1..];
      match FirstBlock(t[1..]) {
        case None =>
        case Some(p) =>
          assert t[..p + 1] == [t[0]] + t[1..][..p];
      }
    }
  }

  /** A placeholder starts with `__CODE_BLOCK_`, hence with two underscores. */
  lemma PlaceholderStart(n: nat)
    ensures |Placeholder(n)| > 13 && Placeholder(n)[..13] == TokenPrefix
    ensures Placeholder(n)[0] == '_' && Placeholder(n)[1] == '_'
  {
  }

  /** A placeholder is read back as a token naming its own index. */
  lemma PlaceholderToken(n: nat, rest: string)
    ensures TokenAt(Placeholder(n) + rest) == Some((n, |Placeholder(n)|))
  {
    var s := Placeholder(n) + rest;
    var ds := NatToString(n);
    PlaceholderParts(n, rest);
    TokenOfParts(s, ds, rest);
    NatToStringValue(n);
    assert DigitsValue(ds) == n && |Placeholder(n)| == 15 + |ds|;
  }

  /** A placeholder followed by `rest` is `__CODE_BLOCK_`, the digits and `__`, then `rest`. */
  lemma PlaceholderParts(n: nat, rest: string)
    ensures StartsWith(Placeholder(n) + rest, TokenPrefix)
    ensures (Placeholder(n) + rest)[13..] == NatToString(n) + ("__" + rest)
    ensures |Placeholder(n)| == 15 + |NatToString(n)|
  {
    var ds := NatToString(n);
    assert Placeholder(n) + rest == TokenPrefix + (ds + ("__" + rest));
    Split(TokenPrefix, ds + ("__" + rest));
  }

  /** A slice of the suffix starting at `i` is the same slice of the whole text, shifted. */
  lemma SliceOfSuffix(s: string, i: nat, j: nat, k: nat)
    requires i + j + k <= |s|
    ensures s[i..][j..][..k] == s[i + j..i + j + k]
  {
  }

  /** `p + x` cut where `p` ends gives back `p` and `x`. */
  lemma Split(p: string, x: string)
    ensures (p + x)[..|p|] == p && (p + x)[|p|..] == x
  {
  }

  /** `__CODE_BLOCK_`, digits and `__` read back as the token of those digits. */
  lemma TokenOfParts(s: string, ds: string, rest: string)
    requires StartsWith(s, TokenPrefix) && s[13..] == ds + ("__" + rest)
    requires ds != [] && AllDigits(ds)
    ensures TokenAt(s) == Some((DigitsValue(ds), 15 + |ds|))
  {
    DigitsThenUnderscores(s[13..], ds, rest);
    TokenAtShape(s, |ds|);
  }

  /** Digits followed by `__`: the digit run is exactly those digits, then `__` follows. */
  lemma DigitsThenUnderscores(digits: string, ds: string, rest: string)
    requires digits == ds + ("__" + rest) && AllDigits(ds)
    ensures DigitRun(digits) == |ds| && digits[..|ds|] == ds && At(digits, |ds|, "__")
  {
    DigitRunPrefix(ds, "__" + rest);
    Split(ds, "__" + rest);
    Split("__", rest);
    SliceOfSuffix(digits, |ds|, 0, 2);
  }

  /** A token is `__CODE_BLOCK_`, a run of `d` digits, then `__`. */
  lemma TokenAtShape(s: string, d: nat)
    requires StartsWith(s, TokenPrefix) && 0 < d && DigitRun(s[13..]) == d && At(s[13..], d, "__")
    ensures TokenAt(s) == Some((DigitsValue(s[13..][..d]), 15 + d))
  {
    SliceOfSuffix(s, 13, d, 2);
  }

  /** The only proper border of `__CODE_BLOCK_` is `_`, and it is followed by another `_`, not
      by a digit: so a character of the text followed by the saved rest never forms a token
      with the start of a placeholder. */
  lemma NoTokenAcrossPlaceholder(s: string, n: nat)
    requires s != [] && FenceLen(s, 1).None? && !Contains(s, TokenPrefix)
    ensures TokenAt([s[0]] + SaveBlocks(s[1..], n).text).None?
  {
    var u := [s[0]] + SaveBlocks(s[1..], n).text;
    SaveBlocksShape(s[1..], n);
    match FirstBlock(s[1..]) {
      case None =>
        assert u == s;
        NoTokenAtStart(s);
      case Some(p) =>
        PrefixCons(s, p, Placeholder(n), SaveBlocks(s[1..], n).text);
        PlaceholderStart(n);
        NoTokenBeforePlaceholder(s, u, p + 1, Placeholder(n));
    }
  }

  /** A prefix of the rest of `s` stays a prefix once the first character is put back. */
  lemma PrefixCons(s: string, p: nat, x: string, b: string)
    requires p < |s| && s[1..][..p] + x <= b
    ensures s[..p + 1] + x <= [s[0]] + b
  {
    assert s[..p + 1] + x == [s[0]] + (s[1..][..p] + x) by {
      assert s[..p + 1] == [s[0]] + s[1..][..p];
    }
    assert ([s[0]] + b)[..p + 1 + |x|] == [s[0]] + (s[1..][..p] + x);
  }

  /** A text without `__CODE_BLOCK_` does not start with a token. */
  lemma NoTokenAtStart(s: string)
    requires !Contains(s, TokenPrefix)
    ensures TokenAt(s).None?
  {
    assert !At(s, 0, TokenPrefix);
  }

  /** A text made of at least one character of `s` followed by a placeholder does not start
      with a token when `s` holds no `__CODE_BLOCK_`. */
  lemma NoTokenBeforePlaceholder(s: string, u: string, q: nat, ph: string)
    requires 1 <= q <= |s| && !Contains(s, TokenPrefix)
    requires |ph| > 13 && ph[0] == '_' && ph[1] == '_' && s[..q] + ph <= u
    ensures TokenAt(u).None?
  {
    if TokenAt(u).Some? && q < 13 {
      PrefixBorder(u, s[..q], ph);
    }
  }

  /** Where `__CODE_BLOCK_` starts a text and a text starting with `__` is written at `q < 13`,
      the two overlap in the border `_` only: `q` is 12 and the text continues with `_`. */
  lemma PrefixBorder(u: string, v: string, ph: string)
    requires |u| >= 13 && u[..13] == TokenPrefix
    requires 1 <= |v| < 13 && |ph| >= 2 && ph[0] == '_' && ph[1] == '_' && v + ph <= u
    ensures |v| == 12 && |u| > 13 && u[13] == '_'
  {
    var q := |v|;
    var w := v + ph;
    assert w[q] == '_' && w[q + 1] == '_';
    assert u[q] == '_' && u[q + 1] == '_';
    if q <= 11 {
      assert u[..13][q] == u[q] && u[..13][q + 1] == u[q + 1];
      TokenPrefixUnderscores(q);
      assert false;
    }
  }

  /** `__CODE_BLOCK_` has two underscores in a row only at its start. */
  lemma TokenPrefixUnderscores(q: int)
    requires 1 <= q <= 11
    ensures !(TokenPrefix[q] == '_' && TokenPrefix[q + 1] == '_')
  {
  }

  /** Restoring the saved blocks into the saved text gives back the original text, provided the
      text contains no `__CODE_BLOCK_` of its own; `blocks` holds the saved blocks at index `n`. */
  lemma {:induction false} RestoreSaved(s: string, n: nat, blocks: seq<string>)
    requires !Contains(s, TokenPrefix)
    requires var saved := SaveBlocks(s, n);
      n + |saved.blocks| <= |blocks| && blocks[n..n + |saved.blocks|] == saved.blocks
    ensures ReplaceAll(RestoreToken(blocks), SaveBlocks(s, n).text) == s
    decreases |s|
  {
    if s != [] {
      match FenceLen(s, 1) {
        case Some(len) =>
          FenceBlocks(s, n, len, blocks);
          NotContainsSuffix(s, TokenPrefix, len);
          RestoreSaved(s[len..], n + 1, blocks);
          FenceRestored(s, n, len, blocks);
        case None =>
          NotContainsSuffix(s, TokenPrefix, 1);
          RestoreSaved(s[1..], n, blocks);
          NoTokenAcrossPlaceholder(s, n);
          CharRestored(s, n, blocks);
      }
    }
  }

  /** The blocks saved after a fence sit right after the fence's own block. */
  lemma FenceBlocks(s: string, n: nat, len: nat, blocks: seq<string>)
    requires FenceLen(s, 1) == Some(len)
    requires var saved := SaveBlocks(s, n);
      n + |saved.blocks| <= |blocks| && blocks[n..n + |saved.blocks|] == saved.blocks
    ensures var rest := SaveBlocks(s[len..], n + 1);
      && n < |blocks| && blocks[n] == s[..len]
      && n + 1 + |rest.blocks| <= |blocks| && blocks[n + 1..n + 1 + |rest.blocks|] == rest.blocks
  {
    var saved := SaveBlocks(s, n);
    var rest := SaveBlocks(s[len..], n + 1);
    assert saved.blocks == [s[..len]] + rest.blocks;
    var window := blocks[n..n + |saved.blocks|];
    assert blocks[n] == window[0] == saved.blocks[0] == s[..len];
    assert blocks[n + 1..n + 1 + |rest.blocks|] == window[1..] == rest.blocks;
  }

  /** A fence restored in front of a restored rest gives the text back. */
  lemma FenceRestored(s: string, n: nat, len: nat, blocks: seq<string>)
    requires FenceLen(s, 1) == Some(len) && n < |blocks| && blocks[n] == s[..len]
    requires ReplaceAll(RestoreToken(blocks), SaveBlocks(s[len..], n + 1).text) == s[len..]
    ensures ReplaceAll(RestoreToken(blocks), SaveBlocks(s, n).text) == s
  {
    var t := SaveBlocks(s[len..], n + 1).text;
    SaveBlocksAtFence(s, 0, n, len);
    assert s[0..] == s && s[0 + len..] == s[len..] && s[0..0 + len] == s[..len];
    RestorePlaceholder(n, t, blocks);
    Rejoin(RestoreToken(blocks), SaveBlocks(s, n).text, Placeholder(n), t, s, len);
  }

  /** A replace that turns `ph` into the first `len` characters of `s` and the rest into the
      rest of `s` gives `s` back. */
  lemma Rejoin(at: Matcher, saved: string, ph: string, t: string, s: string, len: nat)
    requires len <= |s| && saved == ph + t
    requires ReplaceAll(at, ph + t) == s[..len] + ReplaceAll(at, t) && ReplaceAll(at, t) == s[len..]
    ensures ReplaceAll(at, saved) == s
  {
    assert s == s[..len] + s[len..];
  }

  /** A character restored in front of a restored rest gives the text back. */
  lemma CharRestored(s: string, n: nat, blocks: seq<string>)
    requires s != [] && FenceLen(s, 1).None?
    requires TokenAt([s[0]] + SaveBlocks(s[1..], n).text).None?
    requires ReplaceAll(RestoreToken(blocks), SaveBlocks(s[1..], n).text) == s[1..]
    ensures ReplaceAll(RestoreToken(blocks), SaveBlocks(s, n).text) == s
  {
    RestoreChar(s[0], SaveBlocks(s[1..], n).text, blocks);
    assert s == [s[0]] + s[1..];
  }

  /** The restoring replace puts block `n` in place of its placeholder. */
  lemma RestorePlaceholder(n: nat, rest: string, blocks: seq<string>)
    requires n < |blocks|
    ensures ReplaceAll(RestoreToken(blocks), Placeholder(n) + rest) == blocks[n] + ReplaceAll(RestoreToken(blocks), rest)
  {
    PlaceholderToken(n, rest);
    assert (Placeholder(n) + rest)[|Placeholder(n)|..] == rest;
  }

  /** The restoring replace copies a character where no token starts. */
  lemma RestoreChar(c: char, rest: string, blocks: seq<string>)
    requires TokenAt([c] + rest).None?
    ensures ReplaceAll(RestoreToken(blocks), [c] + rest) == [c] + ReplaceAll(RestoreToken(blocks), rest)
  {
    assert ([c] + rest)[1..] == rest;
  }

  /** Every block is put back verbatim at its place: when the prose around the blocks holds no
      markup and the text no `__CODE_BLOCK_` of its own, the text comes back unchanged. */
  lemma StrippedKeepsBlocks(text: string)
    requires !Contains(text, TokenPrefix)
    requires var prose := SaveBlocks(text, 0).text; '*' !in prose && '`' !in prose && NoLinkIn(prose)
    ensures Stripped(text) == text
  {
    var saved := SaveBlocks(text, 0);
    StripProsePlain(saved.text);
    assert saved.blocks[0..|saved.blocks|] == saved.blocks;
    RestoreSaved(text, 0, saved.blocks);
  }

  /** A fenced block behind prose without backticks or `_` comes back verbatim behind the
      stripped prose. */
  lemma StrippedProseThenBlock(x: string, f: string)
    requires '`' !in x && '_' !in x
    requires FenceLen(f, 1) == Some(|f|)
    ensures Stripped(x + f) == StripProse(x) + f
  {
    SaveProseThenFence(x, f, 0);
    PlaceholderInert(0);
    StripProseBefore(x, Placeholder(0));
    StripProseAvoids(x, '_');
    RestoreBehind(StripProse(x), f);
  }

  /** The restoring replace copies a text without `_` and puts the block behind it. */
  lemma RestoreBehind(p: string, f: string)
    requires '_' !in p
    ensures ReplaceAll(RestoreToken([f]), p + Placeholder(0)) == p + f
  {
    var ph := Placeholder(0);
    forall k | 0 <= k < |p| ensures !Usable(RestoreToken([f])((p + ph)[k..]), (p + ph)[k..]) {
      assert (p + ph)[k..][0] == p[k];
      NoTokenAtOther((p + ph)[k..]);
    }
    ReplaceAllPrefix(RestoreToken([f]), p, ph);
    RestorePlaceholder(0, [], [f]);
    assert ph + [] == ph;
  }

  /** A token starts with `_`. */
  lemma NoTokenAtOther(s: string)
    requires s != [] && s[0] != '_'
    ensures TokenAt(s).None?
  {
    if |s| >= 13 {
      assert s[..13][0] == s[0];
    }
  }

  /** A fenced block in front of prose without backticks or `_` comes back verbatim in front
      of the stripped prose. */
  lemma StrippedBlockThenProse(f: string, y: string)
    requires FenceLen(f, 1) == Some(|f|)
    requires '`' !in y && '_' !in y
    ensures Stripped(f + y) == f + StripProse(y)
  {
    var ph := Placeholder(0);
    var q := StripProse(y);
    SaveFenceThenProse(f, y, 0);
    PlaceholderInert(0);
    StripProseAfter(ph, y);
    StripProseAvoids(y, '_');
    RestorePlaceholder(0, q, [f]);
    NoUnderscoreNoToken(q);
    ReplaceAllNoMatch(RestoreToken([f]), q);
  }

  /** Saving prose without backticks followed by one block. */
  lemma {:induction false} SaveProseThenFence(x: string, f: string, n: nat)
    requires '`' !in x && FenceLen(f, 1) == Some(|f|)
    ensures SaveBlocks(x + f, n) == Saved(x + Placeholder(n), [f])
    decreases |x|
  {
    if x == [] {
      assert x + f == f;
      assert f[..|f|] == f && f[|f|..] == [];
    } else {
      var s := x + f;
      NoFenceAtOther(s);
      assert s[0..] == s && s[1..] == x[1..] + f;
      SaveBlocksAtChar(s, 0, n);
      SaveProseThenFence(x[1..], f, n);
      ConsAppend(x, Placeholder(n));
    }
  }

  /** Appending behind a text is appending behind its tail. */
  lemma ConsAppend(x: string, p: string)
    requires x != []
    ensures [x[0]] + (x[1..] + p) == x + p
  {
    assert x == [x[0]] + x[1..];
  }

  /** No block starts at a character other than a backtick. */
  lemma NoFenceAtOther(s: string)
    requires s != [] && s[0] != '`'
    ensures FenceLen(s, 1).None?
  {
    if |s| >= 3 {
      assert s[..3][0] == s[0];
    }
  }

  /** Saving one block followed by prose without backticks. */
  lemma SaveFenceThenProse(f: string, y: string, n: nat)
    requires FenceLen(f, 1) == Some(|f|) && '`' !in y
    ensures SaveBlocks(f + y, n) == Saved(Placeholder(n) + y, [f])
  {
    var s := f + y;
    AtBefore(f, y, "```", 0);
    FindFromBefore(f, y, "```", 4);
    assert FenceLen(s, 1) == Some(|f|);
    assert s[..|f|] == f && s[|f|..] == y;
    SaveBlocksNoTick(y, n + 1);
  }

  /** A placeholder holds none of the characters the prose patterns start or end on. */
  lemma PlaceholderInert(n: nat)
    ensures var ph := Placeholder(n);
      '*' !in ph && '`' !in ph && '[' !in ph && ']' !in ph && '(' !in ph && ')' !in ph
  {
    var ds := NatToString(n);
    assert forall i :: 0 <= i < |ds| ==> IsDigit(ds[i]);
  }

  /** The prose replaces leave alone a text behind the prose that holds no `*`, backtick,
      bracket or parenthesis: no span reaches into it and none starts in it. */
  lemma StripProseBefore(x: string, b: string)
    requires '*' !in b && '`' !in b && '[' !in b && ']' !in b && '(' !in b && ')' !in b
    ensures StripProse(x + b) == StripProse(x) + b
  {
    var x1 := ReplaceAll(StripTripleStar(), x);
    var x2 := ReplaceAll(StripDoubleStar(), x1);
    var x3 := ReplaceAll(StripStar(), x2);
    var x4 := ReplaceAll(StripTick(), x3);
    DelimitedBlind("***", "", "", x, b);
    ReplaceAllBefore(StripTripleStar(), x, b);
    DelimitedBlind("**", "", "", x1, b);
    ReplaceAllBefore(StripDoubleStar(), x1, b);
    DelimitedBlind("*", "", "", x2, b);
    ReplaceAllBefore(StripStar(), x2, b);
    DelimitedBlind("`", "", "", x3, b);
    ReplaceAllBefore(StripTick(), x3, b);
    LinkToBlind(CaptionAndUrl, x4, b);
    ReplaceAllBefore(LinkToText(), x4, b);
  }

  /** The prose replaces copy a leading text with no `*`, backtick or `[`: no span starts in it. */
  lemma StripProseAfter(a: string, y: string)
    requires '*' !in a && '`' !in a && '[' !in a
    ensures StripProse(a + y) == a + StripProse(y)
  {
    var y1 := ReplaceAll(StripTripleStar(), y);
    var y2 := ReplaceAll(StripDoubleStar(), y1);
    var y3 := ReplaceAll(StripStar(), y2);
    var y4 := ReplaceAll(StripTick(), y3);
    DelimitedLead("***", a, y);
    DelimitedLead("**", a, y1);
    DelimitedLead("*", a, y2);
    DelimitedLead("`", a, y3);
    LinkLead(a, y4);
  }

  /** The link replace copies a leading text without `[`. */
  lemma LinkLead(a: string, y: string)
    requires '[' !in a
    ensures ReplaceAll(LinkToText(), a + y) == a + ReplaceAll(LinkToText(), y)
  {
    forall k | 0 <= k < |a| ensures !Usable(LinkToText()((a + y)[k..]), (a + y)[k..]) {
      var s := (a + y)[k..];
      assert s[0] == a[k];
      assert !StartsWith(s, "[") by {
        assert s[..1][0] == s[0];
      }
      assert LinkAt(s).None?;
    }
    ReplaceAllPrefix(LinkToText(), a, y);
  }

  /** A delimited replace copies a leading text that lacks the delimiter's first character. */
  lemma DelimitedLead(d: string, a: string, y: string)
    requires d != [] && d[0] !in a
    ensures ReplaceAll(Delimited(d, "", ""), a + y) == a + ReplaceAll(Delimited(d, "", ""), y)
  {
    forall k | 0 <= k < |a| ensures !Usable(Delimited(d, "", "")((a + y)[k..]), (a + y)[k..]) {
      assert (a + y)[k..][0] == a[k];
    }
    ReplaceAllPrefix(Delimited(d, "", ""), a, y);
  }

  /** The prose replaces add no character other than the space and parentheses of a link. */
  lemma StripProseAvoids(x: string, c: char)
    requires c !in x && c != ' ' && c != '(' && c != ')'
    ensures c !in StripProse(x)
  {
    var x1 := ReplaceAll(StripTripleStar(), x);
    var x2 := ReplaceAll(StripDoubleStar(), x1);
    var x3 := ReplaceAll(StripStar(), x2);
    var x4 := ReplaceAll(StripTick(), x3);
    DelimitedAvoids("***", "", "", x, c);
    ReplaceAllAvoids(StripTripleStar(), x, c);
    DelimitedAvoids("**", "", "", x1, c);
    ReplaceAllAvoids(StripDoubleStar(), x1, c);
    DelimitedAvoids("*", "", "", x2, c);
    ReplaceAllAvoids(StripStar(), x2, c);
    DelimitedAvoids("`", "", "", x3, c);
    ReplaceAllAvoids(StripTick(), x3, c);
    LinkToTextAvoids(x4, c);
    ReplaceAllAvoids(LinkToText(), x4, c);
  }

  /** A text in which no fence opens holds no block, and saving leaves it as it is. */
  lemma {:induction false} SaveBlocksNoFence(s: string, n: nat)
    requires Nowhere(s, "```")
    ensures SaveBlocks(s, n) == Saved(s, [])
    decreases |s|
  {
    if s != [] {
      assert !At(s, 0, "```");
      assert Nowhere(s[1..], "```") by {
        forall k | 0 <= k ensures !At(s[1..], k, "```") {
          assert !At(s, k + 1, "```");
          if k + 3 <= |s[1..]| {
            assert s[1..][k..k + 3] == s[k + 1..k + 4];
          }
        }
      }
      SaveBlocksNoFence(s[1..], n);
      assert s == [s[0]] + s[1..];
    }
  }

  /** A text without `_` holds no placeholder token. */
  lemma NoUnderscoreNoToken(y: string)
    requires '_' !in y
    ensures NoTokenIn(y)
  {
    forall k | 0 <= k < |y| ensures TokenAt(y[k..]).None? {
      assert y[k..][0] == y[k];
    }
  }

  /** Saving and restoring change nothing in a text with no fence and no `_`, so what
      `stripFormatting` returns is then what the prose replaces make of it. */
  lemma StrippedProseOnly(t: string)
    requires Nowhere(t, "```") && '_' !in StripProse(t)
    ensures Stripped(t) == StripProse(t)
  {
    SaveBlocksNoFence(t, 0);
    NoUnderscoreNoToken(StripProse(t));
    ReplaceAllNoMatch(RestoreToken([]), StripProse(t));
  }

  /** A star-free, tick-free text has no fence. */
  lemma NoTickNoFence(t: string)
    requires '`' !in t
    ensures Nowhere(t, "```")
  {
    forall k | 0 <= k ensures !At(t, k, "```") {
      if k + 3 <= |t| {
        assert t[k..k + 3][0] == t[k];
      }
    }
  }

  /** The prose replaces leave a plain text as it is. */
  lemma StripProseOfPlain(x: string)
    requires Plain(x)
    ensures StripProse(x) == x
  {
    NoBracketNoLink(x);
    StripProsePlain(x);
  }

  /** `***x***` becomes `x`. */
  lemma StripProseTripleStar(x: string)
    requires Plain(x)
    ensures StripProse("***" + x + "***") == x
  {
    DelimitedWhole("***", "", "", x);
    assert "" + x + "" == x;
    DelimitedAbsent("**", "", "", x);
    DelimitedAbsent("*", "", "", x);
    DelimitedAbsent("`", "", "", x);
    NoBracketNoLink(x);
    LinkToAbsent(CaptionAndUrl, x);
  }

  /** `**x**` becomes `x`: the triple-star replace finds no three stars in a row. */
  lemma StripProseDoubleStar(x: string)
    requires Plain(x) && x != []
    ensures StripProse("**" + x + "**") == x
  {
    NoLongerRun('*', x, 2);
    assert Repeat('*', 2) == "**" && Repeat('*', 3) == "***";
    DelimitedNowhere("***", "", "", "**" + x + "**");
    DelimitedWhole("**", "", "", x);
    assert "" + x + "" == x;
    DelimitedAbsent("*", "", "", x);
    DelimitedAbsent("`", "", "", x);
    NoBracketNoLink(x);
    LinkToAbsent(CaptionAndUrl, x);
  }

  /** `*x*` becomes `x`: neither the triple- nor the double-star replace finds its delimiter. */
  lemma StripProseStar(x: string)
    requires Plain(x) && x != []
    ensures StripProse("*" + x + "*") == x
  {
    var s := "*" + x + "*";
    NoLongerRun('*', x, 1);
    assert Repeat('*', 1) == "*" && Repeat('*', 2) == "**";
    forall k | 0 <= k ensures !At(s, k, "***") {
      if At(s, k, "***") {
        AtPrefix(s, k, "***", "**");
      }
    }
    DelimitedNowhere("***", "", "", s);
    DelimitedNowhere("**", "", "", s);
    DelimitedWhole("*", "", "", x);
    assert "" + x + "" == x;
    DelimitedAbsent("`", "", "", x);
    NoBracketNoLink(x);
    LinkToAbsent(CaptionAndUrl, x);
  }

  /** `` `x` `` becomes `x`. */
  lemma StripProseTick(x: string)
    requires Plain(x)
    ensures StripProse("`" + x + "`") == x
  {
    var s := "`" + x + "`";
    assert '*' !in s;
    DelimitedAbsent("***", "", "", s);
    DelimitedAbsent("**", "", "", s);
    DelimitedAbsent("*", "", "", s);
    DelimitedWhole("`", "", "", x);
    assert "" + x + "" == x;
    NoBracketNoLink(x);
    LinkToAbsent(CaptionAndUrl, x);
  }

  /** `[a](u)` becomes `a (u)`. */
  lemma StripProseLink(a: string, u: string)
    requires Plain(a) && Plain(u) && a != [] && u != []
    ensures StripProse("[" + a + "](" + u + ")") == a + " (" + u + ")"
  {
    var s := "[" + a + "](" + u + ")";
    assert '*' !in s && '`' !in s;
    DelimitedAbsent("***", "", "", s);
    DelimitedAbsent("**", "", "", s);
    DelimitedAbsent("*", "", "", s);
    DelimitedAbsent("`", "", "", s);
    LinkToWhole(CaptionAndUrl, a, u);
  }

  /** In prose, `***x***`, `**x**`, `*x*` and `` `x` `` become `x`. */
  lemma StrippedEmphasis(x: string)
    requires Plain(x) && x != []
    ensures Stripped("***" + x + "***") == x
    ensures Stripped("**" + x + "**") == x
    ensures Stripped("*" + x + "*") == x
    ensures Stripped("`" + x + "`") == x
  {
    StrippedStars(x);
    StrippedTick(x);
  }

  lemma StrippedStars(x: string)
    requires Plain(x) && x != []
    ensures Stripped("***" + x + "***") == x
    ensures Stripped("**" + x + "**") == x
    ensures Stripped("*" + x + "*") == x
  {
    StripProseTripleStar(x);
    NoTickNoFence("***" + x + "***");
    StrippedProseOnly("***" + x + "***");
    StripProseDoubleStar(x);
    NoTickNoFence("**" + x + "**");
    StrippedProseOnly("**" + x + "**");
    StripProseStar(x);
    NoTickNoFence("*" + x + "*");
    StrippedProseOnly("*" + x + "*");
  }

  lemma StrippedTick(x: string)
    requires Plain(x) && x != []
    ensures Stripped("`" + x + "`") == x
  {
    StripProseTick(x);
    NoLongerRun('`', x, 1);
    assert Repeat('`', 1) == "`" && Repeat('`', 2) == "``";
    forall k | 0 <= k ensures !At("`" + x + "`", k, "```") {
      if At("`" + x + "`", k, "```") {
        AtPrefix("`" + x + "`", k, "```", "``");
      }
    }
    StrippedProseOnly("`" + x + "`");
  }

  /** `[a](u)` becomes `a (u)`. */
  lemma StrippedLink(a: string, u: string)
    requires Plain(a) && Plain(u) && a != [] && u != []
    ensures Stripped("[" + a + "](" + u + ")") == a + " (" + u + ")"
  {
    var s := "[" + a + "](" + u + ")";
    StripProseLink(a, u);
    assert '`' !in s;
    NoTickNoFence(s);
    StrippedProseOnly(s);
  }
}

=== FILE: telegram.dfy ===
/** The bot: update dispatch, the group gate, prompt assembly and generation, the command
    and callback handlers, and the sending of replies. Telegram, the stores and the completion
    endpoint are outside the model: what the bot puts out (messages, requests to the
    endpoint, sleeps, callback answers) is appended to `trace`, the Redis store is the map
    `store`, the cooldown namespace is the limiter's map, and the endpoint's replies come, one
    per request, from the oracle `backend`. */
module Telegram {
  import opened Wrappers
  import opened Text
  import opened Decimal
  import opened Helpers
  import MessageSplit
  import opened RateLimiting
  import opened Env
  import opened I18n
  import opened Gemini
  import opened Commands
  import opened Turn

  // ---------------------------------------------------------------------------
  // What the bot puts out

  /** The options of a send: HTML parse mode, the message replied to, an inline keyboard. */
  datatype SendOptions = SendOptions(html: bool, replyTo: Option<int>, keyboard: Option<Keyboard>)

  const NoOptions := SendOptions(false, None, None)

  datatype Event =
    | Sent(chatId: int, text: string, options: SendOptions)
    | Requested(request: ChatRequest)
    | Slept(ms: nat)
    | Answered(queryId: string)

  /** One message per chunk, in order. */
  function Sends(chatId: int, chunks: seq<string>, options: SendOptions): (r: seq<Event>)
    ensures |r| == |chunks|
    ensures forall i :: 0 <= i < |chunks| ==> r[i] == Sent(chatId, chunks[i], options)
  {
    seq(|chunks|, i requires 0 <= i < |chunks| => Sent(chatId, chunks[i], options))
  }

  /** One more chunk sent. */
  lemma SendsStep(chatId: int, chunks: seq<string>, i: nat, options: SendOptions)
    requires i < |chunks|
    ensures Sends(chatId, chunks[..i + 1], options) == Sends(chatId, chunks[..i], options) + [Sent(chatId, chunks[i], options)]
  {
  }

  /** What `sendMessage` puts out: the chunks of `splitMessage`, each with the same options. */
  function Delivery(chatId: int, text: string, options: SendOptions): seq<Event> {
    Sends(chatId, MessageSplit.Chunks(text, MessageSplit.DefaultMaxLength), options)
  }

  /** What `sendMessageWithFallback` puts out: the HTML rendering, sent with HTML parse mode. */
  function HtmlDelivery(chatId: int, text: string, replyTo: Option<int>): seq<Event> {
    Delivery(chatId, FormatHtml(text), SendOptions(true, replyTo, None))
  }

  /** `n` requests, the i-th followed by the sleep `delays[i]` when there is one. */
  function Attempts(request: ChatRequest, delays: seq<nat>, n: nat): (r: seq<Event>)
    ensures |r| == n + (if |delays| < n then |delays| else n)
    decreases n
  {
    if n == 0 then []
    else Attempts(request, delays, n - 1) + [Requested(request)] + (if n - 1 < |delays| then [Slept(delays[n - 1])] else [])
  }

  /** Only the first `n` sleeps matter to `n` attempts. */
  lemma {:induction false} AttemptsExtend(request: ChatRequest, delays: seq<nat>, d: nat, n: nat)
    requires n <= |delays|
    ensures Attempts(request, delays + [d], n) == Attempts(request, delays, n)
    decreases n
  {
    if n > 0 {
      AttemptsExtend(request, delays, d, n - 1);
      assert (delays + [d])[n - 1] == delays[n - 1];
    }
  }

  lemma AppendAssoc(a: seq<Event>, b: seq<Event>, c: seq<Event>)
    ensures (a + b) + c == a + (b + c)
  {
  }

  /** One more attempt, not followed by a sleep. */
  lemma AttemptsLast(request: ChatRequest, delays: seq<nat>)
    ensures Attempts(request, delays, |delays| + 1) == Attempts(request, delays, |delays|) + [Requested(request)]
  {
  }

  /** One more attempt, followed by its sleep. */
  lemma AttemptsSleep(request: ChatRequest, delays: seq<nat>, d: nat)
    ensures Attempts(request, delays + [d], |delays| + 1) == Attempts(request, delays, |delays|) + [Requested(request)] + [Slept(d)]
  {
    AttemptsExtend(request, delays, d, |delays|);
  }

  /** A trace after `|delays|` attempts, extended by one more request. */
  lemma AttemptStep(t: seq<Event>, request: ChatRequest, delays: seq<nat>)
    ensures t + Attempts(request, delays, |delays|) + [Requested(request)] == t + Attempts(request, delays, |delays| + 1)
  {
    AttemptsLast(request, delays);
    AppendAssoc(t, Attempts(request, delays, |delays|), [Requested(request)]);
  }

  /** The same trace, extended by the sleep after that request. */
  lemma SleepStep(t: seq<Event>, request: ChatRequest, delays: seq<nat>, d: nat)
    ensures t + Attempts(request, delays, |delays|) + [Requested(request)] + [Slept(d)] == t + Attempts(request, delays + [d], |delays| + 1)
  {
    var before := Attempts(request, delays, |delays|);
    AttemptsSleep(request, delays, d);
    AppendAssoc(t, before, [Requested(request)]);
    AppendAssoc(t, before + [Requested(request)], [Slept(d)]);
  }

  /** A run of attempts lists its requests and sleeps alternately: every overloaded attempt is
      followed by its sleep, the last attempt by none unless the loop gave up. */
  lemma AttemptsShape(request: ChatRequest, delays: seq<nat>)
    requires |delays| <= 3
    ensures Attempts(request, delays, |delays| + 1)
      == Attempts(request, delays, |delays|) + [Requested(request)]
    ensures |delays| == 3 ==> (Attempts(request, delays, 3)
      == [Requested(request), Slept(delays[0]), Requested(request), Slept(delays[1]), Requested(request), Slept(delays[2])])
  {
    if |delays| == 3 {
      assert Attempts(request, delays, 1) == [Requested(request), Slept(delays[0])];
      assert Attempts(request, delays, 2) == Attempts(request, delays, 1) + [Requested(request), Slept(delays[1])];
    }
  }

  /** A run of the loop with `slept` already behind it. */
  function After(slept: seq<nat>, rest: RetryRun): (r: RetryRun)
    ensures r.result == rest.result && r.calls == rest.calls && r.delays == slept + rest.delays
  {
    RetryRun(rest.result, rest.calls, slept + rest.delays)
  }

  /** A loop that sleeps no more keeps the sleeps behind it. */
  lemma AfterStop(slept: seq<nat>, result: Result<string, string>, calls: nat)
    ensures After(slept, RetryRun(result, calls, [])) == RetryRun(result, calls, slept)
  {
    assert slept + [] == slept;
  }

  /** An attempt that is not overloaded ends the loop with its outcome. */
  lemma RetryStops(outcomes: seq<Result<string, string>>, retries: nat, delay: nat, done: nat)
    requires 0 < retries && done + retries <= |outcomes| && !Overloaded(outcomes[done])
    ensures RetryLoop(outcomes, retries, delay, done) == RetryRun(outcomes[done], done + 1, [])
  {
  }

  /** An overloaded attempt adds its sleep to those behind it and leaves the rest to the loop. */
  lemma RetryContinues(outcomes: seq<Result<string, string>>, retries: nat, delay: nat, done: nat, slept: seq<nat>)
    requires 0 < retries && done + retries <= |outcomes| && Overloaded(outcomes[done])
    ensures After(slept, RetryLoop(outcomes, retries, delay, done))
      == After(slept + [delay], RetryLoop(outcomes, retries - 1, delay * 2, done + 1))
  {
    var rest := RetryLoop(outcomes, retries - 1, delay * 2, done + 1);
    assert slept + ([delay] + rest.delays) == (slept + [delay]) + rest.delays;
  }

  // ---------------------------------------------------------------------------
  // The store

  function LanguageKey(userId: string): string {
    "language:" + userId
  }

  function ModelKey(userId: string): string {
    "model:" + userId
  }

  function ContextKey(userId: string): string {
    "context:" + userId
  }

  /** The three kinds of entry never share a key, and each kind keeps users apart. */
  lemma StoreKeysDistinct(u: string, v: string)
    ensures LanguageKey(u) != ModelKey(v) && LanguageKey(u) != ContextKey(v) && ModelKey(u) != ContextKey(v)
    ensures LanguageKey(u) == LanguageKey(v) || ModelKey(u) == ModelKey(v) || ContextKey(u) == ContextKey(v) ==> u == v
  {
    assert LanguageKey(u)[0] == 'l' && ModelKey(v)[0] == 'm' && ContextKey(v)[0] == 'c';
    assert ModelKey(u)[0] == 'm';
    if LanguageKey(u) == LanguageKey(v) {
      assert u == LanguageKey(u)[9..] && v == LanguageKey(v)[9..];
    }
    if ModelKey(u) == ModelKey(v) {
      assert u == ModelKey(u)[6..] && v == ModelKey(v)[6..];
    }
    if ContextKey(u) == ContextKey(v) {
      assert u == ContextKey(u)[8..] && v == ContextKey(v)[8..];
    }
  }

  /** `RedisClient.appendContext`: how the stored context (absent or a text) and the newly
      cleaned exchange combine. */
  type Appender = (Option<string>, string) -> string

  /** `getUserLanguage`: the stored language when non-empty, `zh` otherwise. */
  function UserLanguage(store: map<string, string>, userId: string): (r: string)
    ensures LanguageKey(userId) in store && store[LanguageKey(userId)] != "" ==> r == store[LanguageKey(userId)]
    ensures LanguageKey(userId) !in store || store[LanguageKey(userId)] == "" ==> r == DefaultLanguage
  {
    var stored := Get(store, LanguageKey(userId));
    if stored.Some? && stored.value != "" then stored.value else DefaultLanguage
  }

  /** Deleting a context or storing a model leaves every user's language as it was. */
  lemma UserLanguageKept(store: map<string, string>, u: string, v: string, model: string)
    ensures UserLanguage(store - {ContextKey(v)}, u) == UserLanguage(store, u)
    ensures UserLanguage(store[ModelKey(v) := model], u) == UserLanguage(store, u)
  {
    StoreKeysDistinct(u, v);
  }

  const NoModelError := "No valid model configuration found"
  const NoApiError := "No valid API configuration found for model: "

  /** `getCurrentModel`: the stored model when non-empty, else the first catalogue model;
      an empty catalogue throws. */
  function UserModel(config: Config, store: map<string, string>, userId: string): (r: Result<string, string>)
    ensures ModelKey(userId) in store && store[ModelKey(userId)] != "" ==> r == Success(store[ModelKey(userId)])
    ensures r.Failure? <==> (ModelKey(userId) !in store || store[ModelKey(userId)] == "") && config.googleModels == []
    ensures r.Failure? ==> r.error == NoModelError
  {
    var stored := Get(store, ModelKey(userId));
    if stored.Some? && stored.value != "" then Success(stored.value)
    else if config.googleModels != [] then Success(config.googleModels[0])
    else Failure(NoModelError)
  }

  /** `initializeModelAPI`: the model the client would be built for (the current one when it
      is in the catalogue, else the first catalogue model or the configured default), or the
      error thrown when that model is not in the catalogue, or when there is no current
      model to start from. */
  function ModelCheck(config: Config, store: map<string, string>, userId: string): (r: Result<string, string>)
  {
    match UserModel(config, store, userId)
    case Failure(e) => Failure(e)
    case Success(current) =>
      var models := config.googleModels;
      var modelToUse :=
        if current in models then Some(current)
        else if models != [] && models[0] != "" then Some(models[0])
        else config.defaultModel;
      if config.googleModelKey != "" && modelToUse.Some? && modelToUse.value in models then Success(modelToUse.value)
      else Failure(NoApiError + (if modelToUse.Some? then modelToUse.value else "undefined"))
  }

  /** A turn can only start with a model from the catalogue: the check passes exactly when the
      client is built for a catalogue model, the current model when it is one. */
  lemma ModelCheckInCatalogue(config: Config, store: map<string, string>, userId: string)
    ensures ModelCheck(config, store, userId).Success? ==>
      && ModelCheck(config, store, userId).value in config.googleModels
      && UserModel(config, store, userId).Success?
    ensures ModelCheck(config, store, userId).Success? && UserModel(config, store, userId).value in config.googleModels ==>
      ModelCheck(config, store, userId).value == UserModel(config, store, userId).value
  {
  }

  /** With a key, a catalogue whose first entry is non-empty always lets a turn run, and an empty
      catalogue never does. */
  lemma ModelGate(config: Config, store: map<string, string>, userId: string)
    requires config.googleModelKey != ""
    ensures config.googleModels != [] && config.googleModels[0] != "" ==> ModelCheck(config, store, userId).Success?
    ensures config.googleModels == [] ==> ModelCheck(config, store, userId).Failure?
  {
  }

  /** A user with nothing stored speaks Chinese and uses the first catalogue model. */
  lemma PerUserDefaults(config: Config, store: map<string, string>, userId: string)
    requires LanguageKey(userId) !in store && ModelKey(userId) !in store
    requires config.googleModels != []
    ensures UserLanguage(store, userId) == "zh"
    ensures UserModel(config, store, userId) == Success(config.googleModels[0])
  {
  }

  // ---------------------------------------------------------------------------
  // The system message

  /** The key `loadSystemMessage` reads in the cooldown namespace. */
  const SystemMessageKey := "SYSTEM_INIT_MESSAGE"

  /** `loadSystemMessage`: the stored JSON's `role` and `content` where they are non-empty,
      the configured ones otherwise; a missing or empty value, or one that does not parse,
      gives the configured message. */
  function SystemMessageFrom(config: Config, json: JsonOracle, stored: Option<string>): (r: ChatMessage)
    ensures stored.None? || stored == Some("") || ParseJson(json, stored.value).None? ==>
      r == ChatMessage(if config.systemInitMessageRole != "" then config.systemInitMessageRole else DefaultSystemRole,
                       config.systemInitMessage)
  {
    var fallbackRole := if config.systemInitMessageRole != "" then config.systemInitMessageRole else DefaultSystemRole;
    if stored.None? || stored.value == "" then ChatMessage(fallbackRole, config.systemInitMessage)
    else
      match ParseJson(json, stored.value)
      case None => ChatMessage(fallbackRole, config.systemInitMessage)
      case Some(fields) =>
        ChatMessage(if fields.role != "" then fields.role else fallbackRole,
                    if fields.content != "" then fields.content else config.systemInitMessage)
  }

  /** Whatever is stored, the system message has a role and a content: the configured ones
      default to `system` and the stock message. */
  lemma SystemMessageNonEmpty(env: Environment, json: JsonOracle, stored: Option<string>)
    requires GetConfig(env).Success?
    ensures SystemMessageFrom(GetConfig(env).value, json, stored).role != ""
    ensures SystemMessageFrom(GetConfig(env).value, json, stored).content != ""
  {
  }

  /** `languageNames[language]`; any other code reads as `undefined`. */
  function LanguageName(language: string): string {
    if language == "en" then "English" else if language == "zh" then "Chinese" else "undefined"
  }

  /** The prompt `summarizeHistory` sends. */
  function SummaryPrompt(language: string, cleanContext: string): seq<ChatMessage> {
    [ChatMessage("system", "Summarize the following conversation in " + LanguageName(language) + ":"),
     ChatMessage("user", cleanContext)]
  }

  /** The store after a model switch: the context gone, the model stored. */
  function Switched(store: map<string, string>, userId: string, model: string): map<string, string> {
    (store - {ContextKey(userId)})[ModelKey(userId) := model]
  }

  /** What a model switch puts out: the `new_conversation` notice in the user's language, then
      the confirmation, or the error rebuilding the client threw, in the language of the
      callback. */
  function SwitchEvents(t: Table, config: Config, store: map<string, string>, user: int, chatId: int,
                        model: string, language: string): seq<Event>
    requires Complete(t)
  {
    var userId := IntToString(user);
    HtmlDelivery(user, Translate(t, NewConversation, UserLanguage(store, userId)), None)
      + match ModelCheck(config, Switched(store, userId, model), userId)
        case Success(_) => HtmlDelivery(chatId, Translate(t, ModelChanged, language) + model, None)
        case Failure(e) => HtmlDelivery(chatId, Translate(t, Error, language) + ": " + e, None)
  }

  /** The store after `handleCallbackQuery`: a query without a message or data leaves it as
      it was; otherwise the data decides (`ConfirmedStore`). */
  function CallbackStore(store: map<string, string>, query: CallbackQuery): map<string, string> {
    if query.chatId.None? || query.data == "" then store
    else ConfirmedStore(store, query.senderId, query.data)
  }

  /** The store after a valid callback: `lang_<l>` stores the sender's language, `model_<m>`
      switches the sender's model, other data leaves it as it was. */
  function ConfirmedStore(store: map<string, string>, user: int, data: string): map<string, string> {
    match CallbackArgument(data)
    case None => store
    case Some(argument) =>
      if StartsWith(data, LanguagePrefix) then store[LanguageKey(IntToString(user)) := argument]
      else if StartsWith(data, ModelPrefix) then Switched(store, IntToString(user), argument)
      else store
  }

  /** What `handleCallbackQuery` puts out: nothing without a message or data; otherwise the
      confirmation of the language or of the model switch, then the answer to the query. */
  function CallbackEvents(t: Table, config: Config, store: map<string, string>, query: CallbackQuery): seq<Event>
    requires Complete(t)
  {
    if query.chatId.None? || query.data == "" then []
    else Confirmation(t, config, store, query.senderId, query.chatId.value, query.data) + [Answered(query.queryId)]
  }

  /** The confirmation a valid callback sends before it is answered: the new language's
      phrase for `lang_<l>`, the switch's events for `model_<m>`, nothing for other data. */
  function Confirmation(t: Table, config: Config, store: map<string, string>, user: int, chatId: int, data: string): seq<Event>
    requires Complete(t)
  {
    match CallbackArgument(data)
    case None => []
    case Some(argument) =>
      if StartsWith(data, LanguagePrefix) then
        HtmlDelivery(chatId, Translate(t, LanguageChanged, argument) + TranslateName(t, "language_" + argument, argument), None)
      else if StartsWith(data, ModelPrefix) then
        SwitchEvents(t, config, store, user, chatId, argument, UserLanguage(store, IntToString(user)))
      else []
  }

  /** The cases of a callback query: without a message or data, nothing at all; `lang_<l>`
      stores `l` and confirms it in `l`; `model_<m>` switches the sender to `m` and confirms
      in the sender's language; any other valid query is only answered. */
  lemma CallbackCases(t: Table, config: Config, store: map<string, string>, query: CallbackQuery)
    requires Complete(t)
    ensures query.chatId.None? || query.data == "" ==>
      CallbackEvents(t, config, store, query) == [] && CallbackStore(store, query) == store
    ensures query.chatId.Some? && query.data != "" && StartsWith(query.data, LanguagePrefix) ==>
      && CallbackArgument(query.data).Some?
      && var newLanguage := CallbackArgument(query.data).value;
      && CallbackStore(store, query) == store[LanguageKey(IntToString(query.senderId)) := newLanguage]
      && CallbackEvents(t, config, store, query)
           == HtmlDelivery(query.chatId.value, Translate(t, LanguageChanged, newLanguage)
                                               + TranslateName(t, "language_" + newLanguage, newLanguage), None)
              + [Answered(query.queryId)]
    ensures query.chatId.Some? && query.data != "" && !StartsWith(query.data, LanguagePrefix) && StartsWith(query.data, ModelPrefix) ==>
      && CallbackArgument(query.data).Some?
      && var userId := IntToString(query.senderId);
      && var newModel := CallbackArgument(query.data).value;
      && CallbackStore(store, query) == Switched(store, userId, newModel)
      && CallbackEvents(t, config, store, query)
           == SwitchEvents(t, config, store, query.senderId, query.chatId.value, newModel, UserLanguage(store, userId))
              + [Answered(query.queryId)]
    ensures query.chatId.Some? && query.data != "" && !StartsWith(query.data, LanguagePrefix) && !StartsWith(query.data, ModelPrefix) ==>
      CallbackEvents(t, config, store, query) == [Answered(query.queryId)] && CallbackStore(store, query) == store
  {
    if query.chatId.Some? && query.data != "" {
      if StartsWith(query.data, LanguagePrefix) {
        assert query.data[4] == '_';
      } else if StartsWith(query.data, ModelPrefix) {
        assert query.data[5] == '_';
      }
    }
  }

  /** A switch to a non-empty catalogue model is accepted and rebuilds the client for exactly
      that model; a switch to a model outside the catalogue is accepted too, and the client is
      built for the first catalogue model while the unknown name stays stored. */
  lemma SwitchAccepted(config: Config, store: map<string, string>, userId: string, model: string)
    ensures config.googleModelKey != "" && model != "" && model in config.googleModels ==>
      ModelCheck(config, Switched(store, userId, model), userId) == Success(model)
    ensures config.googleModelKey != "" && model != "" && model !in config.googleModels
            && config.googleModels != [] && config.googleModels[0] != "" ==>
      ModelCheck(config, Switched(store, userId, model), userId) == Success(config.googleModels[0])
  {
    var after := Switched(store, userId, model);
    assert ModelKey(userId) in after && after[ModelKey(userId)] == model;
  }

  /** The events of a reply: the reply text in HTML, in reply to the question. */
  function ReplyEvents(t: Table, chatId: int, messageId: int, model: string, response: string, language: string): seq<Event>
    requires Complete(t)
  {
    HtmlDelivery(chatId, ReplyText(model, response, Translate(t, Disclaimer, language)), Some(messageId))
  }

  // ---------------------------------------------------------------------------
  // The bot

  class TelegramBot {
    const env: Environment
    const config: Config
    const table: Table
    const json: JsonOracle
    const backend: nat -> HttpReply
    /** What `generateResponse` makes of each reply, fixed by the constructor. */
    const outcome: nat -> Result<string, string>
    const append: Appender
    const api: GeminiAPI
    const limiter: RateLimiter
    var systemMessage: ChatMessage
    /** The Redis store: `language:<user>`, `model:<user>` and `context:<user>`. */
    var store: map<string, string>
    /** Requests made to the endpoint so far; the next reply is `backend(calls)`. */
    var calls: nat
    var trace: seq<Event>

    ghost predicate Valid() {
      Complete(table)
    }

    /** The constructor's work: the configuration read once (`getConfig` throws without a
        Google key), the limiter over the cooldown namespace with the configured interval
        (`NaN`, which never limits, when it has no digits), and the system message loaded
        from that namespace. */
    constructor(env: Environment, table: Table, json: JsonOracle, backend: nat -> HttpReply, append: Appender,
                cooldownKv: map<string, string>, store: map<string, string>)
      requires GetConfig(env).Success?
      requires Complete(table)
      ensures Valid() && GetConfig(env) == Success(config)
      ensures forall i :: outcome(i) == api.GenerateResponse(backend(i))
      ensures systemMessage == SystemMessageFrom(config, json, Get(cooldownKv, SystemMessageKey))
      ensures limiter.cooldown == config.groupCooldownInterval && limiter.kv == cooldownKv
      ensures this.store == store && calls == 0 && trace == []
      ensures fresh(limiter) && fresh(api)
    {
      var config := GetConfig(env).value;
      this.env := env;
      this.config := config;
      this.table := table;
      this.json := json;
      this.backend := backend;
      this.append := append;
      var api := new GeminiAPI(env);
      this.api := api;
      outcome := (i: nat) => api.GenerateResponse(backend(i));
      limiter := new RateLimiter(config.groupCooldownInterval, cooldownKv);
      systemMessage := SystemMessageFrom(config, json, Get(cooldownKv, SystemMessageKey));
      this.store := store;
      calls := 0;
      trace := [];
    }

    predicate IsUserWhitelisted(userId: string) {
      userId in config.whitelistedUsers
    }

    /** The three requests the retry loop may make from request `from` on. */
    function Outcomes(from: nat): (r: seq<Result<string, string>>)
      ensures |r| == MaxAttempts && forall i :: 0 <= i < MaxAttempts ==> r[i] == outcome(from + i)
    {
      seq(MaxAttempts, i requires 0 <= i < MaxAttempts => outcome(from + i))
    }

    lemma OutcomesAt(from: nat, i: nat)
      requires i < MaxAttempts
      ensures Outcomes(from)[i] == outcome(from + i)
    {
    }

    /** The generation of a turn from request `from` on: the group path's retry loop, or the
        private path's single call. */
    function Generation(from: nat, withRetry: bool): (r: RetryRun)
      ensures 1 <= r.calls <= MaxAttempts
      ensures !withRetry ==> r == RetryRun(outcome(from), 1, [])
      ensures r.result.Success? ==> r.result == outcome(from + r.calls - 1)
    {
      if withRetry then
        RetrySpec(Outcomes(from));
        Retry(Outcomes(from))
      else RetryRun(outcome(from), 1, [])
    }

    // -------------------------------------------------------------------------
    // Sending

    /** `sendMessage`: the chunks of the text sent one after another. A failed send is
        swallowed, so sending never fails. */
    method SendMessage(chatId: int, text: string, options: SendOptions)
      modifies this
      ensures trace == old(trace) + Delivery(chatId, text, options)
      ensures store == old(store) && calls == old(calls) && systemMessage == old(systemMessage)
    {
      var messages := MessageSplit.SplitMessage(text);
      SendChunks(chatId, messages, options);
    }

    /** The loop of `sendMessage`: one `sendMessageInternal` per chunk, in order. */
    method SendChunks(chatId: int, messages: seq<string>, options: SendOptions)
      modifies this
      ensures trace == old(trace) + Sends(chatId, messages, options)
      ensures store == old(store) && calls == old(calls) && systemMessage == old(systemMessage)
    {
      for i := 0 to |messages|
        invariant trace == old(trace) + Sends(chatId, messages[..i], options)
        invariant store == old(store) && calls == old(calls) && systemMessage == old(systemMessage)
      {
        SendsStep(chatId, messages, i, options);
        trace := trace + [Sent(chatId, messages[i], options)];
      }
      assert messages[..|messages|] == messages;
    }

    /** `sendMessageWithFallback`: the HTML rendering, in HTML parse mode. */
    method SendMessageWithFallback(chatId: int, text: string, replyTo: Option<int>)
      modifies this
      ensures trace == old(trace) + HtmlDelivery(chatId, text, replyTo)
      ensures store == old(store) && calls == old(calls) && systemMessage == old(systemMessage)
    {
      SendMessage(chatId, FormatHtml(text), SendOptions(true, replyTo, None));
    }

    // -------------------------------------------------------------------------
    // The store

    /** `storeContext`: the exchange cleaned by `processContext`, appended to the user's context. */
    method StoreContext(userId: string, context: string)
      modifies this
      ensures store == old(store)[ContextKey(userId) := append(Get(old(store), ContextKey(userId)), ProcessContext(json, context))]
      ensures trace == old(trace) && calls == old(calls) && systemMessage == old(systemMessage)
    {
      var cleanContext := ProcessContext(json, context);
      store := store[ContextKey(userId) := append(Get(store, ContextKey(userId)), cleanContext)];
    }

    /** `clearContext`: the context deleted, then `new_conversation` sent to the chat whose id
        the user id parses to. */
    method ClearContext(user: int)
      requires Valid()
      modifies this
      ensures store == old(store) - {ContextKey(IntToString(user))}
      ensures trace == old(trace) + HtmlDelivery(user, Translate(table, NewConversation, UserLanguage(old(store), IntToString(user))), None)
      ensures calls == old(calls) && systemMessage == old(systemMessage)
    {
      var userId := IntToString(user);
      store := store - {ContextKey(userId)};
      UserLanguageKept(old(store), userId, userId, "");
      var language := UserLanguage(store, userId);
      SendMessageWithFallback(user, Translate(table, NewConversation, language), None);
    }

    /** `setCurrentModel`: the model stored for the user, then the client rebuilt for it,
        which throws when no catalogue model can be used. */
    method SetCurrentModel(userId: string, model: string) returns (r: Result<string, string>)
      modifies this
      ensures store == old(store)[ModelKey(userId) := model]
      ensures r == ModelCheck(config, store, userId)
      ensures trace == old(trace) && calls == old(calls) && systemMessage == old(systemMessage)
    {
      store := store[ModelKey(userId) := model];
      r := ModelCheck(config, store, userId);
    }

    // -------------------------------------------------------------------------
    // Generation

    /** One `generateResponse` call: the request goes out and the next reply decides it. */
    method Generate(model: string, messages: seq<ChatMessage>) returns (r: Result<string, string>)
      modifies this
      ensures r == outcome(old(calls)) && calls == old(calls) + 1
      ensures trace == old(trace) + [Requested(api.Request(messages, model))]
      ensures store == old(store) && systemMessage == old(systemMessage)
    {
      trace := trace + [Requested(api.Request(messages, model))];
      r := outcome(calls);
      calls := calls + 1;
    }

    /** The group path's retry loop: up to three calls, sleeping 1, 2 and 4 seconds after
        successive overloads; any other error is passed on at once. `Success("")` is the
        empty response the loop starts from, left when every attempt was overloaded. */
    method RetryAttempts(model: string, messages: seq<ChatMessage>) returns (r: Result<string, string>)
      modifies this
      ensures var run := RetryLoop(Outcomes(old(calls)), MaxAttempts, FirstDelay, 0);
        && r == run.result && calls == old(calls) + run.calls
        && trace == old(trace) + Attempts(api.Request(messages, model), run.delays, run.calls)
      ensures store == old(store) && systemMessage == old(systemMessage)
    {
      ghost var start := calls;
      ghost var outcomes := Outcomes(start);
      ghost var request := api.Request(messages, model);
      ghost var slept: seq<nat> := [];
      ghost var done: nat := 0;
      var retries: nat := MaxAttempts;
      var retryDelay: nat := FirstDelay;
      ghost var full := RetryLoop(outcomes, retries, retryDelay, done);
      while retries > 0
        invariant done + retries == MaxAttempts && calls == start + done && |slept| == done
        invariant full == After(slept, RetryLoop(outcomes, retries, retryDelay, done))
        invariant trace == old(trace) + Attempts(request, slept, done)
        invariant store == old(store) && systemMessage == old(systemMessage)
        decreases retries
      {
        OutcomesAt(start, done);
        var outcome := Generate(model, messages);
        assert outcome == outcomes[done];
        AttemptStep(old(trace), request, slept);
        if outcome.Success? {
          RetryStops(outcomes, retries, retryDelay, done);
          AfterStop(slept, outcome, done + 1);
          return outcome;
        }
        if Contains(outcome.error, OverloadedMarker) {
          SleepStep(old(trace), request, slept, retryDelay);
          RetryContinues(outcomes, retries, retryDelay, done, slept);
          trace := trace + [Slept(retryDelay)];
          slept := slept + [retryDelay];
          done := done + 1;
          retries := retries - 1;
          retryDelay := retryDelay * 2;
        } else {
          RetryStops(outcomes, retries, retryDelay, done);
          AfterStop(slept, outcome, done + 1);
          return Failure(outcome.error);
        }
      }
      AfterStop(slept, Success(""), done);
      return Success("");
    }

    /** The group path's generation: the retry loop, with an empty response (or none at all)
        reported as the retry failure. */
    method GenerateWithRetry(model: string, messages: seq<ChatMessage>) returns (r: Result<string, string>)
      modifies this
      ensures var run := Retry(Outcomes(old(calls)));
        && r == run.result && calls == old(calls) + run.calls
        && trace == old(trace) + Attempts(api.Request(messages, model), run.delays, run.calls)
      ensures store == old(store) && systemMessage == old(systemMessage)
    {
      r := RetryAttempts(model, messages);
      if r == Success("") {
        r := Failure(RetryFailure);
      }
    }

    /** What a turn with a usable model leaves behind, between the state before it and the
        state after: the generation's calls and attempts, then, when the generation succeeds,
        the formatted reply with its disclaimer and the exchange appended to the context. */
    twostate predicate TurnTaken(userId: string, chatId: int, messageId: int, question: string, language: string, withRetry: bool)
      requires Valid() && ModelCheck(config, old(store), userId).Success?
      reads this
    {
      var model := UserModel(config, old(store), userId).value;
      var request := api.Request(Prompt(old(systemMessage), PromptContext(json, Get(old(store), ContextKey(userId))), question), model);
      var run := Generation(old(calls), withRetry);
      && calls == old(calls) + run.calls
      && (run.result.Failure? ==> trace == old(trace) + Attempts(request, run.delays, run.calls) && store == old(store))
      && (run.result.Success? ==>
            && trace == old(trace) + Attempts(request, run.delays, run.calls) + ReplyEvents(table, chatId, messageId, model, run.result.value, language)
            && store == old(store)[ContextKey(userId) := append(Get(old(store), ContextKey(userId)),
                                                                ProcessContext(json, Exchange(question, run.result.value)))])
    }

    /** A group turn, between the state before it and the state after: nothing happens without
        a usable model, and otherwise the turn with the retry loop is taken. */
    twostate predicate GroupTurn(userId: string, chatId: int, messageId: int, question: string, language: string)
      requires Valid()
      reads this
    {
      && (ModelCheck(config, old(store), userId).Failure? ==> trace == old(trace) && store == old(store) && calls == old(calls))
      && (ModelCheck(config, old(store), userId).Success? ==> TurnTaken(userId, chatId, messageId, question, language, true))
    }

    /** A turn, from `getCurrentModel` to `storeContext`, as both paths run it: the prompt is
        the system message, the stored context when there is one, then the question. A thrown
        error (no usable model, a failed generation) ends the turn silently, before anything
        is sent or stored. */
    method Converse(userId: string, chatId: int, messageId: int, question: string, language: string, withRetry: bool)
      requires Valid()
      modifies this
      ensures ModelCheck(config, old(store), userId).Failure? ==> trace == old(trace) && store == old(store) && calls == old(calls)
      ensures ModelCheck(config, old(store), userId).Success? ==> TurnTaken(userId, chatId, messageId, question, language, withRetry)
      ensures systemMessage == old(systemMessage)
    {
      var current := UserModel(config, store, userId);
      if current.Failure? {
        return;
      }
      var check := ModelCheck(config, store, userId);
      if check.Failure? {
        return;
      }
      var model := current.value;
      var messages := Prompt(systemMessage, PromptContext(json, Get(store, ContextKey(userId))), question);
      var response := Answer(model, messages, withRetry);
      if response.Failure? {
        return;
      }
      var disclaimer := Translate(table, Disclaimer, language);
      SendMessageWithFallback(chatId, ReplyText(model, response.value, disclaimer), Some(messageId));
      StoreContext(userId, Exchange(question, response.value));
    }

    /** The generation step of a turn: the retry loop on the group path, one call otherwise. */
    method Answer(model: string, messages: seq<ChatMessage>, withRetry: bool) returns (r: Result<string, string>)
      modifies this
      ensures var run := Generation(old(calls), withRetry);
        && r == run.result && calls == old(calls) + run.calls
        && trace == old(trace) + Attempts(api.Request(messages, model), run.delays, run.calls)
      ensures store == old(store) && systemMessage == old(systemMessage)
    {
      if withRetry {
        r := GenerateWithRetry(model, messages);
      } else {
        r := Generate(model, messages);
        AttemptsLast(api.Request(messages, model), []);
      }
    }

    /** `summarizeHistory`: without stored context, the `no_history` phrase and no request;
        otherwise one request asking for a summary of the cleaned context in the user's
        language, prefixed with `history_summary`. */
    method SummarizeHistory(userId: string) returns (r: Result<string, string>)
      requires Valid()
      modifies this
      ensures store == old(store) && systemMessage == old(systemMessage)
      ensures ModelCheck(config, store, userId).Failure? ==>
        r == Failure(ModelCheck(config, store, userId).error) && calls == old(calls) && trace == old(trace)
      ensures ModelCheck(config, store, userId).Success? && (ContextKey(userId) !in store || store[ContextKey(userId)] == "") ==>
        r == Success(Translate(table, NoHistory, UserLanguage(store, userId))) && calls == old(calls) && trace == old(trace)
      ensures ModelCheck(config, store, userId).Success? && ContextKey(userId) in store && store[ContextKey(userId)] != "" ==>
        var summary := outcome(old(calls));
        && calls == old(calls) + 1
        && trace == old(trace) + [Requested(api.Request(SummaryPrompt(UserLanguage(store, userId), ProcessContext(json, store[ContextKey(userId)])),
                                                         UserModel(config, store, userId).value))]
        && (summary.Failure? ==> r == summary)
        && (summary.Success? ==> r == Success(Translate(table, HistorySummary, UserLanguage(store, userId)) + "\n\n" + summary.value))
    {
      var check := ModelCheck(config, store, userId);
      if check.Failure? {
        return Failure(check.error);
      }
      var context := Get(store, ContextKey(userId));
      var language := UserLanguage(store, userId);
      if context.None? || context.value == "" {
        return Success(Translate(table, NoHistory, language));
      }
      var currentModel := UserModel(config, store, userId).value;
      var cleanContext := ProcessContext(json, context.value);
      var summary := Generate(currentModel, SummaryPrompt(language, cleanContext));
      if summary.Failure? {
        return summary;
      }
      return Success(Translate(table, HistorySummary, language) + "\n\n" + summary.value);
    }

    // -------------------------------------------------------------------------
    // Commands

    /** Whether command `name` run for `chatId` throws, with the store `s` and the next
        request numbered `from`: `start` when no model can be found, `history` when the
        model check fails or, with a stored context, when the summary request fails. */
    function CommandRejects(s: map<string, string>, from: nat, name: string, chatId: int): bool
      reads this
    {
      var userId := IntToString(chatId);
      if name == "start" then UserModel(config, s, userId).Failure?
      else if name == "history" then
        || ModelCheck(config, s, userId).Failure?
        || (ContextKey(userId) in s && s[ContextKey(userId)] != "" && outcome(from).Failure?)
      else false
    }

    /** `executeCommand`: the command of that name run for the chat, whose id also serves as
        the user id, or `command_not_found` when there is none. A command that throws (`start`
        or `history` without a usable model, or `history` whose summary request fails) sends
        nothing more, and `rejected` reports that the returned promise rejects. */
    method ExecuteCommand(name: string, chatId: int, args: seq<string>) returns (rejected: bool)
      requires Valid()
      modifies this
      ensures rejected == CommandRejects(old(store), old(calls), name, chatId)
      ensures systemMessage == old(systemMessage)
      ensures FindCommand(name).None? ==>
        && trace == old(trace) + Delivery(chatId, Translate(table, CommandNotFound, UserLanguage(old(store), IntToString(chatId))), NoOptions)
        && store == old(store) && calls == old(calls)
      ensures name == "start" ==>
        && store == old(store) && calls == old(calls)
        && (UserModel(config, old(store), IntToString(chatId)).Failure? ==> trace == old(trace))
        && (UserModel(config, old(store), IntToString(chatId)).Success? ==>
              trace == old(trace) + HtmlDelivery(chatId, WelcomeText(table, UserLanguage(old(store), IntToString(chatId)),
                                                                    UserModel(config, old(store), IntToString(chatId)).value), None))
      ensures name == "language" ==>
        && store == old(store) && calls == old(calls)
        && trace == old(trace) + Delivery(chatId, Translate(table, ChooseLanguage, UserLanguage(old(store), IntToString(chatId))),
                                          SendOptions(false, None, Some(LanguageKeyboard)))
      ensures name == "switchmodel" ==>
        && store == old(store) && calls == old(calls)
        && trace == old(trace) + Delivery(chatId, Translate(table, ChooseModel, UserLanguage(old(store), IntToString(chatId))),
                                          SendOptions(false, None, Some(ModelKeyboard(config.googleModels))))
      ensures name == "new" ==>
        && store == old(store) - {ContextKey(IntToString(chatId))} && calls == old(calls)
        && trace == old(trace) + HtmlDelivery(chatId, Translate(table, NewConversation, UserLanguage(old(store), IntToString(chatId))), None)
      ensures name == "history" ==> store == old(store)
      ensures old(calls) <= calls <= old(calls) + 1
      ensures name == "help" ==>
        && store == old(store) && calls == old(calls)
        && trace == old(trace) + Delivery(chatId, HelpText(table, UserLanguage(old(store), IntToString(chatId))), NoOptions)
    {
      rejected := false;
      var command := FindCommand(name);
      var userId := IntToString(chatId);
      var language := UserLanguage(store, userId);
      if command.None? {
        FindCommandExactly(name);
        TableShape();
        SendMessage(chatId, Translate(table, CommandNotFound, language), NoOptions);
        return;
      }
      match command.value.name
      case "start" =>
        rejected := Start(chatId);
      case "language" =>
        SendMessage(chatId, Translate(table, ChooseLanguage, language), SendOptions(false, None, Some(LanguageKeyboard)));
      case "switchmodel" =>
        var availableModels := config.googleModels;
        SendMessage(chatId, Translate(table, ChooseModel, language), SendOptions(false, None, Some(ModelKeyboard(availableModels))));
      case "new" =>
        ClearContext(chatId);
      case "history" =>
        rejected := History(chatId);
      case _ =>
        var helpMessage := HelpMessage(table, language, CommandTable);
        SendMessage(chatId, helpMessage, NoOptions);
    }

    /** The `start` command: the welcome naming the user's current model, or a rejection,
        with nothing sent, when no model can be found. */
    method Start(chatId: int) returns (rejected: bool)
      requires Valid()
      modifies this
      ensures store == old(store) && calls == old(calls) && systemMessage == old(systemMessage)
      ensures rejected == CommandRejects(old(store), old(calls), "start", chatId)
      ensures UserModel(config, old(store), IntToString(chatId)).Failure? ==> trace == old(trace)
      ensures UserModel(config, old(store), IntToString(chatId)).Success? ==>
        trace == old(trace) + HtmlDelivery(chatId, WelcomeText(table, UserLanguage(old(store), IntToString(chatId)),
                                                               UserModel(config, old(store), IntToString(chatId)).value), None)
    {
      var userId := IntToString(chatId);
      var currentModel := UserModel(config, store, userId);
      if currentModel.Failure? {
        return true;
      }
      rejected := false;
      SendMessageWithFallback(chatId, WelcomeText(table, UserLanguage(store, userId), currentModel.value), None);
    }

    /** The `history` command: the summary, or the `no_history` phrase, sent to the chat; a
        rejection, with nothing sent, when the model check or the summary request fails. */
    method History(chatId: int) returns (rejected: bool)
      requires Valid()
      modifies this
      ensures store == old(store) && systemMessage == old(systemMessage)
      ensures old(calls) <= calls <= old(calls) + 1
      ensures rejected == CommandRejects(old(store), old(calls), "history", chatId)
    {
      var userId := IntToString(chatId);
      var language := UserLanguage(store, userId);
      var summary := SummarizeHistory(userId);
      if summary.Failure? {
        return true;
      }
      rejected := false;
      SendMessage(chatId, if summary.value != "" then summary.value else Translate(table, NoHistory, language), NoOptions);
    }

    // -------------------------------------------------------------------------
    // Callback queries

    /** `handleCallbackQuery`: without a message or data, nothing at all; `lang_<l>` stores
        the language and confirms it in that language; `model_<m>` clears the context, stores
        the model and confirms the switch, or reports why the model cannot be used; then the
        query is answered. */
    method HandleCallbackQuery(query: CallbackQuery)
      requires Valid()
      modifies this
      ensures calls == old(calls) && systemMessage == old(systemMessage)
      ensures store == CallbackStore(old(store), query)
      ensures trace == old(trace) + CallbackEvents(table, config, old(store), query)
    {
      if query.chatId.None? || query.data == "" {
        return;
      }
      Confirm(query.senderId, query.chatId.value, query.data);
      assert store == CallbackStore(old(store), query);
      AppendAssoc(old(trace), Confirmation(table, config, old(store), query.senderId, query.chatId.value, query.data),
                  [Answered(query.queryId)]);
      trace := trace + [Answered(query.queryId)];
    }

    /** The branches of a valid callback: `lang_<l>` stores the language and confirms it in
        that language; `model_<m>` switches the model; other data does nothing. */
    method Confirm(user: int, chatId: int, data: string)
      requires Valid() && data != ""
      modifies this
      ensures calls == old(calls) && systemMessage == old(systemMessage)
      ensures store == ConfirmedStore(old(store), user, data)
      ensures trace == old(trace) + Confirmation(table, config, old(store), user, chatId, data)
    {
      var userId := IntToString(user);
      var language := UserLanguage(store, userId);
      if StartsWith(data, LanguagePrefix) {
        assert data[4] == '_';
        var newLanguage := CallbackArgument(data).value;
        store := store[LanguageKey(userId) := newLanguage];
        SendMessageWithFallback(chatId, Translate(table, LanguageChanged, newLanguage)
                                        + TranslateName(table, "language_" + newLanguage, newLanguage), None);
      } else if StartsWith(data, ModelPrefix) {
        assert data[5] == '_';
        var newModel := CallbackArgument(data).value;
        SwitchModel(user, chatId, newModel, language);
      }
    }

    /** The `model_` branch of a callback: the sender's context cleared (with its notice), the
        model stored, then the confirmation, or the error that rebuilding the client threw. */
    method SwitchModel(user: int, chatId: int, newModel: string, language: string)
      requires Valid()
      modifies this
      ensures store == Switched(old(store), IntToString(user), newModel)
      ensures trace == old(trace) + SwitchEvents(table, config, old(store), user, chatId, newModel, language)
      ensures calls == old(calls) && systemMessage == old(systemMessage)
    {
      var userId := IntToString(user);
      ghost var notice := HtmlDelivery(user, Translate(table, NewConversation, UserLanguage(store, userId)), None);
      ClearContext(user);
      var switched := SetCurrentModel(userId, newModel);
      assert store == Switched(old(store), userId, newModel);
      ghost var reply;
      if switched.Success? {
        reply := HtmlDelivery(chatId, Translate(table, ModelChanged, language) + newModel, None);
        SendMessageWithFallback(chatId, Translate(table, ModelChanged, language) + newModel, None);
      } else {
        reply := HtmlDelivery(chatId, Translate(table, Error, language) + ": " + switched.error, None);
        SendMessageWithFallback(chatId, Translate(table, Error, language) + ": " + switched.error, None);
      }
      assert SwitchEvents(table, config, old(store), user, chatId, newModel, language) == notice + reply;
      AppendAssoc(old(trace), notice, reply);
    }

    // -------------------------------------------------------------------------
    // Messages

    /** `handleGroupMessage`: messages that do not mention the bot are ignored; commands run
        for whitelisted senders only; a sender outside the whitelist in a cooling chat gets
        the notice and nothing else; otherwise the chat is stamped (outside the whitelist)
        before the turn runs with the retry loop. Only a command can make it reject: the
        turn's errors are caught. */
    method HandleGroupMessage(message: Message, userId: string, now: int) returns (rejected: bool)
      requires Valid()
      modifies this, limiter
      ensures systemMessage == old(systemMessage)
      ensures old(calls) <= calls <= old(calls) + MaxAttempts
      ensures var admission := GroupAdmission(message.text, config.botName, IsUserWhitelisted(userId),
                                              Limited(old(limiter.kv), limiter.cooldown, message.chat.id, now));
        && (admission.Ignore? ==> trace == old(trace) && store == old(store) && calls == old(calls) && limiter.kv == old(limiter.kv))
        && (admission.Cooldown? ==>
              && trace == old(trace) + HtmlDelivery(message.chat.id,
                   CooldownNotice(table, UserLanguage(old(store), userId), Remaining(old(limiter.kv), limiter.cooldown, message.chat.id, now)),
                   Some(message.messageId))
              && store == old(store) && calls == old(calls) && limiter.kv == old(limiter.kv))
        && (admission.Ask? ==>
              && limiter.kv == (if admission.stamp then old(limiter.kv)[Key(message.chat.id) := IntToString(now)] else old(limiter.kv))
              && GroupTurn(userId, message.chat.id, message.messageId, admission.question, UserLanguage(old(store), userId)))
        && (admission.RunCommand? ==> limiter.kv == old(limiter.kv))
        && rejected == (admission.RunCommand? && CommandRejects(old(store), old(calls), admission.name, message.chat.id))
    {
      rejected := false;
      var chatId := message.chat.id;
      var language := UserLanguage(store, userId);
      var limited := limiter.IsRateLimited(chatId, now);
      assert limited == Limited(old(limiter.kv), limiter.cooldown, chatId, now);
      var admission := GroupAdmission(message.text, config.botName, IsUserWhitelisted(userId), limited);
      match admission
      case Ignore =>
      case RunCommand(name, args) =>
        rejected := ExecuteCommand(name, chatId, args);
      case Cooldown =>
        NoticeCooldown(chatId, message.messageId, language, now);
      case Ask(question, stamp) =>
        AnswerInGroup(userId, chatId, message.messageId, question, language, stamp, now);
    }

    /** A cooling chat's notice: the seconds remaining, in reply to the message. */
    method NoticeCooldown(chatId: int, messageId: int, language: string, now: int)
      requires Valid()
      modifies this
      ensures trace == old(trace) + HtmlDelivery(chatId,
        CooldownNotice(table, language, Remaining(limiter.kv, limiter.cooldown, chatId, now)), Some(messageId))
      ensures store == old(store) && calls == old(calls) && systemMessage == old(systemMessage)
    {
      var remainingTime := limiter.GetRemainingTime(chatId, now);
      SendMessageWithFallback(chatId, CooldownNotice(table, language, remainingTime), Some(messageId));
    }

    /** An admitted group question: the chat stamped first when the sender is outside the
        whitelist, then the turn with the retry loop. The stamp stays even when the turn
        fails. */
    method AnswerInGroup(userId: string, chatId: int, messageId: int, question: string, language: string, stamp: bool, now: int)
      requires Valid()
      modifies this, limiter
      ensures limiter.kv == (if stamp then old(limiter.kv)[Key(chatId) := IntToString(now)] else old(limiter.kv))
      ensures stamp ==> limiter.LastRequestTime(chatId) == Some(now)
      ensures old(calls) < calls <= old(calls) + MaxAttempts || ModelCheck(config, old(store), userId).Failure?
      ensures GroupTurn(userId, chatId, messageId, question, language)
      ensures systemMessage == old(systemMessage)
    {
      if stamp {
        limiter.SetLastRequestTime(chatId, now);
      }
      Converse(userId, chatId, messageId, question, language, true);
    }

    /** `handleUpdate`: a callback query first; a message without a sender does nothing;
        group chats go to the group handler; in private chats a whitelisted sender's media get
        `unsupported_message`, a `/` text runs the command and any other text a single-call
        turn, while anyone else gets `unauthorized`. Only the group handler touches the
        cooldown namespace. `rejected` reports that the returned promise rejects, which only
        a command that throws causes. */
    method HandleUpdate(update: Update, now: int) returns (rejected: bool)
      requires Valid()
      modifies this, limiter
      ensures systemMessage == old(systemMessage)
      ensures var r := Route(update, config.whitelistedUsers);
        && (!r.ToGroup? ==> limiter.kv == old(limiter.kv))
        && (r.NoSender? || r.Nothing? ==> trace == old(trace) && store == old(store) && calls == old(calls))
        && (r.Denied? ==>
              && trace == old(trace) + HtmlDelivery(r.message.chat.id, Translate(table, Unauthorized, UserLanguage(old(store), r.userId)), Some(r.message.messageId))
              && store == old(store) && calls == old(calls))
        && (r.Unsupported? ==>
              && trace == old(trace) + HtmlDelivery(r.message.chat.id, Translate(table, UnsupportedMessage, UserLanguage(old(store), r.userId)), Some(r.message.messageId))
              && store == old(store) && calls == old(calls))
        && (r.ToChat? ==> calls == old(calls) + (if ModelCheck(config, old(store), r.userId).Success? then 1 else 0))
        && (r.ToCallback? ==>
              && trace == old(trace) + CallbackEvents(table, config, old(store), r.query)
              && store == CallbackStore(old(store), r.query) && calls == old(calls))
        && (r.ToGroup? ==>
              && old(calls) <= calls <= old(calls) + MaxAttempts
              && var admission := GroupAdmission(r.message.text, config.botName, IsUserWhitelisted(r.userId),
                                                 Limited(old(limiter.kv), limiter.cooldown, r.message.chat.id, now));
                 limiter.kv == (if admission.Ask? && admission.stamp
                                then old(limiter.kv)[Key(r.message.chat.id) := IntToString(now)] else old(limiter.kv)))
        && (r.ToCommand? ==> old(calls) <= calls <= old(calls) + 1)
      ensures var r := Route(update, config.whitelistedUsers);
        && (r.ToCommand? ==> rejected == CommandRejects(old(store), old(calls), r.name, r.message.chat.id))
        && (r.ToGroup? ==>
              var admission := GroupAdmission(r.message.text, config.botName, IsUserWhitelisted(r.userId),
                                              Limited(old(limiter.kv), limiter.cooldown, r.message.chat.id, now));
              rejected == (admission.RunCommand? && CommandRejects(old(store), old(calls), admission.name, r.message.chat.id)))
        && (!r.ToCommand? && !r.ToGroup? ==> !rejected)
    {
      rejected := false;
      match Route(update, config.whitelistedUsers)
      case ToCallback(query) =>
        HandleCallbackQuery(query);
      case NoSender =>
      case Nothing =>
      case ToGroup(message, userId) =>
        rejected := HandleGroupMessage(message, userId, now);
      case Unsupported(_, _) =>
        rejected := HandlePrivateMessage(Route(update, config.whitelistedUsers));
      case ToCommand(_, _, _, _) =>
        rejected := HandlePrivateMessage(Route(update, config.whitelistedUsers));
      case ToChat(_, _) =>
        rejected := HandlePrivateMessage(Route(update, config.whitelistedUsers));
      case Denied(_, _) =>
        rejected := HandlePrivateMessage(Route(update, config.whitelistedUsers));
    }

    /** The private-chat branches of `handleUpdate`: `unsupported_message` for a whitelisted
        sender's media, the command for a `/` text, a single-call turn for any other text,
        `unauthorized` for anyone else. */
    method HandlePrivateMessage(d: Destination) returns (rejected: bool)
      requires Valid()
      requires d.Unsupported? || d.ToCommand? || d.ToChat? || d.Denied?
      modifies this
      ensures systemMessage == old(systemMessage)
      ensures d.Denied? ==>
        && trace == old(trace) + HtmlDelivery(d.message.chat.id, Translate(table, Unauthorized, UserLanguage(old(store), d.userId)), Some(d.message.messageId))
        && store == old(store) && calls == old(calls)
      ensures d.Unsupported? ==>
        && trace == old(trace) + HtmlDelivery(d.message.chat.id, Translate(table, UnsupportedMessage, UserLanguage(old(store), d.userId)), Some(d.message.messageId))
        && store == old(store) && calls == old(calls)
      ensures d.ToChat? ==> calls == old(calls) + (if ModelCheck(config, old(store), d.userId).Success? then 1 else 0)
      ensures d.ToCommand? ==> old(calls) <= calls <= old(calls) + 1
      ensures rejected == (d.ToCommand? && CommandRejects(old(store), old(calls), d.name, d.message.chat.id))
    {
      rejected := false;
      match d
      case Unsupported(message, userId) =>
        SendMessageWithFallback(message.chat.id, Translate(table, UnsupportedMessage, UserLanguage(store, userId)), Some(message.messageId));
      case ToCommand(message, userId, name, args) =>
        rejected := ExecuteCommand(name, message.chat.id, args);
      case ToChat(message, userId) =>
        Converse(userId, message.chat.id, message.messageId, message.text, UserLanguage(store, userId), false);
      case Denied(message, userId) =>
        SendMessageWithFallback(message.chat.id, Translate(table, Unauthorized, UserLanguage(store, userId)), Some(message.messageId));
    }
  }
}

=== FILE: text.dfy ===
/** The JavaScript string operations the bot relies on (`trim`, `startsWith`, `includes`,
    `indexOf`, `split` on one character, `replace` of a literal), written out over `seq<char>`.
    Character classes follow ECMAScript: `\s` and `trim` use WhiteSpace + LineTerminator,
    `.` matches anything but a LineTerminator, `\w` is `[A-Za-z0-9_]`. */
module Text {
  import opened Wrappers

  predicate IsLineTerminator(c: char) {
    c == '\n' || c == '\r' || c == '\U{2028}' || c == '\U{2029}'
  }

  /** The characters matched by `\s` and removed by `String.prototype.trim`. */
  predicate IsWhiteSpace(c: char) {
    || c == ' ' || c == '\t' || c == '\U{000B}' || c == '\U{000C}'
    || c == '\U{00A0}' || c == '\U{FEFF}' || c == '\U{1680}'
    || ('\U{2000}' <= c <= '\U{200A}') || c == '\U{202F}' || c == '\U{205F}' || c == '\U{3000}'
    || IsLineTerminator(c)
  }

  predicate IsWordChar(c: char) {
    ('a' <= c <= 'z') || ('A' <= c <= 'Z') || ('0' <= c <= '9') || c == '_'
  }

  predicate IsDigit(c: char) {
    '0' <= c <= '9'
  }

  /** `s` has `p` starting at index `i`. */
  predicate At(s: string, i: nat, p: string) {
    i + |p| <= |s| && s[i..i + |p|] == p
  }

  predicate StartsWith(s: string, p: string) {
    At(s, 0, p)
  }

  predicate EndsWith(s: string, p: string) {
    |p| <= |s| && s[|s| - |p|..] == p
  }

  /** `s.indexOf(p, from)`, as an option. */
  function FindFrom(s: string, p: string, from: nat): (r: Option<nat>)
    ensures r.Some? ==> from <= r.value && At(s, r.value, p)
    ensures r.Some? ==> forall k :: from <= k < r.value ==> !At(s, k, p)
    ensures r.None? ==> forall k :: from <= k ==> !At(s, k, p)
    decreases |s| - from
  {
    if from + |p| > |s| then None
    else if At(s, from, p) then Some(from)
    else FindFrom(s, p, from + 1)
  }

  /** The first occurrence at or after `from` is where nothing occurs before it. */
  lemma FindFromFirst(s: string, p: string, from: nat, j: nat)
    requires from <= j && At(s, j, p)
    requires forall k :: from <= k < j ==> !At(s, k, p)
    ensures FindFrom(s, p, from) == Some(j)
  {
  }

  /** `p` occurs nowhere in `s`. */
  ghost predicate Nowhere(s: string, p: string) {
    forall k :: 0 <= k ==> !At(s, k, p)
  }

  /** `s.includes(p)`. */
  predicate Contains(s: string, p: string) {
    FindFrom(s, p, 0).Some?
  }

  /** A text that does not contain `p` has no suffix that contains it. */
  lemma NotContainsSuffix(s: string, p: string, i: nat)
    requires !Contains(s, p) && i <= |s|
    ensures !Contains(s[i..], p)
  {
    forall k: nat | At(s[i..], k, p) ensures At(s, i + k, p) {
      assert s[i..][k..k + |p|] == s[i + k..i + k + |p|];
    }
  }

  /** Leading white space removed: the longest suffix of `s` whose first character is not white space. */
  function TrimStart(s: string): (r: string)
    ensures |r| <= |s| && r == s[|s| - |r|..]
    ensures r == [] || !IsWhiteSpace(r[0])
    ensures forall i :: 0 <= i < |s| - |r| ==> IsWhiteSpace(s[i])
  {
    if s != [] && IsWhiteSpace(s[0]) then
      var t := TrimStart(s[1..]);
      assert s[1..][|s| - 1 - |t|..] == s[|s| - |t|..];
      assert forall i :: 1 <= i < |s| - |t| ==> s[i] == s[1..][i - 1];
      t
    else s
  }

  /** Trailing white space removed: the longest prefix of `s` whose last character is not white space. */
  function TrimEnd(s: string): (r: string)
    ensures |r| <= |s| && r == s[..|r|]
    ensures r == [] || !IsWhiteSpace(r[|r| - 1])
    ensures forall i :: |r| <= i < |s| ==> IsWhiteSpace(s[i])
  {
    if s != [] && IsWhiteSpace(s[|s| - 1]) then
      var t := TrimEnd(s[..|s| - 1]);
      assert s[..|s| - 1][..|t|] == s[..|t|];
      assert forall i :: |t| <= i < |s| - 1 ==> s[i] == s[..|s| - 1][i];
      t
    else s
  }

  /** `s.trim()`. */
  function Trim(s: string): (r: string)
    ensures |r| <= |s|
    ensures r == [] || (!IsWhiteSpace(r[0]) && !IsWhiteSpace(r[|r| - 1]))
  {
    TrimEnd(TrimStart(s))
  }

  /** The index of the last `c` in `s`. */
  function LastIndexOf(s: string, c: char): (r: Option<nat>)
    ensures r.Some? ==> r.value < |s| && s[r.value] == c && c !in s[r.value + 1..]
    ensures r.None? ==> c !in s
  {
    if s == [] then None
    else if s[|s| - 1] == c then Some(|s| - 1)
    else
      var r := LastIndexOf(s[..|s| - 1], c);
      assert s == s[..|s| - 1] + [s[|s| - 1]];
      r
  }

  /** `s.split(sep)` for a one-character separator: every piece, empty ones included. */
  function SplitOn(s: string, sep: char): (r: seq<string>)
    ensures |r| >= 1
    ensures forall i :: 0 <= i < |r| ==> sep !in r[i]
    decreases |s|
  {
    match LastIndexOf(s, sep)
    case None => [s]
    case Some(i) => SplitOn(s[..i], sep) + [s[i + 1..]]
  }

  /** `xs.join(sep)`. */
  function Join(xs: seq<string>, sep: char): string
    decreases |xs|
  {
    if xs == [] then ""
    else if |xs| == 1 then xs[0]
    else Join(xs[..|xs| - 1], sep) + [sep] + xs[|xs| - 1]
  }

  /** Splitting and joining again on the same separator gives back the text. */
  lemma {:induction false} JoinSplitOn(s: string, sep: char)
    ensures Join(SplitOn(s, sep), sep) == s
    decreases |s|
  {
    match LastIndexOf(s, sep)
    case None =>
    case Some(i) =>
      var front := SplitOn(s[..i], sep);
      JoinSplitOn(s[..i], sep);
      var all := front + [s[i + 1..]];
      assert all[..|all| - 1] == front;
      assert s == s[..i] + [sep] + s[i + 1..];
  }

  /** Joining a list with a head: the head, then the separator and the rest when there is one. */
  lemma {:induction false} JoinCons(a: string, rest: seq<string>, sep: char)
    ensures Join([a] + rest, sep) == if rest == [] then a else a + [sep] + Join(rest, sep)
    decreases |rest|
  {
    if |rest| > 1 {
      var xs := [a] + rest;
      assert xs[..|xs| - 1] == [a] + rest[..|rest| - 1];
      JoinCons(a, rest[..|rest| - 1], sep);
    }
  }

  /** The last occurrence is the one with no occurrence after it. */
  lemma LastIndexOfAt(s: string, c: char, i: nat)
    requires i < |s| && s[i] == c && c !in s[i + 1..]
    ensures LastIndexOf(s, c) == Some(i)
  {
  }

  /** Splitting a text whose first separator follows `a`: `a`, then the pieces of the rest. */
  lemma {:induction false} SplitOnCons(a: string, sep: char, b: string)
    requires sep !in a
    ensures SplitOn(a + [sep] + b, sep) == [a] + SplitOn(b, sep)
    decreases |b|
  {
    var s := a + [sep] + b;
    var last := LastIndexOf(b, sep);
    if last.None? {
      SplitOnLastSep(a, sep, b);
    } else {
      var k := last.value;
      var j := |a| + 1 + k;
      assert s[j + 1..] == b[k + 1..];
      LastIndexOfAt(s, sep, j);
      assert s[..j] == a + [sep] + b[..k];
      SplitOnCons(a, sep, b[..k]);
      calc {
        SplitOn(s, sep);
        SplitOn(s[..j], sep) + [s[j + 1..]];
        ([a] + SplitOn(b[..k], sep)) + [b[k + 1..]];
        [a] + (SplitOn(b[..k], sep) + [b[k + 1..]]);
        [a] + SplitOn(b, sep);
      }
    }
  }

  /** The base case: the separator after `a` is the only one. */
  lemma SplitOnLastSep(a: string, sep: char, b: string)
    requires sep !in a && sep !in b
    ensures SplitOn(a + [sep] + b, sep) == [a] + SplitOn(b, sep)
  {
    var s := a + [sep] + b;
    assert s[|a| + 1..] == b;
    LastIndexOfAt(s, sep, |a|);
    assert s[..|a|] == a;
    assert LastIndexOf(a, sep).None?;
    assert SplitOn(a, sep) == [a];
    assert LastIndexOf(b, sep).None?;
    assert SplitOn(b, sep) == [b];
  }

  /** The first piece is the text before the first separator: the whole text when there is
      none, otherwise a prefix followed by the separator. */
  lemma SplitOnFirst(s: string, sep: char)
    ensures SplitOn(s, sep)[0] == s <==> sep !in s
    ensures sep in s ==> |SplitOn(s, sep)[0]| < |s| && s[..|SplitOn(s, sep)[0]| + 1] == SplitOn(s, sep)[0] + [sep]
  {
    if sep !in s {
      assert LastIndexOf(s, sep).None?;
    } else {
      SplitOnFirstSeparated(s, sep);
      assert SplitOn(s, sep)[0] != s;
    }
  }

  lemma {:induction false} SplitOnFirstSeparated(s: string, sep: char)
    requires sep in s
    ensures |SplitOn(s, sep)[0]| < |s| && s[..|SplitOn(s, sep)[0]| + 1] == SplitOn(s, sep)[0] + [sep]
    decreases |s|
  {
    var i := LastIndexOf(s, sep).value;
    var front := s[..i];
    assert SplitOn(s, sep) == SplitOn(front, sep) + [s[i + 1..]];
    if sep in front {
      SplitOnFirstSeparated(front, sep);
      assert s[..|SplitOn(front, sep)[0]| + 1] == front[..|SplitOn(front, sep)[0]| + 1];
    } else {
      assert LastIndexOf(front, sep).None?;
      assert s[..i + 1] == front + [sep];
    }
  }

  /** Trimming keeps a slice of the text, so it adds no character. */
  lemma TrimNotIn(s: string, c: char)
    requires c !in s
    ensures c !in Trim(s)
  {
  }

  /** `s.replace(pat, rep)` with a literal pattern: only the first occurrence. */
  function ReplaceFirst(s: string, pat: string, rep: string): (r: string)
    ensures !Contains(s, pat) ==> r == s
    ensures Contains(s, pat) ==> |r| == |s| - |pat| + |rep|
    ensures Contains(s, pat) ==>
      var i := FindFrom(s, pat, 0).value;
      && At(s, i, pat) && (forall k :: 0 <= k < i ==> !At(s, k, pat))
      && r == s[..i] + rep + s[i + |pat|..]
  {
    match FindFrom(s, pat, 0)
    case None => s
    case Some(i) => s[..i] + rep + s[i + |pat|..]
  }
}

=== FILE: turn.dfy ===
/** The decision logic of a conversation turn, apart from any I/O: cleaning stored context
    (`processContext`), normalising the fences of a reply (`formatResponse`), assembling the
    prompt, the group admission gate, the cooldown notice, the routing of an update and
    the overload-retry schedule. */
module Turn {
  import opened Wrappers
  import opened Text
  import opened Decimal
  import opened Markup
  import opened Helpers
  import opened I18n

  // ---------------------------------------------------------------------------
  // processContext

  /** `/^(Q|A|User|Assistant): /` at the start of `s`: the length of the tag, or 0. */
  function TagLen(s: string): (n: nat)
    ensures n == 0 || (3 <= n <= |s| && s[n - 2..n] == ": ")
  {
    if StartsWith(s, "Q: ") || StartsWith(s, "A: ") then 3
    else if StartsWith(s, "User: ") then 6
    else if StartsWith(s, "Assistant: ") then 11
    else 0
  }

  /** `s.replace(/^(Q|A|User|Assistant): /gm, '')`: a tag is dropped where a line begins,
      that is at the start of the text or behind a line terminator. */
  function UntagFrom(s: string, lineStart: bool): string
    decreases |s|
  {
    if s == [] then []
    else if lineStart && TagLen(s) > 0 then UntagFrom(s[TagLen(s)..], false)
    else [s[0]] + UntagFrom(s[1..], IsLineTerminator(s[0]))
  }

  function Untag(s: string): string {
    UntagFrom(s, true)
  }

  /** `^```\w*\n` removed from the front of a fence. */
  function DropOpen(m: string): string {
    if !StartsWith(m, "```") then m
    else
      var w := WordRun(m[3..]);
      if 3 + w < |m| && m[3 + w] == '\n' then m[3 + w + 1..] else m
  }

  /** `\n```$` removed from the end. */
  function DropClose(t: string): string {
    if EndsWith(t, "\n```") then t[..|t| - 4] else t
  }

  /** `/```[\s\S]*?```/g` replaced by the fence's body, unwrapped and trimmed. */
  function FenceToBody(): Matcher {
    FenceBodyAt
  }

  function FenceBodyAt(s: string): Option<Match> {
    match FenceLen(s, 0)
    case None => None
    case Some(len) => Some(Match(len, Trim(DropClose(DropOpen(s[..len])))))
  }

  /** Emphasis, inline code and links reduced to their text. */
  function StripMarkup(t: string): string {
    var t1 := ReplaceAll(StripTripleStar(), t);
    var t2 := ReplaceAll(StripDoubleStar(), t1);
    var t3 := ReplaceAll(StripStar(), t2);
    var t4 := ReplaceAll(StripTickSpan(), t3);
    ReplaceAll(LinkToCaption(), t4)
  }

  /** The cleaning branch of `processContext`. */
  function CleanContext(context: string): (r: string)
    ensures r == [] || (!IsWhiteSpace(r[0]) && !IsWhiteSpace(r[|r| - 1]))
  {
    Trim(StripMarkup(ReplaceAll(FenceToBody(), Untag(context))))
  }

  /** What `JSON.parse` yields of interest: `role` and `content`, `""` when absent. */
  datatype JsonFields = JsonFields(role: string, content: string)

  /** `JSON.parse`, left abstract: it fails on anything that cannot begin a JSON value. */
  type JsonOracle = string -> Option<JsonFields>

  predicate IsJsonSpace(c: char) {
    c == ' ' || c == '\t' || c == '\n' || c == '\r'
  }

  /** After JSON white space, the text begins a JSON value. */
  predicate CouldBeJson(s: string) {
    if s != [] && IsJsonSpace(s[0]) then CouldBeJson(s[1..])
    else s != [] && (s[0] in "{[\"-tfn" || IsDigit(s[0]))
  }

  function ParseJson(json: JsonOracle, s: string): (r: Option<JsonFields>)
    ensures !CouldBeJson(s) ==> r.None?
  {
    if CouldBeJson(s) then json(s) else None
  }

  /** `processContext`: the `content` of a JSON text, otherwise the cleaned text. */
  function ProcessContext(json: JsonOracle, context: string): string {
    match ParseJson(json, context)
    case Some(fields) => fields.content
    case None => CleanContext(context)
  }

  // ---------------------------------------------------------------------------
  // formatResponse

  /** `/```(\w*)\n?([\s\S]*?)```/g` replaced by a fence with a normalised body. */
  function ResponseFence(): Matcher {
    ResponseFenceAt
  }

  function ResponseFenceAt(s: string): Option<Match> {
    if !StartsWith(s, "```") then None else FenceAfterWord(s, WordRun(s[3..]))
  }

  /** The rest of a fence match once `` ``` `` and a language word of length `w` are read: an
      optional line break, then the body up to the next `` ``` ``. */
  function FenceAfterWord(s: string, w: nat): Option<Match>
    requires 3 + w <= |s|
  {
    FenceBody(s, w, if 3 + w < |s| && s[3 + w] == '\n' then 4 + w else 3 + w)
  }

  /** The body from `p` up to the next `` ``` ``, behind a language word of length `w`. */
  function FenceBody(s: string, w: nat, p: nat): Option<Match>
    requires 3 + w <= p <= |s|
  {
    match FindFrom(s, "```", p)
    case None => None
    case Some(j) => Some(Match(j + 3, FencedCode(s[3..3 + w], s[p..j])))
  }

  /** The replacement fence: the language word, the normalised body, each fence on a line of its own. */
  function FencedCode(lang: string, code: string): string {
    "\n```" + lang + "\n" + CodeBody(code) + "\n```\n"
  }

  /** How a question and its answer are handed to `storeContext`. */
  function Exchange(question: string, response: string): (r: string)
    ensures StartsWith(r, "Q: ")
  {
    "Q: " + question + "\nA: " + response
  }

  /** `formatResponse`. */
  function FormatResponse(response: string): string {
    ReplaceAll(ResponseFence(), response)
  }

  // ---------------------------------------------------------------------------
  // What processContext and formatResponse do

  /** Inside a line, nothing is untagged. */
  lemma {:induction false} UntagFromPlain(x: string, rest: string)
    requires !HasLineTerminator(x)
    ensures UntagFrom(x + rest, false) == x + UntagFrom(rest, false)
    decreases |x|
  {
    if x != [] {
      assert (x + rest)[1..] == x[1..] + rest;
      assert (x + rest)[0] == x[0] && !IsLineTerminator(x[0]);
      assert x == [x[0]] + x[1..];
      assert !HasLineTerminator(x[1..]) by {
        forall i | 0 <= i < |x[1..]| ensures !IsLineTerminator(x[1..][i]) {
          assert x[1..][i] == x[i + 1];
        }
      }
      UntagFromPlain(x[1..], rest);
    } else {
      assert x + rest == rest;
    }
  }

  /** Where no tag begins, a line start makes no difference. */
  lemma UntagNoTag(s: string)
    requires TagLen(s) == 0
    ensures UntagFrom(s, true) == UntagFrom(s, false)
  {
    if s != [] {
      assert UntagFrom(s, true) == [s[0]] + UntagFrom(s[1..], IsLineTerminator(s[0]));
    }
  }

  /** The two tags of a stored exchange. */
  lemma TagLenQA(rest: string)
    ensures TagLen("Q: " + rest) == 3 && TagLen("A: " + rest) == 3
  {
    assert ("Q: " + rest)[..3] == "Q: ";
    assert ("A: " + rest)[..3] == "A: ";
  }

  /** A one-line text that opens with no tag is left as it is. */
  lemma UntagPlain(x: string)
    requires !HasLineTerminator(x) && TagLen(x) == 0
    ensures Untag(x) == x
  {
    UntagNoTag(x);
    UntagFromPlain(x, []);
    assert x + [] == x;
  }

  /** A stored exchange loses its two speaker tags and nothing else. */
  lemma UntagExchange(q: string, a: string)
    requires !HasLineTerminator(q) && !HasLineTerminator(a)
    ensures Untag(Exchange(q, a)) == q + "\n" + a
  {
    var t := "\n" + ("A: " + a);
    ExchangeParts(q, a);
    UntagTagged("Q: ", q + t);
    UntagFromPlain(q, t);
    UntagBreak("A: " + a);
    UntagTagged("A: ", a);
    UntagFromPlain(a, []);
    assert a + [] == a;
  }

  /** An exchange is its question tag, the question, a line break, the answer tag and the answer. */
  lemma ExchangeParts(q: string, a: string)
    ensures Exchange(q, a) == "Q: " + (q + ("\n" + ("A: " + a)))
  {
    assert "\nA: " == "\n" + "A: ";
    assert "\nA: " + a == "\n" + ("A: " + a);
  }

  /** A `Q: ` or `A: ` tag at a line start is dropped. */
  lemma UntagTagged(tag: string, rest: string)
    requires tag == "Q: " || tag == "A: "
    ensures UntagFrom(tag + rest, true) == UntagFrom(rest, false)
  {
    TagLenQA(rest);
    assert (tag + rest)[3..] == rest;
  }

  /** A line break is kept and starts a new line. */
  lemma UntagBreak(rest: string)
    ensures UntagFrom("\n" + rest, false) == "\n" + UntagFrom(rest, true)
  {
    assert ("\n" + rest)[1..] == rest;
  }

  /** Without a backtick there is no fence to unwrap. */
  lemma FenceToBodyAbsent(s: string)
    requires '`' !in s
    ensures ReplaceAll(FenceToBody(), s) == s
  {
    forall k | 0 <= k < |s| ensures FenceBodyAt(s[k..]).None? {
      assert s[k..][0] == s[k];
      FenceBodyAtNone(s[k..]);
    }
    ReplaceAllNoMatch(FenceToBody(), s);
  }

  /** Without a backtick there is no inline code. */
  lemma TickSpanAbsent(s: string)
    requires '`' !in s
    ensures ReplaceAll(StripTickSpan(), s) == s
  {
    forall k | 0 <= k < |s| ensures !Usable(StripTickSpan()(s[k..]), s[k..]) {
      assert s[k..][0] == s[k];
    }
    ReplaceAllNoMatch(StripTickSpan(), s);
  }

  /** `` `x` `` becomes `x` when `x` is not empty. */
  lemma TickSpanWhole(x: string)
    requires x != [] && '`' !in x
    ensures ReplaceAll(StripTickSpan(), "`" + x + "`") == x
  {
    var s := "`" + x + "`";
    forall k | 1 <= k < 1 + |x| ensures !At(s, k, "`") {
      assert s[k] == x[k - 1];
    }
    FindFromFirst(s, "`", 1, 1 + |x|);
    assert s[1..1 + |x|] == x;
    assert s[|s|..] == [];
  }

  /** Text with no `*`, no backtick and no `[` carries no markup to strip. */
  lemma StripMarkupNoMarks(t: string)
    requires '*' !in t && '`' !in t && '[' !in t
    ensures StripMarkup(t) == t
  {
    DelimitedAbsent("***", "", "", t);
    DelimitedAbsent("**", "", "", t);
    DelimitedAbsent("*", "", "", t);
    TickSpanAbsent(t);
    NoBracketNoLink(t);
    LinkToAbsent(CaptionOnly, t);
  }

  /** Text that cannot begin a JSON value never reaches the parser: it is cleaned, whatever the parser does. */
  lemma ProcessContextNotJson(json: JsonOracle, context: string)
    requires !CouldBeJson(context)
    ensures ProcessContext(json, context) == CleanContext(context)
  {
  }

  /** What the bot stores for an exchange: the question and the answer on two lines, trimmed. */
  lemma ProcessContextExchange(json: JsonOracle, q: string, a: string)
    requires Plain(q) && Plain(a)
    ensures ProcessContext(json, Exchange(q, a)) == Trim(q + "\n" + a)
  {
    var s := Exchange(q, a);
    assert !CouldBeJson(s) by { assert s[0] == 'Q'; }
    UntagExchange(q, a);
    var t := q + "\n" + a;
    assert '`' !in t && '*' !in t && '[' !in t;
    FenceToBodyAbsent(t);
    StripMarkupNoMarks(t);
  }

  /** A tag needs the whole of its line's opening, so one that does not start a line does not start once more is added behind it. */
  lemma TagLenExtend(x: string, rest: string)
    requires !HasLineTerminator(x) && TagLen(x) == 0 && rest != [] && IsLineTerminator(rest[0])
    ensures TagLen(x + rest) == 0
  {
    NotStartsAcross(x, rest, "Q: ");
    NotStartsAcross(x, rest, "A: ");
    NotStartsAcross(x, rest, "User: ");
    NotStartsAcross(x, rest, "Assistant: ");
  }

  lemma NotStartsAcross(x: string, rest: string, tag: string)
    requires !HasLineTerminator(x) && !StartsWith(x, tag) && rest != [] && IsLineTerminator(rest[0])
    requires forall i :: 0 <= i < |tag| ==> !IsLineTerminator(tag[i])
    ensures !StartsWith(x + rest, tag)
  {
    if |x| >= |tag| {
      assert (x + rest)[..|tag|] == x[..|tag|];
    } else {
      assert (x + rest)[|x|] == rest[0];
      assert !IsLineTerminator(tag[|x|]);
    }
  }

  /** A fence in the context is replaced by its body, trimmed. */
  lemma ProcessContextFence(json: JsonOracle, lang: string, body: string)
    requires forall i :: 0 <= i < |lang| ==> IsWordChar(lang[i])
    requires Plain(body) && TagLen(body) == 0
    ensures ProcessContext(json, "```" + lang + "\n" + body + "\n```") == Trim(body)
  {
    var s := "```" + lang + "\n" + body + "\n```";
    assert !CouldBeJson(s) by { assert s[0] == '`'; }
    FenceUntagged(lang, body);
    FenceUnwrapped(lang, body);
    TrimNotIn(body, '*');
    TrimNotIn(body, '`');
    TrimNotIn(body, '[');
    StripMarkupNoMarks(Trim(body));
    TrimmedIsTrim(Trim(body));
  }

  /** No tag starts a line of a one-line fence whose body opens with none. */
  lemma FenceUntagged(lang: string, body: string)
    requires forall i :: 0 <= i < |lang| ==> IsWordChar(lang[i])
    requires Plain(body) && TagLen(body) == 0
    ensures Untag("```" + lang + "\n" + body + "\n```") == "```" + lang + "\n" + body + "\n```"
  {
    var v := body + "\n```";
    var u := "\n" + v;
    FenceOpenUntagged(lang, u);
    LineBreakStartsLine(v);
    BodyUntagged(body);
    assert "```" + lang + u == "```" + lang + "\n" + body + "\n```";
  }

  /** After a line break a new line starts. */
  lemma LineBreakStartsLine(v: string)
    ensures UntagFrom("\n" + v, false) == "\n" + UntagFrom(v, true)
  {
    assert ("\n" + v)[1..] == v;
  }

  /** The opening of a fence, up to its first line break, carries no tag. */
  lemma FenceOpenUntagged(lang: string, u: string)
    requires forall i :: 0 <= i < |lang| ==> IsWordChar(lang[i])
    ensures UntagFrom("```" + lang + u, true) == "```" + lang + UntagFrom(u, false)
  {
    var open := "```" + lang;
    assert !HasLineTerminator(open) by {
      forall i | 0 <= i < |open| ensures !IsLineTerminator(open[i]) {
        if i >= 3 { assert open[i] == lang[i - 3]; }
      }
    }
    assert (open + u)[0] == '`';
    NoTagAtMark(open + u);
    UntagNoTag(open + u);
    UntagFromPlain(open, u);
  }

  /** A body line that opens with no tag, and the closing line, are kept. */
  lemma BodyUntagged(body: string)
    requires Plain(body) && TagLen(body) == 0
    ensures UntagFrom(body + "\n```", true) == body + "\n```"
  {
    TagLenExtend(body, "\n```");
    UntagNoTag(body + "\n```");
    UntagFromPlain(body, "\n```");
    assert "\n```"[1..] == "```";
    NoTagAtMark("```");
    UntagPlain("```");
  }

  /** A run of word characters ends where a non-word character follows. */
  lemma WordRunOf(lang: string, rest: string)
    requires forall i :: 0 <= i < |lang| ==> IsWordChar(lang[i])
    requires rest != [] && !IsWordChar(rest[0])
    ensures WordRun(lang + rest) == |lang|
  {
    var t := lang + rest;
    assert t[|lang|] == rest[0];
    forall i | 0 <= i < |lang| ensures IsWordChar(t[i]) {
      assert t[i] == lang[i];
    }
  }

  /** The fence is the whole of a one-line fenced text. */
  lemma FenceLenWhole(lang: string, body: string)
    requires forall i :: 0 <= i < |lang| ==> IsWordChar(lang[i])
    requires '`' !in body
    ensures var s := "```" + lang + "\n" + body + "\n```"; FenceLen(s, 0) == Some(|s|)
  {
    var s := "```" + lang + "\n" + body + "\n```";
    var j := |s| - 3;
    forall k | 3 <= k < j ensures !At(s, k, "```") {
      if k < 3 + |lang| {
        assert s[k] == lang[k - 3];
      } else if k == 3 + |lang| {
        assert s[k] == '\n';
      } else if k < 4 + |lang| + |body| {
        assert s[k] == body[k - 4 - |lang|];
      } else {
        assert s[k] == '\n';
      }
    }
    assert At(s, j, "```");
    FindFromFirst(s, "```", 3, j);
  }

  /** The opening line and the closing line of a fence are dropped. */
  lemma DropOpenClose(lang: string, body: string)
    requires forall i :: 0 <= i < |lang| ==> IsWordChar(lang[i])
    ensures DropClose(DropOpen("```" + lang + "\n" + body + "\n```")) == body
  {
    var s := "```" + lang + "\n" + body + "\n```";
    FiveParts("```", lang, "\n", body, "\n```");
    assert s[3 + |lang|] == s[3 + |lang|..4 + |lang|][0];
    OpenDropped(s, lang);
    assert s[4 + |lang|..] == body + "\n```";
    CloseDropped(body);
  }

  /** `` ``` ``, a language word and a line break are dropped from the front. */
  lemma OpenDropped(s: string, lang: string)
    requires forall i :: 0 <= i < |lang| ==> IsWordChar(lang[i])
    requires 3 + |lang| < |s| && s[..3] == "```" && s[3..3 + |lang|] == lang && s[3 + |lang|] == '\n'
    ensures DropOpen(s) == s[4 + |lang|..]
  {
    var t := s[3..];
    forall i | 0 <= i < |lang| ensures IsWordChar(t[i]) {
      assert t[i] == s[3..3 + |lang|][i];
    }
    assert t[|lang|] == '\n';
  }

  /** A closing `\n``` ` is dropped from the end. */
  lemma CloseDropped(body: string)
    ensures DropClose(body + "\n```") == body
  {
    assert (body + "\n```")[|body|..] == "\n```";
  }

  /** A one-line fence is matched whole and replaced by its trimmed body. */
  lemma FenceUnwrapped(lang: string, body: string)
    requires forall i :: 0 <= i < |lang| ==> IsWordChar(lang[i])
    requires '`' !in body
    ensures ReplaceAll(FenceToBody(), "```" + lang + "\n" + body + "\n```") == Trim(body)
  {
    var s := "```" + lang + "\n" + body + "\n```";
    FenceLenWhole(lang, body);
    DropOpenClose(lang, body);
    assert s[..|s|] == s;
    assert FenceBodyAt(s) == Some(Match(|s|, Trim(body)));
    assert ReplaceAll(FenceToBody(), s) == Trim(body) + ReplaceAll(FenceToBody(), s[|s|..]);
    assert s[|s|..] == [];
  }

  /** A text without a backtick has no two in a row. */
  lemma NoTickNoDoubled(s: string)
    requires '`' !in s
    ensures NoDoubled(s, '`')
  {
    forall i | 0 <= i && i + 1 < |s| ensures s[i] != '`' {
      assert s[i] in s;
    }
  }

  /** Emphasis and inline code in a one-line context are reduced to their text. */
  lemma ProcessContextEmphasis(json: JsonOracle, x: string)
    requires Plain(x) && x != []
    ensures ProcessContext(json, "***" + x + "***") == Trim(x)
    ensures ProcessContext(json, "**" + x + "**") == Trim(x)
    ensures ProcessContext(json, "*" + x + "*") == Trim(x)
    ensures ProcessContext(json, "`" + x + "`") == Trim(x)
  {
    StripMarkupTripleStar(x);
    StarredContext(json, "***", x);
    StripMarkupDoubleStar(x);
    StarredContext(json, "**", x);
    StripMarkupStar(x);
    StarredContext(json, "*", x);
    StripMarkupTick(x);
    TickedContext(json, x);
  }

  lemma StarredContext(json: JsonOracle, stars: string, x: string)
    requires stars in ["***", "**", "*"] && Plain(x) && StripMarkup(stars + x + stars) == x
    ensures ProcessContext(json, stars + x + stars) == Trim(x)
  {
    StarredLine(stars, x);
    CleanOneLine(json, stars + x + stars, x);
  }

  lemma TickedContext(json: JsonOracle, x: string)
    requires Plain(x) && x != [] && StripMarkup("`" + x + "`") == x
    ensures ProcessContext(json, "`" + x + "`") == Trim(x)
  {
    TickedLine(x);
    CleanOneLine(json, "`" + x + "`", x);
  }

  /** A plain text between two backticks is one line with no two backticks side by side. */
  lemma TickedLine(x: string)
    requires Plain(x) && x != []
    ensures var t := "`" + x + "`"; !HasLineTerminator(t) && NoDoubled(t, '`')
  {
    var t := "`" + x + "`";
    assert !HasLineTerminator(t) by {
      forall i | 0 <= i < |t| ensures !IsLineTerminator(t[i]) {
        if 1 <= i <= |x| { assert t[i] == x[i - 1]; }
      }
    }
    assert NoDoubled(t, '`') by {
      forall i | 0 <= i && i + 1 < |t| ensures !(t[i] == '`' && t[i + 1] == '`') {
        if i == 0 { assert t[1] == x[0]; } else { assert t[i] == x[i - 1]; }
      }
    }
  }

  /** A plain text between runs of stars is one line without a backtick. */
  lemma StarredLine(stars: string, x: string)
    requires stars in ["***", "**", "*"] && Plain(x)
    ensures var t := stars + x + stars; t[0] == '*' && !HasLineTerminator(t) && NoDoubled(t, '`')
  {
    var t := stars + x + stars;
    forall i | 0 <= i < |t| ensures t[i] == '*' || t[i] in x {
      if |stars| <= i < |stars| + |x| { assert t[i] == x[i - |stars|]; }
    }
    assert '`' !in t;
    NoTickNoDoubled(t);
  }

  /** A link in a one-line context is reduced to its caption, once the parser has refused it. */
  lemma ProcessContextLink(json: JsonOracle, a: string, u: string)
    requires Plain(a) && Plain(u) && a != [] && u != []
    requires json("[" + a + "](" + u + ")").None?
    ensures ProcessContext(json, "[" + a + "](" + u + ")") == Trim(a)
  {
    var s := "[" + a + "](" + u + ")";
    assert '`' !in s && '*' !in s;
    assert !HasLineTerminator(s) by {
      forall i | 0 <= i < |s| ensures !IsLineTerminator(s[i]) {
        if 1 <= i < 1 + |a| { assert s[i] == a[i - 1]; }
        else if 3 + |a| <= i < 3 + |a| + |u| { assert s[i] == u[i - 3 - |a|]; }
      }
    }
    assert s[0] == '[';
    UntagPlain(s);
    FenceToBodyAbsent(s);
    DelimitedAbsent("***", "", "", s);
    DelimitedAbsent("**", "", "", s);
    DelimitedAbsent("*", "", "", s);
    TickSpanAbsent(s);
    LinkToWhole(CaptionOnly, a, u);
  }

  /** A one-line text opening with `*` or a backtick is cleaned by the markup pass alone. */
  lemma CleanOneLine(json: JsonOracle, s: string, x: string)
    requires s != [] && (s[0] == '*' || s[0] == '`') && !HasLineTerminator(s)
    requires NoDoubled(s, '`') && StripMarkup(s) == x
    ensures ProcessContext(json, s) == Trim(x)
  {
    assert !CouldBeJson(s);
    NoTagAtMark(s);
    UntagPlain(s);
    FenceToBodyUndoubled(s);
  }

  /** No speaker tag opens with `*` or a backtick. */
  lemma NoTagAtMark(s: string)
    requires s != [] && (s[0] == '*' || s[0] == '`')
    ensures TagLen(s) == 0
  {
  }

  /** Without two backticks in a row there is no fence to unwrap. */
  lemma FenceToBodyUndoubled(s: string)
    requires NoDoubled(s, '`')
    ensures ReplaceAll(FenceToBody(), s) == s
  {
    forall k | 0 <= k < |s| ensures FenceBodyAt(s[k..]).None? {
      if k + 3 <= |s| {
        assert s[k..][..3] == s[k..k + 3];
        assert !(s[k] == '`' && s[k + 1] == '`');
      }
      FenceBodyAtNone(s[k..]);
    }
    ReplaceAllNoMatch(FenceToBody(), s);
  }

  lemma FenceBodyAtNone(t: string)
    requires !StartsWith(t, "```")
    ensures FenceBodyAt(t).None?
  {
  }

  lemma StripMarkupTripleStar(x: string)
    requires Plain(x)
    ensures StripMarkup("***" + x + "***") == x
  {
    DelimitedWhole("***", "", "", x);
    assert "" + x + "" == x;
    DelimitedAbsent("**", "", "", x);
    DelimitedAbsent("*", "", "", x);
    TickSpanAbsent(x);
    NoBracketNoLink(x);
    LinkToAbsent(CaptionOnly, x);
  }

  lemma StripMarkupDoubleStar(x: string)
    requires Plain(x) && x != []
    ensures StripMarkup("**" + x + "**") == x
  {
    NoLongerRun('*', x, 2);
    assert Repeat('*', 2) == "**" && Repeat('*', 3) == "***";
    DelimitedNowhere("***", "", "", "**" + x + "**");
    StarsUnwrapped("**", x);
    PlainAfterStars(x);
  }

  lemma StripMarkupStar(x: string)
    requires Plain(x) && x != []
    ensures StripMarkup("*" + x + "*") == x
  {
    StarNoDouble(x);
    StarsUnwrapped("*", x);
    PlainAfterStars(x);
  }

  /** `*x*` holds no run of two or three stars. */
  lemma StarNoDouble(x: string)
    requires Plain(x) && x != []
    ensures ReplaceAll(StripTripleStar(), "*" + x + "*") == "*" + x + "*"
    ensures ReplaceAll(StripDoubleStar(), "*" + x + "*") == "*" + x + "*"
  {
    var s := "*" + x + "*";
    NoLongerRun('*', x, 1);
    assert Repeat('*', 1) == "*" && Repeat('*', 2) == "**";
    forall k | 0 <= k ensures !At(s, k, "***") {
      if At(s, k, "***") {
        AtPrefix(s, k, "***", "**");
      }
    }
    DelimitedNowhere("***", "", "", s);
    DelimitedNowhere("**", "", "", s);
  }

  /** A plain text between two runs of stars loses them. */
  lemma StarsUnwrapped(stars: string, x: string)
    requires stars in ["**", "*"] && Plain(x)
    ensures ReplaceAll(Delimited(stars, "", ""), stars + x + stars) == x
  {
    DelimitedWhole(stars, "", "", x);
    assert "" + x + "" == x;
  }

  /** The star, inline-code and link replaces leave a plain text alone. */
  lemma PlainAfterStars(x: string)
    requires Plain(x)
    ensures ReplaceAll(StripStar(), x) == x
    ensures ReplaceAll(StripTickSpan(), x) == x
    ensures ReplaceAll(LinkToCaption(), x) == x
  {
    DelimitedAbsent("*", "", "", x);
    TickSpanAbsent(x);
    NoBracketNoLink(x);
    LinkToAbsent(CaptionOnly, x);
  }

  lemma StripMarkupTick(x: string)
    requires Plain(x) && x != []
    ensures StripMarkup("`" + x + "`") == x
  {
    var s := "`" + x + "`";
    assert '*' !in s;
    DelimitedAbsent("***", "", "", s);
    DelimitedAbsent("**", "", "", s);
    DelimitedAbsent("*", "", "", s);
    TickSpanWhole(x);
    NoBracketNoLink(x);
    LinkToAbsent(CaptionOnly, x);
  }

  /** A reply with no fence is passed on unchanged. */
  lemma FormatResponseNoFence(response: string)
    requires Nowhere(response, "```")
    ensures FormatResponse(response) == response
  {
    forall k | 0 <= k < |response| ensures ResponseFenceAt(response[k..]).None? {
      if k + 3 <= |response| {
        assert response[k..][..3] == response[k..k + 3];
        assert !At(response, k, "```");
      }
    }
    ReplaceAllNoMatch(ResponseFence(), response);
  }

  /** A fence in a reply is set on lines of its own, its body trimmed, with no blank-line runs. */
  lemma FormatResponseFence(lang: string, code: string)
    requires forall i :: 0 <= i < |lang| ==> IsWordChar(lang[i])
    requires '`' !in code
    ensures FormatResponse("```" + lang + "\n" + code + "```")
      == "\n```" + lang + "\n" + CodeBody(code) + "\n```\n"
  {
    var s := "```" + lang + "\n" + code + "```";
    var rep := "\n```" + lang + "\n" + CodeBody(code) + "\n```\n";
    ResponseFenceWhole(lang, code);
    assert ReplaceAll(ResponseFence(), s) == rep + ReplaceAll(ResponseFence(), s[|s|..]);
    assert s[|s|..] == [];
  }

  lemma ResponseFenceWhole(lang: string, code: string)
    requires forall i :: 0 <= i < |lang| ==> IsWordChar(lang[i])
    requires '`' !in code
    ensures var s := "```" + lang + "\n" + code + "```";
      ResponseFenceAt(s) == Some(Match(|s|, "\n```" + lang + "\n" + CodeBody(code) + "\n```\n"))
  {
    var s := "```" + lang + "\n" + code + "```";
    FiveParts("```", lang, "\n", code, "```");
    assert s[3 + |lang|] == s[3 + |lang|..4 + |lang|][0];
    FenceFound(s, lang, code);
  }

  /** A text cut into a fence, a language word, a line break, a body without backticks and a
      closing fence is one whole match. */
  lemma FenceFound(s: string, lang: string, code: string)
    requires forall i :: 0 <= i < |lang| ==> IsWordChar(lang[i])
    requires '`' !in code
    requires |s| == 7 + |lang| + |code| && s[..3] == "```" && s[3..3 + |lang|] == lang && s[3 + |lang|] == '\n'
    requires s[4 + |lang|..4 + |lang| + |code|] == code && s[4 + |lang| + |code|..] == "```"
    ensures ResponseFenceAt(s) == Some(Match(|s|, FencedCode(lang, code)))
  {
    FenceParts(s, lang, code);
    BodyThenClose(s, 4 + |lang|, code);
    ResponseFenceShape(s, |lang|, 4 + |lang| + |code|, lang, code);
  }

  /** What the fence rule reads in such a text: the opening fence, then the language word up to
      the line break. */
  lemma FenceParts(s: string, lang: string, code: string)
    requires forall i :: 0 <= i < |lang| ==> IsWordChar(lang[i])
    requires '`' !in code
    requires |s| == 7 + |lang| + |code| && s[..3] == "```" && s[3..3 + |lang|] == lang && s[3 + |lang|] == '\n'
    requires s[4 + |lang|..4 + |lang| + |code|] == code && s[4 + |lang| + |code|..] == "```"
    ensures StartsWith(s, "```") && WordRun(s[3..]) == |lang|
  {
    OpeningFence(s);
    LanguageRun(s, lang);
  }

  lemma OpeningFence(s: string)
    requires 3 <= |s| && s[..3] == "```"
    ensures StartsWith(s, "```")
  {
  }

  /** After a body without backticks, the closing fence is the first one. */
  lemma BodyThenClose(s: string, p: nat, code: string)
    requires '`' !in code && p + |code| + 3 == |s| && s[p..p + |code|] == code && s[p + |code|..] == "```"
    ensures FindFrom(s, "```", p) == Some(p + |code|)
  {
    NoFenceInBody(s, p, code);
    assert s[p + |code|..p + |code| + 3] == "```";
    FindFromFirst(s, "```", p, p + |code|);
  }

  /** The language word after the opening fence is the whole run of word characters. */
  lemma LanguageRun(s: string, lang: string)
    requires forall i :: 0 <= i < |lang| ==> IsWordChar(lang[i])
    requires 3 + |lang| < |s| && s[3..3 + |lang|] == lang && s[3 + |lang|] == '\n'
    ensures WordRun(s[3..]) == |lang|
  {
    var t := s[3..];
    forall i | 0 <= i < |lang| ensures IsWordChar(t[i]) {
      assert t[i] == s[3..3 + |lang|][i];
    }
    assert t[|lang|] == '\n';
  }

  /** No fence starts inside a body without backticks. */
  lemma NoFenceInBody(s: string, p: nat, code: string)
    requires '`' !in code && p + |code| <= |s| && s[p..p + |code|] == code
    ensures forall k :: p <= k < p + |code| ==> !At(s, k, "```")
  {
    forall k | p <= k < p + |code| ensures !At(s, k, "```") {
      assert s[k] == code[k - p];
    }
  }

  /** A fence whose language word is followed by a line break: the body starts after it. */
  lemma ResponseFenceShape(s: string, w: nat, j: nat, lang: string, code: string)
    requires StartsWith(s, "```") && WordRun(s[3..]) == w && 3 + w < |s| && s[3 + w] == '\n'
    requires FindFrom(s, "```", 4 + w) == Some(j)
    requires s[3..3 + w] == lang && 4 + w <= j && s[4 + w..j] == code && j + 3 == |s|
    ensures ResponseFenceAt(s) == Some(Match(|s|, FencedCode(lang, code)))
  {
    FenceAfterBreak(s, w, j);
  }

  lemma FenceAfterBreak(s: string, w: nat, j: nat)
    requires 3 + w < |s| && s[3 + w] == '\n' && FindFrom(s, "```", 4 + w) == Some(j)
    ensures FenceAfterWord(s, w) == Some(Match(j + 3, FencedCode(s[3..3 + w], s[4 + w..j])))
  {
  }

  /** The five pieces of `a + b + c + d + e` are found again at their offsets. */
  lemma FiveParts(a: string, b: string, c: string, d: string, e: string)
    ensures var s := a + b + c + d + e; var i := |a| + |b|; var j := i + |c| + |d|;
      && s[..|a|] == a && s[|a|..] == b + (c + d + e) && s[|a|..i] == b && s[i..i + |c|] == c
      && s[i + |c|..j] == d && s[j..] == e
  {
  }

  // ---------------------------------------------------------------------------
  // The prompt

  datatype ChatMessage = ChatMessage(role: string, content: string)

  /** `[systemMessage, {user, context}?, {user, text}]`. */
  function Prompt(system: ChatMessage, context: string, text: string): (r: seq<ChatMessage>)
    ensures |r| == (if context != "" then 3 else 2)
    ensures r[0] == system && r[|r| - 1] == ChatMessage("user", text)
    ensures context != "" ==> r[1] == ChatMessage("user", context)
  {
    [system] + (if context != "" then [ChatMessage("user", context)] else []) + [ChatMessage("user", text)]
  }

  /** The user entry for the stored context: `''` when nothing is stored or the stored text is empty. */
  function PromptContext(json: JsonOracle, stored: Option<string>): (r: string)
    ensures stored.None? || stored == Some("") ==> r == ""
  {
    if stored.None? || stored.value == "" then "" else ProcessContext(json, stored.value)
  }

  /** The reply as sent: a header line naming the model, the formatted answer, then the disclaimer. */
  function ReplyText(model: string, response: string, disclaimer: string): string {
    "\U{1F916} " + model + "\n" + FormatResponse(response) + disclaimer
  }

  /** For a model name without a line break, the reply reads back as its header line, which
      the first line break ends, then the formatted answer, then the disclaimer. */
  lemma ReplyTextParts(model: string, response: string, disclaimer: string)
    requires '\n' !in model
    ensures var r := ReplyText(model, response, disclaimer);
      && FindFrom(r, "\n", 0) == Some(2 + |model|)
      && r[..2 + |model|] == "\U{1F916} " + model
      && r[3 + |model|..] == FormatResponse(response) + disclaimer
      && EndsWith(r, disclaimer)
  {
    var head := "\U{1F916} " + model;
    var tail := FormatResponse(response) + disclaimer;
    var r := ReplyText(model, response, disclaimer);
    assert r == head + ("\n" + tail);
    assert '\n' !in head by {
      forall k | 0 <= k < |head| ensures head[k] != '\n' {
        if k >= 2 {
          assert head[k] == model[k - 2];
        }
      }
    }
    HeaderLine(head, tail);
    assert r[|r| - |disclaimer|..] == disclaimer;
  }

  /** A header line without a line break, the line break, then the rest: the first line break
      ends the header. */
  lemma HeaderLine(head: string, tail: string)
    requires '\n' !in head
    ensures var r := head + ("\n" + tail);
      && FindFrom(r, "\n", 0) == Some(|head|) && r[..|head|] == head && r[|head| + 1..] == tail
  {
    var r := head + ("\n" + tail);
    assert r[..|head|] == head;
    assert r[|head| + 1..] == tail;
    forall k | 0 <= k < |head| ensures !At(r, k, "\n") {
      assert r[k..k + 1][0] == r[k] == head[k];
    }
    assert r[|head|..|head| + 1] == "\n";
    FindFromFirst(r, "\n", 0, |head|);
  }

  /** With the table's disclaimer, the answer and the disclaimer are separated by a blank line. */
  lemma ReplyDisclaimerBlank(t: Table, language: string, model: string, response: string)
    requires Complete(t) && (language == "en" || language == "zh")
    ensures var r := ReplyText(model, response, Translate(t, Disclaimer, language));
      var n := |r| - |Translate(t, Disclaimer, language)|;
      && n == 3 + |model| + |FormatResponse(response)|
      && r[3 + |model|..n] == FormatResponse(response)
      && n + 2 <= |r| && r[n..n + 2] == "\n\n"
  {
    var d := Translate(t, Disclaimer, language);
    DisclaimerOpensBlank(t, language);
    var r := ReplyText(model, response, d);
    var n := |r| - |d|;
    assert r[n..] == d;
    assert r[n..n + 2] == d[..2];
    assert r[3 + |model|..n] == FormatResponse(response);
  }

  // ---------------------------------------------------------------------------
  // Commands as typed

  /** `text.slice(1).split(' ')`: the command name, then its arguments. */
  function CommandCall(text: string): (r: (string, seq<string>))
    requires text != []
    ensures ' ' !in r.0
    ensures [r.0] + r.1 == SplitOn(text[1..], ' ')
  {
    var words := SplitOn(text[1..], ' ');
    assert words == [words[0]] + words[1..];
    (words[0], words[1..])
  }

  /** The command name is everything after the slash up to the first space (any `@name` suffix
      included), and the arguments are the space-separated words after it. */
  lemma CommandCallText(text: string)
    requires text != [] && text[0] == '/'
    ensures var (name, args) := CommandCall(text);
      && ' ' !in name
      && text == "/" + name + (if args == [] then "" else " " + Join(args, ' '))
  {
    var call := CommandCall(text);
    var words := SplitOn(text[1..], ' ');
    assert [call.0] + call.1 == words;
    JoinSplitOn(text[1..], ' ');
    JoinCons(call.0, call.1, ' ');
    SlashThen(text, call.0, call.1);
  }

  /** A text that opens with a slash is the slash, the name and the joined arguments. */
  lemma SlashThen(text: string, name: string, args: seq<string>)
    requires text != [] && text[0] == '/'
    requires text[1..] == if args == [] then name else name + [' '] + Join(args, ' ')
    ensures text == "/" + name + (if args == [] then "" else " " + Join(args, ' '))
  {
    assert text == [text[0]] + text[1..];
    if args != [] {
      assert name + [' '] + Join(args, ' ') == name + (" " + Join(args, ' '));
    }
  }

  // ---------------------------------------------------------------------------
  // The group gate

  function Mention(botName: string): string {
    "@" + botName
  }

  /** What `handleGroupMessage` does with a message, given whether its sender is whitelisted
      and, for a sender who is not, whether the chat is in its cooldown. */
  datatype Admission =
    | Ignore
    | RunCommand(name: string, args: seq<string>)
    | Cooldown
    | Ask(question: string, stamp: bool)

  function GroupAdmission(text: string, botName: string, whitelisted: bool, limited: bool): (r: Admission)
    ensures !Contains(text, Mention(botName)) ==> r == Ignore
    ensures Contains(text, Mention(botName)) && StartsWith(text, "/") ==>
      r == (if whitelisted then RunCommand(CommandCall(text).0, CommandCall(text).1) else Ignore)
    ensures r.Cooldown? <==> Contains(text, Mention(botName)) && !StartsWith(text, "/") && !whitelisted && limited
    ensures r.Ask? ==> whitelisted || !limited
    ensures r.Ask? ==> r.stamp == !whitelisted
    ensures r.Ask? ==> |r.question| <= |text| - |Mention(botName)|
    ensures r.Ask? ==> Contains(text, Mention(botName)) && !StartsWith(text, "/")
  {
    if !Contains(text, Mention(botName)) then Ignore
    else if StartsWith(text, "/") then
      if whitelisted then RunCommand(CommandCall(text).0, CommandCall(text).1) else Ignore
    else if !whitelisted && limited then Cooldown
    else Ask(Trim(ReplaceFirst(text, Mention(botName), "")), !whitelisted)
  }

  /** Whitelisted senders never meet the cooldown and never stamp it: the gate does not depend
      on the limiter for them. */
  lemma WhitelistedSkipCooldown(text: string, botName: string, limited1: bool, limited2: bool)
    ensures GroupAdmission(text, botName, true, limited1) == GroupAdmission(text, botName, true, limited2)
    ensures !GroupAdmission(text, botName, true, limited1).Cooldown?
    ensures GroupAdmission(text, botName, true, limited1).Ask? ==> !GroupAdmission(text, botName, true, limited1).stamp
  {
  }

  /** `Math.ceil(ms / 1000)` for a whole, non-negative number of milliseconds. */
  function CeilSeconds(ms: nat): (s: nat)
    ensures s * 1000 >= ms
    ensures s > 0 ==> (s - 1) * 1000 < ms
  {
    (ms + 999) / 1000
  }

  /** `Math.ceil(remainingTime / 1000)` as the notice writes it: `NaN` for a `NaN` time. */
  function SecondsText(remaining: Option<nat>): string {
    match remaining
    case None => "NaN"
    case Some(ms) => NatToString(CeilSeconds(ms))
  }

  /** The cooldown notice: `group_cooldown`, the seconds left rounded up, then `seconds`. */
  function CooldownNotice(t: Table, language: string, remaining: Option<nat>): string
    requires Complete(t)
  {
    Translate(t, GroupCooldown, language) + " " + SecondsText(remaining) + " " + Translate(t, Seconds, language)
  }

  /** The notice reads back: the seconds sit between the two phrases, and they are a decimal
      number exactly when the time is not `NaN`. */
  lemma CooldownNoticeParts(t: Table, language: string, remaining: Option<nat>)
    requires Complete(t)
    ensures var head := Translate(t, GroupCooldown, language) + " ";
      var r := CooldownNotice(t, language, remaining);
      var secs := SecondsText(remaining);
      && r[..|head|] == head && r[|head|..|head| + |secs|] == secs
      && r[|head| + |secs|..] == " " + Translate(t, Seconds, language)
      && (remaining.Some? <==> ParseInt(secs).Some?)
      && (remaining.Some? ==> ParseInt(secs) == Some(CeilSeconds(remaining.value)))
  {
    var head := Translate(t, GroupCooldown, language) + " ";
    var secs := SecondsText(remaining);
    var tail := " " + Translate(t, Seconds, language);
    assert CooldownNotice(t, language, remaining) == head + secs + tail;
    ThreeSlices(head, secs, tail);
    SecondsTextReadBack(remaining);
  }

  /** The three pieces of a concatenation are read back by slicing at their lengths. */
  lemma ThreeSlices(a: string, b: string, c: string)
    ensures var r := a + b + c;
      r[..|a|] == a && r[|a|..|a| + |b|] == b && r[|a| + |b|..] == c
  {
  }

  /** The seconds of the notice are a decimal number exactly when the time is not `NaN`. */
  lemma SecondsTextReadBack(remaining: Option<nat>)
    ensures remaining.Some? <==> ParseInt(SecondsText(remaining)).Some?
    ensures remaining.Some? ==> ParseInt(SecondsText(remaining)) == Some(CeilSeconds(remaining.value))
  {
    match remaining {
      case Some(ms) => ParseIntToString(CeilSeconds(ms));
      case None => NoDigitFirst("NaN");
    }
  }

  /** The seconds in the notice read back as the remaining time rounded up to whole seconds. */
  lemma CooldownSecondsReadBack(remaining: nat)
    ensures ParseInt(NatToString(CeilSeconds(remaining))) == Some(CeilSeconds(remaining))
    ensures 0 < remaining <= 1000 ==> CeilSeconds(remaining) == 1
  {
    ParseIntToString(CeilSeconds(remaining));
  }

  // ---------------------------------------------------------------------------
  // Dispatch

  datatype Chat = Chat(id: int, kind: string)

  /** An incoming message: `from.id` when present, `text` (`''` when absent), and whether it
      carries a photo, a video or a document. */
  datatype Message = Message(messageId: int, chat: Chat, senderId: Option<int>, text: string, hasMedia: bool)

  /** A callback query: `message.chat.id` when it carries a message, and `data` (`''` when absent). */
  datatype CallbackQuery = CallbackQuery(queryId: string, senderId: int, chatId: Option<int>, data: string)

  datatype Update = Update(callback: Option<CallbackQuery>, message: Option<Message>)

  /** Where `handleUpdate` sends an update. */
  datatype Destination =
    | ToCallback(query: CallbackQuery)
    | NoSender
    | ToGroup(message: Message, userId: string)
    | Unsupported(message: Message, userId: string)
    | ToCommand(message: Message, userId: string, name: string, args: seq<string>)
    | ToChat(message: Message, userId: string)
    | Denied(message: Message, userId: string)
    | Nothing

  predicate IsGroupChat(kind: string) {
    kind == "group" || kind == "supergroup"
  }

  function Route(update: Update, whitelist: seq<string>): (r: Destination)
    ensures update.callback.Some? ==> r == ToCallback(update.callback.value)
    ensures r.ToGroup? ==> IsGroupChat(r.message.chat.kind)
    ensures (r.Unsupported? || r.ToCommand? || r.ToChat?) ==> r.userId in whitelist && !IsGroupChat(r.message.chat.kind)
    ensures r.Denied? ==> r.userId !in whitelist && r.message.chat.kind == "private"
    ensures r.ToCommand? ==> !r.message.hasMedia && StartsWith(r.message.text, "/")
    ensures r.ToChat? ==> !r.message.hasMedia && r.message.text != "" && !StartsWith(r.message.text, "/")
  {
    if update.callback.Some? then ToCallback(update.callback.value)
    else if update.message.None? then Nothing
    else
      var m := update.message.value;
      if m.senderId.None? then NoSender
      else
        var u := IntToString(m.senderId.value);
        if IsGroupChat(m.chat.kind) then ToGroup(m, u)
        else if u in whitelist then
          if m.hasMedia then Unsupported(m, u)
          else if m.text == "" then Nothing
          else if StartsWith(m.text, "/") then ToCommand(m, u, CommandCall(m.text).0, CommandCall(m.text).1)
          else ToChat(m, u)
        else if m.chat.kind == "private" then Denied(m, u)
        else Nothing
  }

  /** Group messages reach the group handler whoever sends them, and the user id is the sender's
      decimal id. */
  lemma GroupRouteIgnoresWhitelist(update: Update, w1: seq<string>, w2: seq<string>)
    requires update.callback.None? && update.message.Some?
    requires update.message.value.senderId.Some? && IsGroupChat(update.message.value.chat.kind)
    ensures Route(update, w1) == Route(update, w2)
    ensures Route(update, w1) == ToGroup(update.message.value, IntToString(update.message.value.senderId.value))
  {
  }

  /** A sender outside the whitelist never reaches a command, the model or the media notice. */
  lemma OutsidersOnlyDenied(update: Update, whitelist: seq<string>)
    requires update.callback.None? && update.message.Some? && update.message.value.senderId.Some?
    requires IntToString(update.message.value.senderId.value) !in whitelist
    requires !IsGroupChat(update.message.value.chat.kind)
    ensures Route(update, whitelist) == (if update.message.value.chat.kind == "private"
      then Denied(update.message.value, IntToString(update.message.value.senderId.value))
      else Nothing)
  {
  }

  // ---------------------------------------------------------------------------
  // The overload retry

  const OverloadedMarker := "The model is overloaded"
  const RetryFailure := "Failed to generate response after multiple retries."
  const MaxAttempts := 3
  const FirstDelay := 1000

  /** One run of the retry loop: its outcome, the number of calls made and the sleeps in order. */
  datatype RetryRun = RetryRun(result: Result<string, string>, calls: nat, delays: seq<nat>)

  predicate Overloaded(outcome: Result<string, string>) {
    outcome.Failure? && Contains(outcome.error, OverloadedMarker)
  }

  /** The loop from attempt `done` on, with `retries` attempts left and `delay` as the next sleep;
      attempt `i` fails or succeeds as `outcomes[i]` says, and `Success("")` is the empty
      response the loop starts from. */
  function RetryLoop(outcomes: seq<Result<string, string>>, retries: nat, delay: nat, done: nat): (r: RetryRun)
    requires done + retries <= |outcomes|
    ensures done <= r.calls <= done + retries
    decreases retries
  {
    if retries == 0 then RetryRun(Success(""), done, [])
    else if Overloaded(outcomes[done]) then
      var rest := RetryLoop(outcomes, retries - 1, delay * 2, done + 1);
      RetryRun(rest.result, rest.calls, [delay] + rest.delays)
    else RetryRun(outcomes[done], done + 1, [])
  }

  /** The group path's generation: at most three calls, doubling sleeps after an overload, and
      an empty response turned into the retry failure. */
  function Retry(outcomes: seq<Result<string, string>>): RetryRun
    requires |outcomes| >= MaxAttempts
  {
    var run := RetryLoop(outcomes, MaxAttempts, FirstDelay, 0);
    if run.result == Success("") then RetryRun(Failure(RetryFailure), run.calls, run.delays) else run
  }

  /** `n` sleeps, each twice the one before, starting from `delay`. */
  function Doublings(delay: nat, n: nat): (r: seq<nat>)
    ensures |r| == n
    decreases n
  {
    if n == 0 then [] else [delay] + Doublings(delay * 2, n - 1)
  }

  /** One sleep per overloaded attempt, each twice the one before. */
  lemma {:induction false} RetryLoopDelays(outcomes: seq<Result<string, string>>, retries: nat, delay: nat, done: nat)
    requires done + retries <= |outcomes|
    ensures var r := RetryLoop(outcomes, retries, delay, done);
      && |r.delays| <= retries
      && r.delays == Doublings(delay, |r.delays|)
      && (forall i :: done <= i < done + |r.delays| ==> Overloaded(outcomes[i]))
    decreases retries
  {
    if retries > 0 && Overloaded(outcomes[done]) {
      RetryLoopDelays(outcomes, retries - 1, delay * 2, done + 1);
    }
  }

  /** The loop stops at the first attempt that is not overloaded, with that attempt's outcome,
      or after its last attempt with the empty response. */
  lemma {:induction false} RetryLoopEnd(outcomes: seq<Result<string, string>>, retries: nat, delay: nat, done: nat)
    requires done + retries <= |outcomes|
    ensures var r := RetryLoop(outcomes, retries, delay, done);
      || (r.calls == done + |r.delays| + 1 && r.result == outcomes[r.calls - 1] && !Overloaded(r.result))
      || (r.calls == done + retries && |r.delays| == retries && r.result == Success(""))
    decreases retries
  {
    if retries > 0 && Overloaded(outcomes[done]) {
      RetryLoopEnd(outcomes, retries - 1, delay * 2, done + 1);
    }
  }

  /** What the group path's generation does, as the retry loop promises it. */
  lemma RetrySpec(outcomes: seq<Result<string, string>>)
    requires |outcomes| >= MaxAttempts
    ensures var r := Retry(outcomes);
      && 1 <= r.calls <= 3
      && r.delays == [1000, 2000, 4000][..|r.delays|]
      && (forall i :: 0 <= i < |r.delays| ==> Overloaded(outcomes[i]))
      && (r.result.Success? ==> r.result.value != "" && r.result == outcomes[r.calls - 1] && |r.delays| == r.calls - 1)
      && (r.result.Failure? ==> r.result.error == RetryFailure || (r.result == outcomes[r.calls - 1] && !Overloaded(r.result)))
  {
    RetryLoopDelays(outcomes, MaxAttempts, FirstDelay, 0);
    RetryLoopEnd(outcomes, MaxAttempts, FirstDelay, 0);
    var run := RetryLoop(outcomes, MaxAttempts, FirstDelay, 0);
    assert Doublings(1000, 3) == [1000, 2000, 4000];
    assert Doublings(1000, |run.delays|) == [1000, 2000, 4000][..|run.delays|];
  }

  /** An error other than an overload ends the loop at once and is passed on unchanged. */
  lemma RetryOtherError(outcomes: seq<Result<string, string>>)
    requires |outcomes| >= MaxAttempts && outcomes[0].Failure? && !Overloaded(outcomes[0])
    ensures Retry(outcomes) == RetryRun(outcomes[0], 1, [])
  {
  }

  /** Three overloads in a row: three calls, sleeps of 1, 2 and 4 seconds, then the retry failure. */
  lemma RetryExhausted(outcomes: seq<Result<string, string>>)
    requires |outcomes| >= MaxAttempts
    requires Overloaded(outcomes[0]) && Overloaded(outcomes[1]) && Overloaded(outcomes[2])
    ensures Retry(outcomes) == RetryRun(Failure(RetryFailure), 3, [1000, 2000, 4000])
  {
  }

  /** An empty response is reported as the retry failure without another call. */
  lemma RetryEmptyResponse(outcomes: seq<Result<string, string>>)
    requires |outcomes| >= MaxAttempts && outcomes[0] == Success("")
    ensures Retry(outcomes) == RetryRun(Failure(RetryFailure), 1, [])
  {
  }
}

=== FILE: wrappers.dfy ===
/** Optional values and results with an error, the shapes the source expresses with
    `undefined`/`null` and with thrown `Error`s. */
module Wrappers {

  datatype Option<+T> = None | Some(value: T) {
    function GetOr(default: T): T {
      match this
      case Some(v) => v
      case None => default
    }
  }

  datatype Result<+T, +E> = Success(value: T) | Failure(error: E) {
    predicate IsFailure() {
      Failure?
    }
  }
}
